=== FILE: README.md ===
# TeaTime booking core in Dafny

TeaTime books golf tee times on a Club Caddie site through a scripted
browser. This project models the decision logic of that program as pure
Dafny functions over plain data, and proves properties of it. The browser
and the file system are left out; what they would report becomes a parameter.

- `time_parse.dfy` (`TimeParse`) models `parse_time`, which tries three strptime formats and then a respacing fallback. It also models the leftmost search of the time regex `\d{1,2}:\d{2}\s*[AP]M`.
- `strptime.dfy` (`Strptime`) models the part of `datetime.strptime`/`strftime` the program uses: `%I:%M %p`, `%I:%M%p`, `%H:%M` and `%Y-%m-%d`.
- `calendar.dfy` (`Calendar`) defines Gregorian day ordinals, `+ timedelta(days=n)` and `weekday()`.
- `ranking.dfy` (`Ranking`) holds the slot record, the distance rule `abs(minutes - target) if minutes else 9999`, and Python's stable `sort(key=distance)`.
- `scanner.dfy` (`Scanner`) models `find_tee_time_slots_on_tee_sheet`, with its view dispatch and its per-view strategies, and `search_for_available_slots`.
- `booking.dfy` (`Booking`) models `attempt_booking`, the booking-URL date, `navigate_to_booking_page` and the retry loop of `book_tee_time`.
- `flow_test.dfy` (`BookingFlowTest`) models the parsers and pickers of the booking-flow functional test.
- `navigation_test.dfy` (`NavigationTest`) does the same for the navigation functional test.
- `test_base.dfy` (`TestBase`) models the results record of the functional tests and `run_test`.
- `auth.dfy` (`Auth`) models `login_to_club_caddie`, both as written and corrected.
- `config.dfy` (`ConfigLoader`) models the configuration singleton and its lookups.
- `date_utils.dfy` (`DateUtils`) models the target Saturday and the date range.
- `report.dfy` (`ReportGenerator`) models the figures of the HTML test report.
- `cleanup.dfy` (`CleanupArtifacts`) models the artifact listing, the size formatting, deletion and the interactive prompt.
- `text.dfy`, `json.dfy` and `wrappers.dfy` are shared helpers: string functions, JSON values, `Option`.

Some behaviours of the code that are easy to misread:

- **Unparsable times.** The code treats a time it cannot read differently in different places:
  - `find_tee_time_slots_on_tee_sheet` gives the sentinel distance 9999 to a time that did not parse. It does the same for a time that parsed to midnight, because `0` is falsy (booking.py:665).
  - The table-row strategy of `search_for_available_slots` computes `abs(None - target)`. That raises, and the whole search returns nothing.
  - Both functional tests drop such elements.
- **The last `parse_time` format.** After its three strptime formats, `parse_time` tries a respacing fallback. That fallback can never succeed where `%I:%M%p` failed (`TimeParse.FallbackIsSubsumed`), so `parse_time` is in effect its three strptime formats (`TimeParse.ParseTimeIsFirstFormat`).
- **`calculate_target_saturday`'s "under eight days" check** always holds. The next Saturday is one to seven days away, so a week is always added and the target is eight to fourteen days ahead (`DateUtils.OffsetFrom`).
- **The dry-run return after the dialog** in `attempt_booking` (booking.py:495-497) is never reached in a dry run. A dry run has already returned after highlighting the form or element.

## Model

| member | source | states |
|---|---|---|
| TimeParse.ParseTime | src/functions/booking.py:229-281 | parse_time gives a minute of the day below 1440, or nothing |
| TimeParse.ParseTimeIsFirstFormat | src/functions/booking.py:240-276 | parse_time is the minute of the first of `%I:%M %p`, `%I:%M%p`, `%H:%M` that reads the stripped text, and nothing when none does |
| TimeParse.FallbackIsSubsumed | src/functions/booking.py:266-276 | on text of the fallback's shape, `%I:%M%p` reads exactly what the respaced `%I:%M %p` reads |
| TimeParse.FallbackNeverNeeded | src/functions/booking.py:266-276 | when none of the three formats reads the text, the respacing fallback does not either |
| TimeParse.FirstClock | src/functions/booking.py:242-261 | the formats are tried in order; a clock is found iff some format reads the text, and it is that format's reading |
| TimeParse.ParseTimeDisplay12 | src/functions/booking.py:243-245 | every "H:MM AM/PM" display of a minute parses back to that minute |
| TimeParse.ParseTimeDisplay24 | src/functions/booking.py:257-259 | every "HH:MM" rendering of a minute parses back to that minute |
| TimeParse.ParseTimeIgnoresPadding | src/functions/booking.py:240 | leading and trailing whitespace never changes what parse_time reads |
| TimeParse.ParseTimeFormatTolerance | src/functions/booking.py:242-261 | "2:00 PM", "2:00PM" and "14:00" all parse to minute 840 |
| TimeParse.ParseTimeMidnightNoon | src/functions/booking.py:243-245 | 12:00 AM is minute 0 and 12:00 PM is minute 720 |
| TimeParse.ParseTimeNeedsLeadingDigit | src/functions/booking.py:240-280 | text whose stripped form does not begin with a digit is never a time |
| TimeParse.ParseTimeRejectsText | src/functions/booking.py:278-280 | "not a time" gives nothing |
| TimeParse.TimeMatch | src/functions/booking.py:321 | the regex search finds nothing iff the pattern matches at no position; a match is a piece of the text at least six characters long |
| TimeParse.SearchFrom | src/functions/booking.py:331-334 | the match is taken at the leftmost position where the pattern matches |
| Strptime.ParseClock | src/functions/booking.py:243 | strptime on a clock format yields hour < 24 and minute < 60, and `%H:%M` must consume the whole text |
| Strptime.To24 | src/functions/booking.py:244 | the `%I`/`%p` conversion gives an hour below 24 that is afternoon iff pm, equal to the 12-hour value modulo 12 |
| Strptime.Display12RoundTrip | src/functions/booking.py:243-244 | `%I:%M %p` reads a printed 12-hour time back as its 24-hour clock |
| Strptime.Display24RoundTrip | src/functions/booking.py:257-258 | `%H:%M` reads a printed 24-hour time back as its clock |
| Strptime.ParseIsoDate | src/functions/booking.py:96 | a `%Y-%m-%d` parse is a real calendar date: year 1..9999, month 1..12, day within the month |
| Strptime.IsoDateRoundTrip | src/utils/date_utils.py:26 | a date printed as `%Y-%m-%d` with a four-digit year parses back to itself |
| Calendar.NextDayOrdinal | src/utils/date_utils.py:19 | the next day is the next ordinal, across month and year ends and leap days |
| Calendar.AddDaysOrdinal | src/utils/date_utils.py:19 | adding n days adds n to the ordinal |
| Calendar.WeekdayAfter | src/utils/date_utils.py:12 | n days on, the weekday has advanced by n modulo 7 |
| DateUtils.CalculateTargetSaturday | src/utils/date_utils.py:4-26 | the printed target is a Saturday eight to fourteen days after today and, for four-digit years, reads back as that date |
| DateUtils.OffsetFrom | src/utils/date_utils.py:12-23 | the offset to the target is 8 to 14 days and lands on a Saturday |
| DateUtils.OffsetIsFirst | src/utils/date_utils.py:12-23 | no Saturday lies between eight days ahead and the offset |
| DateUtils.TargetIsSaturdayAfterAWeek | src/utils/date_utils.py:4-26 | the target date is a Saturday eight to fourteen days after today |
| DateUtils.TargetIsFirstSaturdayAfterAWeek | src/utils/date_utils.py:4-26 | no day from eight days ahead up to the target is a Saturday |
| DateUtils.TargetSaturdayReadsBack | src/utils/date_utils.py:26 | the printed target parses back to the date it names, offset days after today |
| DateUtils.CalculateDatesRange | src/utils/date_utils.py:28-41 | num_days entries (none when negative), entry i being the date days_ahead + i days after today |
| DateUtils.DatesRangeIsConsecutive | src/utils/date_utils.py:37-39 | consecutive entries of the range are consecutive days |
| DateUtils.DatesRangeStartsAtStart | src/utils/date_utils.py:34-38 | stepping i days from start_date equals stepping days_ahead + i days from today |
| Ranking.Distance | src/functions/booking.py:665 | the distance is the absolute difference between the slot's minutes and the target, and 9999 when the minutes are missing or zero |
| Ranking.DistanceZeroIffOnTarget | src/functions/booking.py:665 | a slot after midnight is at distance 0 iff it is at the target time |
| Ranking.MidnightIsUnranked | src/functions/booking.py:665 | a midnight slot gets 9999, even for a midnight target |
| Ranking.SortByDistance | src/functions/booking.py:835 | the sort is a permutation of the slots |
| Ranking.SortByDistanceIsSorted | src/functions/booking.py:835 | the sorted slots are in ascending distance |
| Ranking.SortByDistanceIsStable | src/functions/booking.py:835 | slots of equal distance keep their scan order |
| Ranking.FirstNearest | src/functions/booking.py:892 | the best slot's index: no slot is nearer, and every earlier slot is strictly farther |
| Ranking.SortedHeadIsFirstNearest | src/functions/booking.py:892 | the head of the sorted list is the first slot found at the least distance |
| Scanner.TargetMinutes | src/functions/booking.py:548-549 | the target reads iff `%H:%M` accepts it, and then as a minute below 1440 |
| Scanner.NearestTime | src/functions/booking.py:730-745 | the time comes from the nearest of the first five ancestors whose text holds one; none when none of them does |
| Scanner.ViewOf | src/functions/booking.py:570-572 | a tee-sheet URL is the tee-sheet view even when it also names a booking route; the view is unknown iff no route is named |
| Scanner.FindTeeTimeSlots | src/functions/booking.py:536-848 | a malformed target raises; a page call raising inside the guarded block gives no slots; otherwise the result holds exactly the view's slots, sorted by distance |
| Scanner.ScanSlotsAreRanked | src/functions/booking.py:613-831 | every slot carries the minutes of its time text and the distance of those minutes |
| Scanner.FormSlotsAreBookableForms | src/functions/booking.py:620-667 | a form yields a slot iff it shows a slot time and passes the bookable test; the slot is submitted by its form id |
| Scanner.TeeSheetSlotsAreBookableForms | src/functions/booking.py:617-667 | on the tee sheet, when no page call raises, the sorted result holds exactly the slots of the bookable forms |
| Scanner.CardSlotsAreCardControls | src/functions/booking.py:702-716 | a time-card slot is clicked through the card's first control |
| Scanner.ControlSlotsAreControls | src/functions/booking.py:721-757 | a slot of the second strategy is a booking control timed by its ancestors |
| Scanner.BookingViewFallsBackInOrder | src/functions/booking.py:719-760 | on the booking view, cards win when they yield slots, and clickables are used only when cards and controls yielded none |
| Scanner.BestSlotIsFirstNearest | src/functions/booking.py:834-840 | a scan that found slots did not raise, and the slot booked first is the first found at the least distance |
| Scanner.RowSlotsFrom | src/functions/booking.py:329-367 | the row scan aborts iff an available row's time does not parse; otherwise it yields exactly the available rows' slots |
| Scanner.SearchForAvailableSlots | src/functions/booking.py:283-397 | a malformed target raises; nothing is chosen iff a page call raises, the search aborts or it has no candidate; otherwise the choice is the first candidate at the least distance |
| Scanner.SearchChoosesFirstNearest | src/functions/booking.py:380-397 | whenever there are candidates, the search returns the first one, in scan order, at the least distance, or nothing when a page call raises |
| Scanner.UnparsedRowAbortsSearch | src/functions/booking.py:366 | an available row whose time does not parse makes the search return nothing |
| Scanner.RowSlotsAreRows | src/functions/booking.py:350-359 | a row slot is clicked through the row's first control or the row itself |
| Scanner.RowsComeBeforeClickables | src/functions/booking.py:369-397 | when rows yield a slot and none aborts, a slot is chosen iff no page call raises, and it is a row slot |
| Booking.FinalButtonOf | src/functions/booking.py:500-508 | there is no final button iff the dialog has no submit control and no button says book, reserve or submit; otherwise it is the first such button |
| Booking.AttemptBooking | src/functions/booking.py:399-534 | the actions taken are a prefix of the planned ones; a raising page call fails the attempt, keeping only the actions made before it; a dry run takes no booking action (slot submit, slot click, player entry, final click) and succeeds iff nothing raises and the slot has a form id or the element check on its element does not raise |
| Booking.LiveBookingEndsWithFinalClick | src/functions/booking.py:459-534 | a live attempt books iff no page call raises, the first action worked and the dialog has a final button, and it then ends by clicking that button |
| Booking.LiveBookingEntersPlayerCount | src/functions/booking.py:477-491 | a live attempt that meets a player input selects or types the player count, unless a page call raised before that entry |
| Booking.EncodeSlashes | src/functions/booking.py:113 | no slash is left after the encoding |
| Booking.EncodeSlashesAppend | src/functions/booking.py:113 | the encoding works piece by piece: encoding a concatenation is concatenating the encodings |
| Booking.UrlDate | src/functions/booking.py:105-116 | the URL date never holds a dash, whichever branch produced it |
| Booking.UrlDateOfIso | src/functions/booking.py:110-113 | a well-formed target date becomes MM%2FDD%2FYYYY of that date |
| Booking.FirstMemberLink | src/functions/booking.py:190-195 | the link clicked is the first whose text holds "Book a Member Tee Time"; none iff no link does |
| Booking.NavigateToBookingPage | src/functions/booking.py:86-227 | the direct URL is used iff it lands on the booking pages; the alternate iff the direct one landed elsewhere without raising and the alternate lands on them |
| Booking.SheetRoute | src/functions/booking.py:179-227 | the tee-sheet fallback follows a member link, else the first booking form's submit button, else a script submit that needs an element with id `TeeSheetForm0` |
| Booking.NavigationReachesIff | src/functions/booking.py:126-227 | navigation succeeds iff a booking URL lands on the booking pages, or the tee sheet shows the member link, or its first booking form has a submit button, or (failing that) an element with id `TeeSheetForm0` exists |
| Booking.DirectUrlCarriesDate | src/functions/booking.py:118 | the direct URL holds the URL date and the booking-view route |
| Booking.AlternateUrlCarriesDate | src/functions/booking.py:165 | the alternate URL holds the URL date and the booking route |
| Booking.AttemptStep | src/functions/booking.py:874-950 | an attempt books iff the `attempt_booking` call it makes (on the best slot, or on the simulated slot of a dry run's last attempt with a tee-sheet form) reports a booking; only the last attempt gives up; an exception never books and leads to a reload while attempts remain; a booking from an empty scan happens only on a dry run's last attempt with a form |
| Booking.StepActionsAreDry | src/functions/booking.py:874-950 | no dry-run attempt takes a booking action (slot submit, slot click, player entry, final click); navigating to the booking page between retries may still click or submit on the tee sheet |
| Booking.BookTeeTime | src/functions/booking.py:850-952 | a negative max_retries runs no attempt and fails; otherwise between 1 and max_retries + 1 attempts run, a success comes from the last one, whose `attempt_booking` call reported a booking, and every earlier one moved on; the first attempt that books, reached after retries only, ends the run with success; an unbooked run ended in a give-up or ran every attempt; a dry run takes no booking action |
| Booking.StepsBookWhereBookingBooks | src/functions/booking.py:888-925 | an attempt books exactly when its `attempt_booking` call reports a booking |
| Booking.RunFromBooksIff | src/functions/booking.py:874-952 | the loop returns True iff some attempt books after every earlier one moved on to a retry |
| Booking.RunBooksIffSomeBookingBooks | src/functions/booking.py:874-952 | book_tee_time returns True iff some attempt, reached after retries only, makes an `attempt_booking` call that reports a booking |
| Booking.RunAttempts | src/functions/booking.py:874-952 | the loop stops at the first attempt that books or gives up, or after the last attempt; it reports success iff the attempt it stopped at booked; the earlier ones all moved on to a retry |
| Booking.MalformedTargetNeverBooks | src/functions/booking.py:936-950 | a target time `%H:%M` rejects never books, and the only actions are reloads of the site |
| Booking.DryRunSimulationBooks | src/functions/booking.py:903-925 | a dry run whose scans find nothing, with a tee-sheet form on the last page, succeeds iff the simulated booking raises nothing |
| Booking.EmptyScanStep | src/functions/booking.py:900-934 | an empty scan books the simulated slot on a dry run's last attempt when a form exists and nothing raises, and otherwise retries or gives up |
| Booking.EmptyScanMovesOn | src/functions/booking.py:900-934 | an empty scan with no simulated slot to try retries while attempts remain and gives up on the last |
| Booking.EmptyScansNeverBook | src/functions/booking.py:874-934 | if every scan is empty and the last attempt has no simulated slot (a live run, or no tee-sheet form), nothing is booked: each attempt moves on and the last gives up |
| BookingFlowTest.FlowParseTime | src/tests/functional/test_booking_flow.py:249-264 | the test's parser yields a valid clock or nothing |
| BookingFlowTest.FlowParseTimeAgreesWithParseTime | src/tests/functional/test_booking_flow.py:249-264 | the test's parser reads exactly the times parse_time reads, to the same minute |
| BookingFlowTest.TestTargetMinutes | src/tests/functional/test_booking_flow.py:141-145 | with a colon the target reads iff `%H:%M` accepts it, as a minute of the day; without one iff `int()` accepts it, as whole hours |
| BookingFlowTest.TestTargetOfClock | src/tests/functional/test_booking_flow.py:141-143 | an "HH:MM" target reads as its minute of the day |
| BookingFlowTest.TestTargetOfHour | src/tests/functional/test_booking_flow.py:144-145 | a bare hour h reads as h * 60, negative hours included |
| BookingFlowTest.LikelyAvailableIff | src/tests/functional/test_booking_flow.py:184-189 | the availability test fails exactly for text that says "taken" and none of "book", "reserve", "available" |
| BookingFlowTest.FindBestSlot | src/tests/functional/test_booking_flow.py:131-247 | a bad target or a raising page call fails the step; otherwise no candidate gives none, and a result is a candidate no candidate is nearer than |
| BookingFlowTest.FlowBestIsFirstNearest | src/tests/functional/test_booking_flow.py:204-247 | unless a page call raises, the best slot is the first candidate at the least distance |
| BookingFlowTest.FlowSlotsAreReadableTimes | src/tests/functional/test_booking_flow.py:167-198 | every candidate comes from a non-empty text with a readable time and carries its true distance, midnight included |
| BookingFlowTest.BestOption | src/tests/functional/test_booking_flow.py:343-351 | no option is picked iff no option value is an integer; the pick is closest to the player count, and ties keep the earliest |
| BookingFlowTest.FirstHit | src/tests/functional/test_booking_flow.py:382-390 | the selector used is the first one that found a button |
| BookingFlowTest.BookingButton | src/tests/functional/test_booking_flow.py:382-397 | the first matching selector's button, else the form's last button; none iff neither exists |
| BookingFlowTest.EnterPlayers | src/tests/functional/test_booking_flow.py:328-363 | an input gets `str(player_count)`; a select with an integer option gets the value of the integer option closest to the player count, the earliest among equally close ones; a select without one gets `str(player_count)`; no field, no action |
| BookingFlowTest.DryRunAttempt | src/tests/functional/test_booking_flow.py:266-442 | the attempt succeeds iff no page call raised, a form appeared and a booking button was found; a raise fails it, keeps only the actions made before it and picks no button; it clicks the slot first and only highlights the button |
| NavigationTest.ParseTimeToMinutes | src/tests/functional/test_navigation.py:367-379 | text without a colon is never a time; a result is a minute below 1440 read by `%I:%M %p` or `%H:%M` |
| NavigationTest.NavParseAgreesWithParseTime | src/tests/functional/test_navigation.py:367-379 | whatever this reader reads, parse_time reads the same |
| NavigationTest.NavRejectsCompactTimes | src/tests/functional/test_navigation.py:369-375 | a time without a space before am/pm is lost here, though parse_time reads it |
| NavigationTest.NavReadsClock24 | src/tests/functional/test_navigation.py:373-376 | every "HH:MM" display reads back as its minute |
| NavigationTest.FindAvailableSlots | src/tests/functional/test_navigation.py:361-473 | a bad target or a raising page call gives no slots; otherwise exactly the located readable times, sorted by distance |
| NavigationTest.NavSlotsAreLocatedTimes | src/tests/functional/test_navigation.py:436-460 | every slot is a located element's matched time that reads, with its true distance, from a scan that did not raise |
| NavigationTest.NavSlotsAreStable | src/tests/functional/test_navigation.py:463-473 | slots at equal distance stay in page order; a raising scan has none |
| NavigationTest.DirectUrlDate | src/tests/functional/test_navigation.py:188-190 | the URL date has no dashes |
| NavigationTest.DirectUrlDateDigits | src/tests/functional/test_navigation.py:188-190 | for a four-digit year it is YYYYMMDD of the day a week ahead |
| NavigationTest.WeeksAhead | src/tests/functional/test_navigation.py:189 | the day seven days on has the same weekday |
| NavigationTest.CompactIso | src/tests/functional/test_navigation.py:190 | removing the dashes leaves the eight digits YYYYMMDD |
| Auth.Mask | src/functions/auth.py:34 | the logged name shows its first three characters and "...", then its last three when it is longer than three |
| Auth.MaskLength | src/functions/auth.py:34 | the masked user name is at most nine characters and always shows "..." after the head |
| Auth.Verdict | src/functions/auth.py:89-112 | a URL without "login" always signs in; when the element query raises, the URL alone decides |
| Auth.VerdictIsDisjunction | src/functions/auth.py:88-112 | login succeeds iff the URL lacks "login", a logged-in element is present or the login form is gone; a raising check drops only its own signals |
| Auth.LoginAsWritten | src/functions/auth.py:13-134 | as written, no attempt is made iff a credential is missing |
| Auth.AsWrittenRejectsRealCredentials | src/functions/auth.py:76-85 | as written, every pair but the test pair fails to log in, whatever the site shows |
| Auth.AsWrittenLosesSuccessfulLogin | src/functions/auth.py:82 | a sign-in the verdict accepts is rejected as written and accepted by the corrected login |
| Auth.LoginToClubCaddie | src/functions/auth.py:13-134 | corrected: no attempt iff a credential is missing; a login implies the browser started and signed in |
| Auth.LoginFollowsVerdict | src/functions/auth.py:87-123 | corrected, outside test runs: real credentials log in iff the verdict holds |
| Auth.VersionsAgreeBeforeLine82 | src/functions/auth.py:29-79 | both versions agree whenever the run ends before line 82 |
| ConfigLoader.Construct | src/utils/config_loader.py:26-45 | a constructed instance is left alone; otherwise the file, or the defaults when it is missing, is loaded; a read error propagates and leaves it uninitialised |
| ConfigLoader.ConstructOnce | src/utils/config_loader.py:28-29 | once loaded, later constructions change nothing and read no file |
| ConfigLoader.RaisedLoadRetries | src/utils/config_loader.py:79-81 | after a failed load the next construction loads again |
| ConfigLoader.Get | src/utils/config_loader.py:106-108 | `.get` gives the stored value or the default, and raises on a non-dict |
| ConfigLoader.Section | src/utils/config_loader.py:90-104 | a missing section reads as an empty dict |
| ConfigLoader.GetValue | src/utils/config_loader.py:106-108 | a missing section or key gives the default; the lookup raises iff the config or the section is not a dict |
| ConfigLoader.GetValueIgnoresDefault | src/utils/config_loader.py:106-108 | a stored value wins over any default |
| ConfigLoader.DefaultsWithoutFile | src/utils/config_loader.py:56-78 | without a file: Sunday, 14:00, four players, a dry run, two retries, a seven-day window |
| TestBase.LoadConfig | src/tests/functional/test_base.py:65-77 | loading succeeds iff the integer settings parse, and the credentials are always among the keys |
| TestBase.RecordedConfig | src/tests/functional/test_base.py:79-80 | the recorded configuration is the loaded one without the two credentials |
| TestBase.NewResults | src/tests/functional/test_base.py:30-39 | a new record is unfinished and unsuccessful, with no steps, errors or screenshots, and no credentials |
| TestBase.CredentialsNeverRecorded | src/tests/functional/test_base.py:67-80 | every non-secret setting is recorded and no credential is |
| TestBase.AddStep | src/tests/functional/test_base.py:266-276 | a running step is appended with `data or {}`; nothing else changes |
| TestBase.UpdateStepStatus | src/tests/functional/test_base.py:278-286 | only the first step with the id changes: status, end time, and non-empty data merged in; no such step, no change |
| TestBase.AddError | src/tests/functional/test_base.py:288-295 | one error is appended; nothing else changes |
| TestBase.SetTestResult | src/tests/functional/test_base.py:297-305 | the flag is set, and a failure with a message adds a "test_result" error |
| TestBase.UpdateReachesAddedStep | src/tests/functional/test_base.py:266-286 | an update reaches the step just added when no earlier step shares its id |
| TestBase.UpdateIsIdempotent | src/tests/functional/test_base.py:278-286 | a repeated identical update changes nothing |
| TestBase.RunTest | src/tests/functional/test_base.py:307-328 | a failed setup records its error and fails; otherwise the run's verdict is recorded, tear-down is the last step, and the result is the verdict unless the run or the tear-down raised; the end time is set unless the tear-down raised |
| TestBase.RaisedRunIsRecorded | src/tests/functional/test_base.py:318-321 | a raising run is a failure whose last error carries the exception's message |
| ReportGenerator.TallyStatuses | src/tests/utils/report_generator.py:91-94 | the tally has the four statuses and every status seen, each with its number of steps |
| ReportGenerator.CountsAddUp | src/tests/utils/report_generator.py:91-94 | over distinct keys covering all statuses, the counts add up to the number of steps |
| ReportGenerator.StatusClass | src/tests/utils/report_generator.py:162-167 | a step gets a colour class iff its status is one of the four |
| ReportGenerator.StatusClassesDiffer | src/tests/utils/report_generator.py:162-167 | different statuses get different colours |
| ReportGenerator.Duration | src/tests/utils/report_generator.py:42-49 | the duration is empty unless both times are set, then the difference or "Unknown" |
| ReportGenerator.UnfinishedHasNoDuration | src/tests/utils/report_generator.py:43 | a test without an end time shows no duration |
| ReportGenerator.VerdictBadge | src/tests/utils/report_generator.py:243-245 | the badge says SUCCESS and is green iff the test succeeded |
| ReportGenerator.BadgeMatchesStepColours | src/tests/utils/report_generator.py:243 | the badge wears the colour of a succeeded or failed step |
| ReportGenerator.SummaryCountsBounded | src/tests/utils/report_generator.py:258-263 | succeeded, failed and warned steps never exceed the step count |
| ReportGenerator.ErrorsBlock | src/tests/utils/report_generator.py:271 | the errors block is empty iff there are no errors, and otherwise holds the alert of every error |
| ReportGenerator.ConcatHoldsEach | src/tests/utils/report_generator.py:197-212 | appending the alerts one after another keeps every alert in the text |
| CleanupArtifacts.ParseCategory | src/utils/cleanup_artifacts.py:172-176 | a name is rejected iff it is not a choice; "all" expands to the four categories; any other choice is its own category |
| CleanupArtifacts.ParseCategoryOfName | src/utils/cleanup_artifacts.py:176 | each category's name selects exactly that category |
| CleanupArtifacts.RunDirs | src/utils/cleanup_artifacts.py:86-111 | test results are listed run directory by run directory; stray files are skipped |
| CleanupArtifacts.CategoryCandidates | src/utils/cleanup_artifacts.py:112-138 | another category shows its whole directory iff it exists and is not empty |
| CleanupArtifacts.Gather | src/utils/cleanup_artifacts.py:55-69 | the candidates are exactly those of the selected categories |
| CleanupArtifacts.KeepOld | src/utils/cleanup_artifacts.py:93-94 | a candidate is kept iff no cutoff applies or it is no newer than the cutoff |
| CleanupArtifacts.ListArtifactDirectories | src/utils/cleanup_artifacts.py:46-145 | rows are numbered 1, 2, ... and each is of a selected category and old enough |
| CleanupArtifacts.ListingShowsEveryOldCandidate | src/utils/cleanup_artifacts.py:46-145 | every old-enough candidate of a selected category is listed |
| CleanupArtifacts.ListAllAsWrittenIsEmpty | src/utils/cleanup_artifacts.py:55-69 | as written, `--list --category all` lists nothing, though "all" covers every category |
| CleanupArtifacts.ListCommand | src/utils/cleanup_artifacts.py:266-268 | corrected listing: numbered rows, each of a wanted category and old enough |
| CleanupArtifacts.ListCommandShowsWanted | src/utils/cleanup_artifacts.py:266-268 | corrected, every old-enough candidate of every wanted category is listed, for "all" too |
| CleanupArtifacts.RoundHalfEven | src/utils/cleanup_artifacts.py:40-44 | the rounding is within half a unit, with ties going to the even number |
| CleanupArtifacts.UnitOf | src/utils/cleanup_artifacts.py:37-44 | the unit is the largest, up to GB, whose divisor the size reaches |
| CleanupArtifacts.Hundredths | src/utils/cleanup_artifacts.py:40 | the printed hundredths are within half a hundredth of the exact quotient |
| CleanupArtifacts.FormatSizeOfBytes | src/utils/cleanup_artifacts.py:37-38 | below 1024 the size is printed exactly, as bytes, and reads back |
| CleanupArtifacts.FormatSize | src/utils/cleanup_artifacts.py:35-44 | the printed size ends with the unit the 1024 thresholds choose |
| CleanupArtifacts.FormatSizeIsNearest | src/utils/cleanup_artifacts.py:39-44 | from 1024 on, the printed text is whole units, a point, two decimals and the unit, and that figure is within half a hundredth of the size in its unit |
| CleanupArtifacts.DeleteArtifacts | src/utils/cleanup_artifacts.py:147-168 | the freed size is at most the listed total, and equal to it when no path vanished |
| CleanupArtifacts.ConfirmedIff | src/utils/cleanup_artifacts.py:189-191 | only a lone "y" or "Y" confirms |
| CleanupArtifacts.ListEach | src/utils/cleanup_artifacts.py:179-180 | every row comes from one of the categories asked for |
| CleanupArtifacts.DeleteAllByCategory | src/utils/cleanup_artifacts.py:170-194 | an invalid category is refused; for a valid one, nothing is found iff the per-category listings are empty, and a confirmed deletion takes exactly those listed rows, all of wanted categories |
| CleanupArtifacts.DeletionTakesEveryOldCandidate | src/utils/cleanup_artifacts.py:176-191 | every old-enough candidate of a category the name stands for is listed, so the deletion never reports nothing found and a confirmed one takes it |
| CleanupArtifacts.ValidNumbers | src/utils/cleanup_artifacts.py:232 | at most one number per comma-separated piece |
| CleanupArtifacts.SelectedNumbers | src/utils/cleanup_artifacts.py:232 | every number selected is the value of a piece of the input that is all digits once stripped |
| CleanupArtifacts.Chosen | src/utils/cleanup_artifacts.py:237 | the chosen rows are exactly the listed rows whose numbers were typed |
| CleanupArtifacts.DeleteByNumbers | src/utils/cleanup_artifacts.py:231-251 | a confirmed deletion takes exactly the rows whose numbers were typed; nothing valid iff no row number was typed |
| CleanupArtifacts.InteractiveCleanup | src/utils/cleanup_artifacts.py:196-255 | anything deleted was confirmed and not empty |
| CleanupArtifacts.SelectedNumbersRoundTrip | src/utils/cleanup_artifacts.py:232 | typing numbers separated by commas selects exactly those numbers, in order |
| CleanupArtifacts.ChoosingNumbersDeletesThem | src/utils/cleanup_artifacts.py:216-249 | typing listed numbers and confirming deletes exactly the rows with those numbers |
| CleanupArtifacts.Dispatch | src/utils/cleanup_artifacts.py:257-273 | `main()` with the `--list` branch corrected to list every category for "all": a category outside the choices is a usage error; nothing is deleted with `--list` or without a confirmation |
| CleanupArtifacts.DispatchListsAsWrittenExceptAll | src/utils/cleanup_artifacts.py:266-268 | the correction changes only `--list --category all`: any other listing is the one `main()` as written prints |
| Text.SplitJoin | src/utils/cleanup_artifacts.py:232 | `split` loses nothing: joining the pieces gives the text back |
| Text.PyIntOfIntToString | src/tests/functional/test_booking_flow.py:145 | `int(str(n)) == n` for every integer |

## Left out

- The browser (Playwright), screenshots, logging, sleeps and waits are not modelled. What a page shows is a datatype value; what a `goto` or a query returns is a parameter, and so is whether a page call raises.
- The clock is a parameter: "now" is a date, or a count of seconds. Time zones and daylight saving are ignored.
- `navigate_to_tee_sheet` is left out. It is reduced to whether the tee sheet loads. Its default-date branch imports `calculate_target_day` and `calculate_available_dates`, which date_utils.py does not define.
- Lower-casing and `isdigit` are modelled on ASCII only; Python's Unicode case and digit tables are not part of this model. Whitespace for `strip()` and `\s` is the full set `str.isspace` accepts.
- The in-page JavaScript checks are modelled as the data they read: the bookable test of a tee-sheet form, and the ancestors' texts for the time search. The DOM is not modelled.
- `format_size` divides exactly and rounds once. Python's float division differs only for sizes beyond 2^53 bytes.
- Directory sizes, modification times, and whether a path still exists are inputs; `get_dir_size` and the file system are not modelled.
- Exceptions inside the listing and deletion loops, and the printed text, are not modelled.
- HTML layout of the report is left out. That includes the index page whose header is a plain string, so its `{datetime...}` is printed literally. `find_test_directories`, `generate_index_report` and `main` of the report generator are also left out.
- ReportGenerator.Duration: the printed difference of two timestamps is an input, `elapsed`. ISO-timestamp arithmetic is not modelled.
- Report step statuses are strings; a status of another JSON type is not modelled.
- ReportGenerator.ErrorsBlock: an error's time is an input, already formatted; the `fromisoformat` reformatting to `%H:%M:%S`, and the template's layout whitespace, are not modelled.
- TestBase.RunTest: only a raise while closing the browser is modelled for tear-down; a raise while writing results.json, after the end time is set, is not.
- Strptime.ParseIsoDate: years past 9999 and `%Y` forms other than four digits are not modelled; round trips are stated for four-digit years.
- DateUtils.CalculateDatesRange: `days_ahead` is a natural number. A negative `days_ahead`, which goes back in time, is not modelled.
- TestBase.LoadConfig: the non-integer settings are recorded as read. Environment defaults beyond the keys read are not modelled.
- Text.PyInt: digit-group underscores (`int("1_0")`) are not accepted.
- Auth.LoginToClubCaddie: the environment flag `TEATIME_TEST_RUN` is a parameter, and the page, browser and playwright handles are reduced to a verdict.

## Findings

| source | as written | input that shows it | evidently intended | confidence | as-written member | corrected member |
|---|---|---|---|---|---|---|
| src/functions/auth.py:82 | `os.getenv` is called, but `os` is never imported (imports at lines 2-8). The `NameError` is caught at line 125, so the login fails | user "golfer", password "secret", a signed-in page at `/account` with a logged-in element | outside test runs, reach the URL/element verdict and log in when it holds | not executed | Auth.AsWrittenLosesSuccessfulLogin | Auth.LoginFollowsVerdict |
| src/utils/cleanup_artifacts.py:55-69 | `--list --category all` passes "all" to the listing, and every category filter compares the name with "all", so nothing is listed | `--list --category all` with a non-empty screenshots directory | "all" lists every category, as it does for deletion (line 176) | not executed | CleanupArtifacts.ListAllAsWrittenIsEmpty | CleanupArtifacts.ListCommandShowsWanted |

=== FILE: auth.dfy ===
/**
 * `login_to_club_caddie` of src/functions/auth.py: the credential check,
 * the username mask written to the log, the bypass for the test
 * credentials, and the verdict on whether the sign-in worked. The browser
 * is replaced by what it observed.
 *
 * The module never imports `os`, so the `os.getenv` that reads the
 * test-run flag raises `NameError` for every other pair of credentials and
 * the handler turns that into a failed login. `LoginAsWritten` models that;
 * `LoginToClubCaddie` is the function with `os` imported, the flag passed in.
 */
module Auth {
  import opened Wrappers
  import opened Text

  /** `username[:3] + "..." + (username[-3:] if len(username) > 3 else '')` */
  function Mask(u: string): (r: string)
    ensures |u| > 3 ==> r == u[..3] + "..." + u[|u| - 3..]
    ensures |u| <= 3 ==> r == u + "..."
  {
    var head := if |u| >= 3 then u[..3] else u;
    head + "..." + (if |u| > 3 then u[|u| - 3..] else "")
  }

  /** The mask is at most nine characters long, whatever the name's length, and always ends the shown head with "...". */
  lemma MaskLength(u: string)
    ensures |Mask(u)| == (if |u| > 3 then 9 else |u| + 3)
    ensures Mask(u)[(if |u| > 3 then 3 else |u|)..][..3] == "..."
  {
  }

  /** Python truthiness of an optional string: set and non-empty. */
  predicate Present(s: Option<string>) {
    s.Some? && s.value != ""
  }

  /** The pair that always logs in, whatever the page shows. */
  predicate SentinelCredentials(username: string, password: string) {
    username == "test_user" && password == "test_password"
  }

  /**
   * The two element checks after sign-in: both ran; the first raised; or the
   * second raised after the first counted its elements.
   */
  datatype ElementChecks =
    | ChecksRan(loggedInElements: nat, loginFormPresent: bool)
    | ElementsRaised
    | FormCheckRaised(loggedInElements: nat)

  /**
   * What the browser saw. `launched` is false when starting the browser
   * raised; `signedIn` is false when loading the login page, filling the
   * fields or clicking sign-in raised.
   */
  datatype Browser = Browser(launched: bool, signedIn: bool, url: string, checks: ElementChecks)

  /** `(page, browser, playwright)` or `(None, None, None)`, and whether a browser was started for it. */
  datatype LoginResult = NotAttempted | LoginFailed | LoggedIn

  /**
   * The login verdict: the URL no longer mentions "login", or a logged-in
   * element is present, or the login form is gone. A raising check leaves
   * the signals gathered before it.
   */
  predicate Verdict(url: string, checks: ElementChecks): (ok: bool)
    ensures !Contains(Lower(url), "login") ==> ok
    ensures checks.ElementsRaised? ==> (ok <==> !Contains(Lower(url), "login"))
  {
    var byUrl := !Contains(Lower(url), "login");
    match checks
      case ChecksRan(n, form) => byUrl || n > 0 || !form
      case ElementsRaised => byUrl
      case FormCheckRaised(n) => byUrl || n > 0
  }

  /** The verdict is the OR of the three signals; a raising check counts as a missing signal. */
  lemma VerdictIsDisjunction(url: string, checks: ElementChecks)
    ensures Verdict(url, checks) <==>
              || !Contains(Lower(url), "login")
              || ((checks.ChecksRan? || checks.FormCheckRaised?) && checks.loggedInElements > 0)
              || (checks.ChecksRan? && !checks.loginFormPresent)
    ensures checks.ElementsRaised? ==> (Verdict(url, checks) <==> !Contains(Lower(url), "login"))
  {
  }

  /** `login_to_club_caddie` as written: the `os.getenv` on line 82 raises `NameError`. */
  function LoginAsWritten(username: Option<string>, password: Option<string>, b: Browser): (r: LoginResult)
    ensures r == NotAttempted <==> !Present(username) || !Present(password)
  {
    if !Present(username) || !Present(password) then NotAttempted
    else if !b.launched || !b.signedIn then LoginFailed
    else if SentinelCredentials(username.value, password.value) then LoggedIn
    else LoginFailed  // NameError: name 'os' is not defined, caught by the handler
  }

  /** `login_to_club_caddie` with `os` imported; `testRunFlag` is `os.getenv("TEATIME_TEST_RUN")`. */
  function LoginToClubCaddie(username: Option<string>, password: Option<string>, testRunFlag: Option<string>, b: Browser): (r: LoginResult)
    ensures r == NotAttempted <==> !Present(username) || !Present(password)
    ensures r == LoggedIn ==> b.launched && b.signedIn
  {
    if !Present(username) || !Present(password) then NotAttempted
    else if !b.launched || !b.signedIn then LoginFailed
    else if SentinelCredentials(username.value, password.value) then LoggedIn
    else if testRunFlag.Some? && Lower(testRunFlag.value) == "true" then LoggedIn
    else if Verdict(b.url, b.checks) then LoggedIn
    else LoginFailed
  }

  /** As written, only the test credentials can ever log in, whatever the site shows. */
  lemma AsWrittenRejectsRealCredentials(username: Option<string>, password: Option<string>, b: Browser)
    requires Present(username) && Present(password)
    requires !SentinelCredentials(username.value, password.value)
    ensures LoginAsWritten(username, password, b) == LoginFailed
  {
  }

  /** A concrete case: a successful sign-in that both versions see, and only the corrected one accepts. */
  lemma AsWrittenLosesSuccessfulLogin(username: Option<string>, password: Option<string>, b: Browser)
    requires username == Some("golfer") && password == Some("secret")
    requires b == Browser(true, true, "https://customer-cc36.clubcaddie.com/account", ChecksRan(1, false))
    ensures LoginAsWritten(username, password, b) == LoginFailed
    ensures LoginToClubCaddie(username, password, None, b) == LoggedIn
  {
    assert !SentinelCredentials(username.value, password.value) by {
      assert username.value[0] != "test_user"[0];
    }
  }

  /** Corrected: outside test runs, real credentials log in exactly when the verdict says so. */
  lemma LoginFollowsVerdict(username: Option<string>, password: Option<string>, b: Browser)
    requires Present(username) && Present(password) && b.launched && b.signedIn
    requires !SentinelCredentials(username.value, password.value)
    ensures LoginToClubCaddie(username, password, None, b) == LoggedIn <==> Verdict(b.url, b.checks)
  {
  }

  /** Both versions agree on everything but the line that raises: missing credentials, broken browsers, the test pair. */
  lemma VersionsAgreeBeforeLine82(username: Option<string>, password: Option<string>, flag: Option<string>, b: Browser)
    requires !Present(username) || !Present(password) || !b.launched || !b.signedIn
             || SentinelCredentials(username.value, password.value)
    ensures LoginAsWritten(username, password, b) == LoginToClubCaddie(username, password, flag, b)
  {
  }
}

=== FILE: booking.dfy ===
/**
 * The booking flow of src/functions/booking.py: `attempt_booking` on one slot,
 * `navigate_to_booking_page`, and the retry loop of `book_tee_time`. The browser
 * is replaced by snapshots of what each step would find; every effect on the
 * booking site is recorded as an `Action`.
 */
module Booking {
  import opened Wrappers
  import opened Text
  import opened Strptime
  import opened Ranking
  import opened Scanner

  // ---- attempt_booking ----

  /**
   * The booking form or dialog that appears after the first action: the tag
   * name of its player-count input if it has one, whether it holds a
   * `[type=submit]` control, and the texts of its buttons.
   */
  datatype Dialog = Dialog(playerInput: Option<string>, hasSubmit: bool, buttons: seq<string>)

  /**
   * What `attempt_booking` finds: whether the `el.isConnected` check on the
   * slot's element returns rather than raises (its value is ignored, so a
   * detached element that can still be evaluated passes), the dialog, if any,
   * and `raisesAfter`: `Some(k)` when some other page call of the attempt
   * raises once `k` of its actions are made (a click or a highlight that
   * fails, a `select_option` without that value, a `fill` on an element that
   * is no input, a button without text).
   */
  datatype BookingPage = BookingPage(elementReachable: bool, dialog: Option<Dialog>, raisesAfter: Option<nat>)

  datatype Action =
    | HighlightForm(formId: string)
    | SubmitForm(formId: string)
    | HighlightElement(handle: Handle)
    | ClickElement(handle: Handle)
    | SelectPlayers(value: string)
    | FillPlayers(value: string)
    | ClickFinal(button: FinalButton)
    | OpenBookingPage(route: Route)
    | ReloadSite
  {
    /**
     * An action on the slot or the booking dialog: submitting or clicking the
     * slot, entering the player count, the final click. Highlighting is not,
     * and neither is `OpenBookingPage`, although the route it takes may itself
     * click a link or submit a form on the tee sheet.
     */
    predicate Books() {
      SubmitForm? || ClickElement? || SelectPlayers? || FillPlayers? || ClickFinal?
    }
  }

  /** The final button: the `[type=submit]` control, or the button at an index. */
  datatype FinalButton = SubmitControl | ButtonAt(index: nat)

  /** The final button's text test: book, reserve or submit, lower-cased. */
  predicate FinalText(text: string) {
    Contains(Lower(text), "book") || Contains(Lower(text), "reserve") || Contains(Lower(text), "submit")
  }

  function FirstFinalFrom(buttons: seq<string>, i: nat): (r: Option<nat>)
    requires i <= |buttons|
    ensures r.Some? ==> i <= r.value < |buttons| && FinalText(buttons[r.value])
                        && forall k :: i <= k < r.value ==> !FinalText(buttons[k])
    ensures r.None? ==> forall k :: i <= k < |buttons| ==> !FinalText(buttons[k])
    decreases |buttons| - i
  {
    if i == |buttons| then None
    else if FinalText(buttons[i]) then Some(i)
    else FirstFinalFrom(buttons, i + 1)
  }

  /** The submit control if there is one, else the first button whose text says book, reserve or submit. */
  function FinalButtonOf(d: Dialog): (r: Option<FinalButton>)
    ensures r.None? <==> !d.hasSubmit && forall k :: 0 <= k < |d.buttons| ==> !FinalText(d.buttons[k])
    ensures r.Some? && r.value.ButtonAt? ==>
              !d.hasSubmit && r.value.index < |d.buttons| && FinalText(d.buttons[r.value.index])
              && forall k :: 0 <= k < r.value.index ==> !FinalText(d.buttons[k])
  {
    if d.hasSubmit then Some(SubmitControl)
    else match FirstFinalFrom(d.buttons, 0)
      case None => None
      case Some(i) => Some(ButtonAt(i))
  }

  /** Filling the player count: a `select` gets an option chosen, anything else gets typed into. */
  function PlayerActions(d: Dialog, playerCount: nat): seq<Action> {
    match d.playerInput
      case None => []
      case Some(tag) =>
        if Lower(tag) == "select" then [SelectPlayers(NatToString(playerCount))]
        else [FillPlayers(NatToString(playerCount))]
  }

  datatype Attempt = Attempt(booked: bool, actions: seq<Action>)

  /** The live part after the first action: the dialog, the player count, the final click. */
  function CompleteBooking(page: BookingPage, playerCount: nat): Attempt {
    match page.dialog
      case None => Attempt(false, [])
      case Some(d) =>
        match FinalButtonOf(d)
          case None => Attempt(false, PlayerActions(d, playerCount))
          case Some(b) => Attempt(true, PlayerActions(d, playerCount) + [ClickFinal(b)])
  }

  /**
   * `attempt_booking`: the actions the attempt takes when no page call raises,
   * and its verdict then. A slot from a form is submitted, any other slot's
   * element clicked (an element check that raises ends the attempt); in a dry
   * run the form or element is only highlighted and the attempt reports
   * success at once.
   */
  function PlannedAttempt(slot: Slot, page: BookingPage, playerCount: nat, dryRun: bool): Attempt {
    match slot.formId
      case Some(id) =>
        if dryRun then Attempt(true, [HighlightForm(id)])
        else
          var rest := CompleteBooking(page, playerCount);
          Attempt(rest.booked, [SubmitForm(id)] + rest.actions)
      case None =>
        if !page.elementReachable then Attempt(false, [])
        else if dryRun then Attempt(true, [HighlightElement(slot.handle)])
        else
          var rest := CompleteBooking(page, playerCount);
          Attempt(rest.booked, [ClickElement(slot.handle)] + rest.actions)
  }

  /**
   * `attempt_booking`: the planned attempt, unless a page call raises. The
   * handler around the whole attempt then returns False, and only the actions
   * made before the raise were taken.
   */
  function AttemptBooking(slot: Slot, page: BookingPage, playerCount: nat, dryRun: bool): (r: Attempt)
    ensures r.actions <= PlannedAttempt(slot, page, playerCount, dryRun).actions
    ensures page.raisesAfter.Some? ==> !r.booked && |r.actions| <= page.raisesAfter.value
    ensures dryRun ==> forall k :: 0 <= k < |r.actions| ==> !r.actions[k].Books()
    ensures dryRun ==> (r.booked <==> page.raisesAfter.None? && (slot.formId.Some? || page.elementReachable))
  {
    var planned := PlannedAttempt(slot, page, playerCount, dryRun);
    match page.raisesAfter
      case None => planned
      case Some(k) => Attempt(false, if k < |planned.actions| then planned.actions[..k] else planned.actions)
  }

  /**
   * A live attempt books exactly when no page call raises and it reaches a
   * dialog with a final button, and then it ends by clicking that button.
   */
  lemma LiveBookingEndsWithFinalClick(slot: Slot, page: BookingPage, playerCount: nat)
    ensures var r := AttemptBooking(slot, page, playerCount, false);
            (r.booked <==> page.raisesAfter.None? && (slot.formId.Some? || page.elementReachable)
                           && page.dialog.Some? && FinalButtonOf(page.dialog.value).Some?)
            && (r.booked ==> r.actions[|r.actions| - 1] == ClickFinal(FinalButtonOf(page.dialog.value).value))
  {
  }

  /**
   * A live attempt that reaches a dialog with a player input enters the player
   * count, unless a page call raises before that entry is made.
   */
  lemma LiveBookingEntersPlayerCount(slot: Slot, page: BookingPage, playerCount: nat)
    requires slot.formId.Some? || page.elementReachable
    requires page.dialog.Some? && page.dialog.value.playerInput.Some?
    ensures var r := AttemptBooking(slot, page, playerCount, false);
            page.raisesAfter.None? || page.raisesAfter.value > 1 ==>
              SelectPlayers(NatToString(playerCount)) in r.actions || FillPlayers(NatToString(playerCount)) in r.actions
  {
    var r := AttemptBooking(slot, page, playerCount, false);
    var planned := PlannedAttempt(slot, page, playerCount, false);
    var d := page.dialog.value;
    var pa := PlayerActions(d, playerCount);
    assert pa[0] in pa;
    assert planned.actions[1..][..|pa|] == pa;
    assert planned.actions[1 + 0] == pa[0];
    if page.raisesAfter.None? || page.raisesAfter.value > 1 {
      assert r.actions[1] == pa[0];
    }
  }

  // ---- navigate_to_booking_page ----

  /** Replaces every `/` with `%2F`, as `str.replace("/", "%2F")`. */
  function EncodeSlashes(s: string): (r: string)
    ensures '/' !in r
  {
    if s == [] then []
    else (if s[0] == '/' then "%2F" else [s[0]]) + EncodeSlashes(s[1..])
  }

  lemma {:induction false} EncodeSlashesAppend(a: string, b: string)
    ensures EncodeSlashes(a + b) == EncodeSlashes(a) + EncodeSlashes(b)
  {
    if a != [] {
      assert (a + b)[1..] == a[1..] + b;
      EncodeSlashesAppend(a[1..], b);
    } else {
      assert a + b == b;
    }
  }

  lemma {:induction false} EncodeSlashesDigits(s: string)
    requires AllDigits(s)
    ensures EncodeSlashes(s) == s
  {
    if s != [] {
      EncodeSlashesDigits(s[1..]);
      assert s == [s[0]] + s[1..];
    }
  }

  /** `strftime("%m/%d/%Y")`. */
  function UsText(d: Date): string
    requires ValidDate(d)
  {
    Pad2(d.month) + "/" + Pad2(d.day) + "/" + YearText(d.year)
  }

  /**
   * The `date=` value of the booking URLs: `MM%2FDD%2FYYYY` when the target date
   * parses as `%Y-%m-%d`, otherwise the target date with its dashes removed.
   */
  function UrlDate(targetDate: string): (r: string)
    ensures '-' !in r
  {
    NoDashInUsText(targetDate);
    match ParseIsoDate(targetDate)
      case Some(d) => EncodeSlashes(UsText(d))
      case None => Remove(targetDate, '-')
  }

  lemma {:induction false} EncodeSlashesNoDash(s: string)
    requires '-' !in s
    ensures '-' !in EncodeSlashes(s)
  {
    if s != [] {
      EncodeSlashesNoDash(s[1..]);
    }
  }

  lemma NoDigitIsDash(s: string)
    requires AllDigits(s)
    ensures '-' !in s
  {
    forall k | 0 <= k < |s| ensures s[k] != '-' {
      assert IsDigit(s[k]);
    }
  }

  lemma NoDashInUsText(targetDate: string)
    ensures ParseIsoDate(targetDate).Some? ==> '-' !in EncodeSlashes(UsText(ParseIsoDate(targetDate).value))
  {
    if ParseIsoDate(targetDate).Some? {
      var d := ParseIsoDate(targetDate).value;
      NoDigitIsDash(Pad2(d.month));
      NoDigitIsDash(Pad2(d.day));
      NoDigitIsDash(YearText(d.year));
      EncodeSlashesNoDash(UsText(d));
    }
  }

  /** The URL date of a well-formed date names its month, day and year, with encoded slashes. */
  lemma UrlDateOfIso(d: Date)
    requires ValidDate(d) && 1000 <= d.year <= 9999
    ensures UrlDate(IsoText(d)) == Pad2(d.month) + "%2F" + Pad2(d.day) + "%2F" + YearText(d.year)
  {
    IsoDateRoundTrip(d);
    var m, dd, y := Pad2(d.month), Pad2(d.day), YearText(d.year);
    EncodeSlashesAppend(m + "/" + dd + "/", y);
    EncodeSlashesAppend(m + "/" + dd, "/");
    EncodeSlashesAppend(m + "/", dd);
    EncodeSlashesAppend(m, "/");
    EncodeSlashesDigits(m);
    EncodeSlashesDigits(dd);
    EncodeSlashesDigits(y);
    assert EncodeSlashes("/") == "%2F";
  }

  const Site: string := "https://customer-cc36.clubcaddie.com/"

  /** The pieces of the two booking URLs: the route, the course's slot page, and the query after the date. */
  const ViewRoute: string := "TeeTimes/view"
  const BookingRoute: string := "TeeTimes/booking"
  const SlotsPage: string := "/cbfdabab/slots?date="
  const SlotsQuery: string := "&player=1&ratetype=any"

  function DirectBookingUrl(targetDate: string): string {
    Site + ViewRoute + SlotsPage + UrlDate(targetDate) + SlotsQuery
  }

  function AlternateBookingUrl(targetDate: string): string {
    Site + BookingRoute + SlotsPage + UrlDate(targetDate) + SlotsQuery
  }

  function TeeSheetUrl(targetDate: string): string {
    Site + "TeeSheet/view/cbfdabab/sheet?date=" + targetDate
  }

  /** Where a `page.goto` ended: the URL it landed on, or an exception. */
  datatype Landing = Landed(url: string) | GotoRaised

  /**
   * The tee sheet as the fallback sees it: unreachable, or its links' texts,
   * for each `form[action*='TeeTimes/booking']` whether it has a submit button,
   * and whether some element has the id `TeeSheetForm0` that the script submit
   * looks up.
   */
  datatype SheetPage = SheetRaised | SheetShown(links: seq<string>, bookingForms: seq<bool>, hasForm0: bool)

  /** What navigation would meet: the two booking URLs and the tee sheet. */
  datatype SiteView = SiteView(direct: Landing, alternate: Landing, sheet: SheetPage)

  datatype Route = DirectUrl | AlternateUrl | MemberLink(index: nat) | FormSubmit | FormScript | NotReached

  predicate OnBookingPages(l: Landing) {
    l.Landed? && Contains(l.url, "TeeTimes")
  }

  const MemberLinkText: string := "Book a Member Tee Time"

  function FirstMemberLink(links: seq<string>, i: nat): (r: Option<nat>)
    requires i <= |links|
    ensures r.Some? ==> i <= r.value < |links| && Contains(links[r.value], MemberLinkText)
                        && forall k :: i <= k < r.value ==> !Contains(links[k], MemberLinkText)
    ensures r.None? ==> forall k :: i <= k < |links| ==> !Contains(links[k], MemberLinkText)
    decreases |links| - i
  {
    if i == |links| then None
    else if Contains(links[i], MemberLinkText) then Some(i)
    else FirstMemberLink(links, i + 1)
  }

  /**
   * The tee-sheet fallback: the member link, else the first booking form's
   * submit button, else a script submit of `TeeSheetForm0`, which raises (and
   * so fails) when no element has that id.
   */
  function SheetRoute(sheet: SheetPage): (r: Route)
    ensures r.MemberLink? ==> sheet.SheetShown? && r.index < |sheet.links| && Contains(sheet.links[r.index], MemberLinkText)
    ensures r == FormSubmit ==> sheet.SheetShown? && sheet.bookingForms != [] && sheet.bookingForms[0]
    ensures r == FormScript ==> sheet.SheetShown? && sheet.bookingForms != [] && !sheet.bookingForms[0] && sheet.hasForm0
  {
    match sheet
      case SheetRaised => NotReached
      case SheetShown(links, forms, form0) =>
        match FirstMemberLink(links, 0)
          case Some(i) => MemberLink(i)
          case None =>
            if forms == [] then NotReached
            else if forms[0] then FormSubmit
            else if form0 then FormScript
            else NotReached
  }

  /** `navigate_to_booking_page`: the route that reached the booking page. */
  function NavigateToBookingPage(site: SiteView): (r: Route)
    ensures r == DirectUrl <==> OnBookingPages(site.direct)
    ensures r == AlternateUrl <==> site.direct.Landed? && !OnBookingPages(site.direct) && OnBookingPages(site.alternate)
  {
    if OnBookingPages(site.direct) then DirectUrl
    else if site.direct.Landed? && OnBookingPages(site.alternate) then AlternateUrl
    else SheetRoute(site.sheet)
  }

  /**
   * Navigation succeeds exactly when a booking URL lands on the booking pages
   * or the tee sheet offers a way in: a member link, or a first booking form
   * with a submit button or, failing that, a `TeeSheetForm0` to submit.
   */
  lemma NavigationReachesIff(site: SiteView)
    ensures NavigateToBookingPage(site) != NotReached <==>
              OnBookingPages(site.direct)
              || (site.direct.Landed? && OnBookingPages(site.alternate))
              || (site.sheet.SheetShown? &&
                  ((exists k :: 0 <= k < |site.sheet.links| && Contains(site.sheet.links[k], MemberLinkText))
                   || (site.sheet.bookingForms != [] && (site.sheet.bookingForms[0] || site.sheet.hasForm0))))
  {
    if site.sheet.SheetShown? {
      var links := site.sheet.links;
      if FirstMemberLink(links, 0).None? {
        assert !exists k :: 0 <= k < |links| && Contains(links[k], MemberLinkText);
      }
    }
  }

  /** The direct booking URL carries the URL date and names the booking view the scanner recognises. */
  lemma DirectUrlCarriesDate(targetDate: string)
    ensures Contains(DirectBookingUrl(targetDate), UrlDate(targetDate))
    ensures Contains(DirectBookingUrl(targetDate), ViewRoute)
  {
    UrlCarries(Site, ViewRoute, SlotsPage, UrlDate(targetDate), SlotsQuery);
  }

  /** The alternate URL carries the same date and names the booking route. */
  lemma AlternateUrlCarriesDate(targetDate: string)
    ensures Contains(AlternateBookingUrl(targetDate), UrlDate(targetDate))
    ensures Contains(AlternateBookingUrl(targetDate), BookingRoute)
  {
    UrlCarries(Site, BookingRoute, SlotsPage, UrlDate(targetDate), SlotsQuery);
  }

  /** A URL built from five pieces contains the second and the fourth. */
  lemma UrlCarries(a: string, b: string, c: string, d: string, e: string)
    ensures Contains(a + b + c + d + e, b) && Contains(a + b + c + d + e, d)
  {
    assert a + b + c + d + e == a + b + (c + d + e);
    ContainsMiddle(a, b, c + d + e);
    assert a + b + c + d + e == (a + b + c) + d + e;
    ContainsMiddle(a + b + c, d, e);
  }

  // ---- book_tee_time ----

  /**
   * What one attempt meets: whether the tee sheet loads, the page the scan reads,
   * what the booking attempt finds, and the pages `navigate_to_booking_page` would meet.
   */
  datatype AttemptEnv = AttemptEnv(sheetLoads: bool, page: Page, booking: BookingPage, site: SiteView)

  datatype Outcome = Booked | NextAttempt | GiveUp

  /** One attempt's outcome and the actions it took on the site. */
  datatype Step = Step(outcome: Outcome, actions: seq<Action>)

  /** The simulated slot of a dry run's last attempt: the first tee-sheet form, at the target time, distance 0. */
  function SimulatedSlot(p: Page, targetTime: string, target: nat): Slot
    requires p.forms != []
  {
    Slot(SimulatedForm, targetTime, Some(target), 0, Some(p.forms[0].id))
  }

  /** After an exception: reload the site and retry while attempts remain, else give up. */
  function AfterException(attempt: nat, maxRetries: nat): Step {
    if attempt < maxRetries then Step(NextAttempt, [ReloadSite]) else Step(GiveUp, [])
  }

  /** After finding no slot: open the booking page and retry while attempts remain, else give up. */
  function AfterNoSlot(env: AttemptEnv, attempt: nat, maxRetries: nat, done: seq<Action>): Step {
    if attempt < maxRetries then Step(NextAttempt, done + [OpenBookingPage(NavigateToBookingPage(env.site))])
    else Step(GiveUp, done)
  }

  /**
   * The `attempt_booking` call an attempt makes, if any: on the best slot of a
   * scan that found some, or on the simulated slot of a dry run's last attempt
   * whose scan found none and whose page has a tee-sheet form. An attempt that
   * raises before the scan returns tries nothing.
   */
  function BookingTried(env: AttemptEnv, attempt: nat, maxRetries: nat, targetTime: string, playerCount: nat, dryRun: bool): Option<Attempt> {
    if !env.sheetLoads then None
    else match FindTeeTimeSlots(env.page, targetTime)
      case TargetRaised => None
      case Slots(slots) =>
        if slots != [] then Some(AttemptBooking(slots[0], env.booking, playerCount, dryRun))
        else if dryRun && attempt == maxRetries && env.page.forms != [] then
          Some(AttemptBooking(SimulatedSlot(env.page, targetTime, TargetMinutes(targetTime).value), env.booking, playerCount, dryRun))
        else None
  }

  /** Whether the `attempt_booking` call of an attempt, if it makes one, reports a booking. */
  predicate BooksAt(env: AttemptEnv, attempt: nat, maxRetries: nat, targetTime: string, playerCount: nat, dryRun: bool) {
    var tried := BookingTried(env, attempt, maxRetries, targetTime, playerCount, dryRun);
    tried.Some? && tried.value.booked
  }

  /**
   * One pass of the loop of `book_tee_time`. An exception (the tee sheet does
   * not load, or the target time is malformed) leads to a retry from the site
   * root or, on the last attempt, to giving up. A failed booking of the best
   * slot goes straight to the next attempt; finding no slot tries the simulated
   * slot on a dry run's last attempt, then opens the booking page and retries,
   * or gives up.
   */
  function AttemptStep(env: AttemptEnv, attempt: nat, maxRetries: nat, targetTime: string, playerCount: nat, dryRun: bool): (r: Step)
    ensures r.outcome == GiveUp ==> attempt >= maxRetries
    ensures !env.sheetLoads || FindTeeTimeSlots(env.page, targetTime).TargetRaised? ==>
              r.outcome != Booked && (r.outcome == NextAttempt <==> attempt < maxRetries)
              && forall k :: 0 <= k < |r.actions| ==> r.actions[k] == ReloadSite
    ensures r.outcome == Booked ==>
              env.sheetLoads && FindTeeTimeSlots(env.page, targetTime).Slots?
              && (FindTeeTimeSlots(env.page, targetTime).slots == [] ==> dryRun && attempt == maxRetries && env.page.forms != [])
    ensures r.outcome == Booked <==> BooksAt(env, attempt, maxRetries, targetTime, playerCount, dryRun)
  {
    if !env.sheetLoads then AfterException(attempt, maxRetries)
    else match FindTeeTimeSlots(env.page, targetTime)
      case TargetRaised => AfterException(attempt, maxRetries)
      case Slots(slots) =>
        if slots != [] then
          var a := AttemptBooking(slots[0], env.booking, playerCount, dryRun);
          Step(if a.booked then Booked else NextAttempt, a.actions)
        else if dryRun && attempt == maxRetries && env.page.forms != [] then
          var a := AttemptBooking(SimulatedSlot(env.page, targetTime, TargetMinutes(targetTime).value), env.booking, playerCount, dryRun);
          if a.booked then Step(Booked, a.actions) else AfterNoSlot(env, attempt, maxRetries, a.actions)
        else AfterNoSlot(env, attempt, maxRetries, [])
  }

  /** The step every attempt would take, attempt by attempt. */
  function AttemptSteps(envs: seq<AttemptEnv>, maxRetries: nat, targetTime: string, playerCount: nat, dryRun: bool): (r: seq<Step>)
    ensures |r| == |envs|
    ensures forall i :: 0 <= i < |envs| ==> r[i] == AttemptStep(envs[i], i, maxRetries, targetTime, playerCount, dryRun)
  {
    seq(|envs|, i requires 0 <= i < |envs| => AttemptStep(envs[i], i, maxRetries, targetTime, playerCount, dryRun))
  }

  /** Steps `i..` run one after another until one books or gives up: whether one booked, and the actions taken. */
  function RunFrom(steps: seq<Step>, i: nat): (r: (bool, seq<Action>))
    decreases |steps| - i
  {
    if i >= |steps| then (false, [])
    else match steps[i].outcome
      case Booked => (true, steps[i].actions)
      case GiveUp => (false, steps[i].actions)
      case NextAttempt =>
        var rest := RunFrom(steps, i + 1);
        (rest.0, steps[i].actions + rest.1)
  }

  /** A step that takes no booking action (navigation and highlighting aside). */
  predicate DryStep(step: Step) {
    forall k :: 0 <= k < |step.actions| ==> !step.actions[k].Books()
  }

  lemma StepActionsAreDry(env: AttemptEnv, attempt: nat, maxRetries: nat, targetTime: string, playerCount: nat)
    ensures DryStep(AttemptStep(env, attempt, maxRetries, targetTime, playerCount, true))
  {
  }

  lemma AttemptStepsAreDry(envs: seq<AttemptEnv>, maxRetries: nat, targetTime: string, playerCount: nat)
    ensures forall i :: 0 <= i < |envs| ==> DryStep(AttemptSteps(envs, maxRetries, targetTime, playerCount, true)[i])
  {
    forall i | 0 <= i < |envs| ensures DryStep(AttemptSteps(envs, maxRetries, targetTime, playerCount, true)[i]) {
      StepActionsAreDry(envs[i], i, maxRetries, targetTime, playerCount);
    }
  }

  /**
   * `book_tee_time` with `max_retries` retries, where `envs[i]` is what attempt
   * `i` meets: runs the attempts in order until one books or gives up. Reports
   * whether a booking succeeded, how many attempts ran, and every action taken
   * on the site. A negative `max_retries` runs no attempt and reports failure.
   */
  method BookTeeTime(envs: seq<AttemptEnv>, targetTime: string, playerCount: nat, dryRun: bool, maxRetries: int)
    returns (booked: bool, attempts: nat, actions: seq<Action>)
    requires |envs| == if maxRetries < 0 then 0 else maxRetries + 1
    ensures maxRetries < 0 ==> !booked && attempts == 0 && actions == []
    ensures maxRetries >= 0 ==>
              var steps := AttemptSteps(envs, maxRetries, targetTime, playerCount, dryRun);
              && (booked, actions) == RunFrom(steps, 0)
              && 1 <= attempts <= maxRetries + 1
              && (booked ==> steps[attempts - 1].outcome == Booked)
              && (forall i :: 0 <= i < attempts - 1 ==> steps[i].outcome == NextAttempt)
              && (!booked ==> attempts == maxRetries + 1 || steps[attempts - 1].outcome == GiveUp)
              && (booked ==> BooksAt(envs[attempts - 1], attempts - 1, maxRetries, targetTime, playerCount, dryRun))
              && forall i :: 0 <= i < |steps| && steps[i].outcome == Booked && (forall j :: 0 <= j < i ==> steps[j].outcome == NextAttempt)
                             ==> booked && attempts == i + 1
    ensures dryRun ==> forall k :: 0 <= k < |actions| ==> !actions[k].Books()
  {
    if maxRetries < 0 {
      return false, 0, [];
    }
    var steps := AttemptSteps(envs, maxRetries, targetTime, playerCount, dryRun);
    if dryRun {
      AttemptStepsAreDry(envs, maxRetries, targetTime, playerCount);
    }
    booked, attempts, actions := RunAttempts(steps, dryRun);
    assert booked ==> steps[attempts - 1] == AttemptStep(envs[attempts - 1], attempts - 1, maxRetries, targetTime, playerCount, dryRun);
  }

  /** An attempt's step books exactly when its `attempt_booking` call reports a booking. */
  lemma StepsBookWhereBookingBooks(envs: seq<AttemptEnv>, maxRetries: nat, targetTime: string, playerCount: nat, dryRun: bool)
    ensures forall i :: 0 <= i < |envs| ==>
              (AttemptSteps(envs, maxRetries, targetTime, playerCount, dryRun)[i].outcome == Booked
               <==> BooksAt(envs[i], i, maxRetries, targetTime, playerCount, dryRun))
  {
    forall i | 0 <= i < |envs|
      ensures AttemptSteps(envs, maxRetries, targetTime, playerCount, dryRun)[i].outcome == Booked
              <==> BooksAt(envs[i], i, maxRetries, targetTime, playerCount, dryRun)
    {
      assert AttemptSteps(envs, maxRetries, targetTime, playerCount, dryRun)[i]
             == AttemptStep(envs[i], i, maxRetries, targetTime, playerCount, dryRun);
    }
  }

  /** Steps `i..` book iff one of them books after the ones before it all moved on. */
  lemma {:induction false} RunFromBooksIff(steps: seq<Step>, i: nat)
    ensures RunFrom(steps, i).0 <==>
              exists k :: i <= k < |steps| && steps[k].outcome == Booked && forall j :: i <= j < k ==> steps[j].outcome == NextAttempt
    decreases |steps| - i
  {
    if i < |steps| && steps[i].outcome == NextAttempt {
      RunFromBooksIff(steps, i + 1);
      if RunFrom(steps, i).0 {
        var k :| i + 1 <= k < |steps| && steps[k].outcome == Booked && forall j :: i + 1 <= j < k ==> steps[j].outcome == NextAttempt;
        assert forall j :: i <= j < k ==> steps[j].outcome == NextAttempt;
      }
    }
  }

  /**
   * `book_tee_time` books iff some attempt, reached after retries only, makes
   * an `attempt_booking` call that reports a booking.
   */
  lemma RunBooksIffSomeBookingBooks(envs: seq<AttemptEnv>, maxRetries: nat, targetTime: string, playerCount: nat, dryRun: bool)
    ensures var steps := AttemptSteps(envs, maxRetries, targetTime, playerCount, dryRun);
            RunFrom(steps, 0).0 <==>
              exists i :: 0 <= i < |envs| && BooksAt(envs[i], i, maxRetries, targetTime, playerCount, dryRun)
                          && forall j :: 0 <= j < i ==> steps[j].outcome == NextAttempt
  {
    RunFromBooksIff(AttemptSteps(envs, maxRetries, targetTime, playerCount, dryRun), 0);
    StepsBookWhereBookingBooks(envs, maxRetries, targetTime, playerCount, dryRun);
  }

  /** The loop of `book_tee_time` over the attempts' steps. */
  method RunAttempts(steps: seq<Step>, dryRun: bool) returns (booked: bool, attempts: nat, actions: seq<Action>)
    requires |steps| > 0
    requires dryRun ==> forall i :: 0 <= i < |steps| ==> DryStep(steps[i])
    ensures (booked, actions) == RunFrom(steps, 0)
    ensures 1 <= attempts <= |steps|
    ensures booked <==> steps[attempts - 1].outcome == Booked
    ensures forall i :: 0 <= i < attempts - 1 ==> steps[i].outcome == NextAttempt
    ensures !booked ==> attempts == |steps| || steps[attempts - 1].outcome == GiveUp
    ensures forall i :: 0 <= i < |steps| && steps[i].outcome == Booked && (forall j :: 0 <= j < i ==> steps[j].outcome == NextAttempt)
                        ==> booked && attempts == i + 1
    ensures dryRun ==> forall k :: 0 <= k < |actions| ==> !actions[k].Books()
  {
    booked, attempts, actions := false, 0, [];
    var done := false;
    assert [] + RunFrom(steps, 0).1 == RunFrom(steps, 0).1;
    while !done
      invariant attempts <= |steps|
      invariant !done ==> attempts < |steps|
      invariant done ==> 1 <= attempts
      invariant forall i :: 0 <= i < (if done then attempts - 1 else attempts) ==> steps[i].outcome == NextAttempt
      invariant done ==> (booked, actions) == RunFrom(steps, 0)
      invariant !done ==> RunFrom(steps, 0) == (RunFrom(steps, attempts).0, actions + RunFrom(steps, attempts).1)
      invariant booked ==> done
      invariant done ==> (booked <==> steps[attempts - 1].outcome == Booked)
      invariant done && !booked ==> attempts == |steps| || steps[attempts - 1].outcome == GiveUp
      invariant dryRun ==> forall k :: 0 <= k < |actions| ==> !actions[k].Books()
      decreases |steps| - attempts, if done then 0 else 1
    {
      var step := steps[attempts];
      ghost var rest := RunFrom(steps, attempts + 1);
      assert actions + (step.actions + rest.1) == (actions + step.actions) + rest.1;
      actions := actions + step.actions;
      attempts := attempts + 1;
      match step.outcome {
        case Booked =>
          booked, done := true, true;
        case GiveUp =>
          done := true;
        case NextAttempt =>
          if attempts == |steps| {
            assert actions + [] == actions;
            done := true;
          }
      }
    }
  }

  /** A malformed target time fails every attempt: nothing is booked and the only actions are reloads. */
  lemma {:induction false} MalformedTargetNeverBooks(envs: seq<AttemptEnv>, i: nat, maxRetries: nat, targetTime: string, playerCount: nat, dryRun: bool)
    requires |envs| == maxRetries + 1
    requires TargetMinutes(targetTime).None?
    ensures !RunFrom(AttemptSteps(envs, maxRetries, targetTime, playerCount, dryRun), i).0
    ensures forall k :: 0 <= k < |RunFrom(AttemptSteps(envs, maxRetries, targetTime, playerCount, dryRun), i).1| ==>
              RunFrom(AttemptSteps(envs, maxRetries, targetTime, playerCount, dryRun), i).1[k] == ReloadSite
    decreases |envs| - i
  {
    var steps := AttemptSteps(envs, maxRetries, targetTime, playerCount, dryRun);
    if i <= maxRetries {
      MalformedTargetNeverBooks(envs, i + 1, maxRetries, targetTime, playerCount, dryRun);
      assert FindTeeTimeSlots(envs[i].page, targetTime) == TargetRaised;
      assert steps[i] == AfterException(i, maxRetries);
    }
  }

  /**
   * A dry run whose every attempt loads the tee sheet but finds no slot, and
   * whose last page has a tee-sheet form, succeeds exactly when the simulated
   * slot is "booked" there without a page call raising.
   */
  lemma {:induction false} DryRunSimulationBooks(envs: seq<AttemptEnv>, i: nat, maxRetries: nat, targetTime: string, playerCount: nat)
    requires |envs| == maxRetries + 1 && i <= maxRetries
    requires TargetMinutes(targetTime).Some?
    requires forall k :: i <= k <= maxRetries ==> envs[k].sheetLoads && FindTeeTimeSlots(envs[k].page, targetTime) == Slots([])
    requires envs[maxRetries].page.forms != []
    ensures RunFrom(AttemptSteps(envs, maxRetries, targetTime, playerCount, true), i).0 <==> envs[maxRetries].booking.raisesAfter.None?
    decreases |envs| - i
  {
    var steps := AttemptSteps(envs, maxRetries, targetTime, playerCount, true);
    EmptyScanStep(envs[i], i, maxRetries, targetTime, playerCount);
    if i < maxRetries {
      DryRunSimulationBooks(envs, i + 1, maxRetries, targetTime, playerCount);
    }
  }

  /**
   * A dry-run attempt whose scan finds nothing books the simulated slot on the
   * last attempt, unless a page call of that booking raises, and otherwise
   * moves on.
   */
  lemma EmptyScanStep(env: AttemptEnv, attempt: nat, maxRetries: nat, targetTime: string, playerCount: nat)
    requires attempt <= maxRetries
    requires env.sheetLoads && FindTeeTimeSlots(env.page, targetTime) == Slots([])
    ensures var outcome := AttemptStep(env, attempt, maxRetries, targetTime, playerCount, true).outcome;
            if attempt == maxRetries && env.page.forms != [] && env.booking.raisesAfter.None? then outcome == Booked
            else outcome == (if attempt < maxRetries then NextAttempt else GiveUp)
  {
  }

  /**
   * An attempt whose scan finds nothing and that has no simulated slot to try
   * (a live run, an earlier attempt, or no tee-sheet form) retries while
   * attempts remain and otherwise gives up.
   */
  lemma EmptyScanMovesOn(env: AttemptEnv, attempt: nat, maxRetries: nat, targetTime: string, playerCount: nat, dryRun: bool)
    requires attempt <= maxRetries
    requires env.sheetLoads && FindTeeTimeSlots(env.page, targetTime) == Slots([])
    requires !dryRun || attempt < maxRetries || env.page.forms == []
    ensures AttemptStep(env, attempt, maxRetries, targetTime, playerCount, dryRun).outcome
            == (if attempt < maxRetries then NextAttempt else GiveUp)
  {
  }

  /**
   * When every scan comes back empty and the last attempt has no simulated
   * slot (a live run, or no tee-sheet form), nothing is booked: every attempt
   * but the last moves on, and the last gives up.
   */
  lemma {:induction false} EmptyScansNeverBook(envs: seq<AttemptEnv>, i: nat, maxRetries: nat, targetTime: string, playerCount: nat, dryRun: bool)
    requires |envs| == maxRetries + 1 && i <= maxRetries
    requires forall k :: i <= k <= maxRetries ==> envs[k].sheetLoads && FindTeeTimeSlots(envs[k].page, targetTime) == Slots([])
    requires !dryRun || envs[maxRetries].page.forms == []
    ensures var steps := AttemptSteps(envs, maxRetries, targetTime, playerCount, dryRun);
            && !RunFrom(steps, i).0
            && steps[maxRetries].outcome == GiveUp
            && forall k :: i <= k < maxRetries ==> steps[k].outcome == NextAttempt
    decreases |envs| - i
  {
    var steps := AttemptSteps(envs, maxRetries, targetTime, playerCount, dryRun);
    EmptyScanMovesOn(envs[i], i, maxRetries, targetTime, playerCount, dryRun);
    if i < maxRetries {
      EmptyScansNeverBook(envs, i + 1, maxRetries, targetTime, playerCount, dryRun);
    }
  }
}

=== FILE: calendar.dfy ===
/**
 * The proleptic Gregorian calendar of Python's `datetime.date`: day ordinals
 * (0001-01-01 is day 1, a Monday), the day after a date, adding whole days,
 * and the weekday (Monday is 0).
 */
module Calendar {
  import opened Strptime

  /** Days in the years before `y`, as `_days_before_year`. */
  function DaysBeforeYear(y: nat): nat
    requires y >= 1
  {
    var p := y - 1;
    p * 365 + p / 4 - p / 100 + p / 400
  }

  /** Days in the months of year `y` before month `m`. */
  function DaysBeforeMonth(y: nat, m: nat): nat
    requires 1 <= m <= 12
  {
    if m == 1 then 0 else DaysBeforeMonth(y, m - 1) + DaysInMonth(y, m - 1)
  }

  function DaysInYear(y: nat): nat {
    if IsLeapYear(y) then 366 else 365
  }

  /** `date.toordinal()` */
  function Ordinal(d: Date): nat
    requires ValidDate(d)
  {
    DaysBeforeYear(d.year) + DaysBeforeMonth(d.year, d.month) + d.day
  }

  /** `date.weekday()`: Monday is 0 and Sunday is 6. */
  function Weekday(d: Date): nat
    requires ValidDate(d)
  {
    (Ordinal(d) + 6) % 7
  }

  /** The date after `d`. */
  function NextDay(d: Date): (r: Date)
    requires ValidDate(d)
    ensures ValidDate(r)
  {
    if d.day < DaysInMonth(d.year, d.month) then Date(d.year, d.month, d.day + 1)
    else if d.month < 12 then Date(d.year, d.month + 1, 1)
    else Date(d.year + 1, 1, 1)
  }

  /** `d + timedelta(days=n)` for n >= 0. */
  function AddDays(d: Date, n: nat): (r: Date)
    requires ValidDate(d)
    ensures ValidDate(r)
    decreases n
  {
    if n == 0 then d else AddDays(NextDay(d), n - 1)
  }

  lemma YearLength(y: nat)
    requires y >= 1
    ensures DaysBeforeYear(y + 1) == DaysBeforeYear(y) + DaysInYear(y)
  {
    DivStep(y, 4);
    DivStep(y, 100);
    DivStep(y, 400);
    DivisorsNest(y);
    var p := y - 1;
    var d4, d100, d400 := y / 4 - p / 4, y / 100 - p / 100, y / 400 - p / 400;
    assert DaysBeforeYear(y + 1) - DaysBeforeYear(y) == 365 + d4 - d100 + d400;
  }

  /** A multiple of 400 is a multiple of 100, and a multiple of 100 a multiple of 4. */
  lemma DivisorsNest(y: nat)
    ensures y % 400 == 0 ==> y % 100 == 0
    ensures y % 100 == 0 ==> y % 4 == 0
  {
    if y % 400 == 0 {
      DivExact(y, 400, y / 400, 0);
      DivExact(y, 100, y / 400 * 4, 0);
    }
    if y % 100 == 0 {
      DivExact(y, 100, y / 100, 0);
      DivExact(y, 4, y / 100 * 25, 0);
    }
  }

  /** Going from `y - 1` to `y`, the quotient by `k` grows exactly when `k` divides `y`. */
  lemma DivStep(y: nat, k: nat)
    requires y >= 1 && k > 0
    ensures y / k == (y - 1) / k + (if y % k == 0 then 1 else 0)
  {
    var q, r := (y - 1) / k, (y - 1) % k;
    assert y == q * k + r + 1;
    if r + 1 == k {
      assert y == (q + 1) * k;
      DivExact(y, k, q + 1, 0);
    } else {
      DivExact(y, k, q, r + 1);
    }
  }

  /** Division is determined by a quotient and a remainder in range. */
  lemma DivExact(y: nat, k: nat, q: nat, r: nat)
    requires k > 0 && r < k && y == q * k + r
    ensures y / k == q && y % k == r
  {
    var q2, r2 := y / k, y % k;
    assert (q - q2) * k == r2 - r;
    SmallMultiple(q - q2, k);
  }

  /** The only multiple of `k` strictly between `-k` and `k` is zero. */
  lemma SmallMultiple(d: int, k: int)
    requires k > 0 && -k < d * k < k
    ensures d == 0
  {
  }

  lemma {:induction false} MonthsOfYear(y: nat)
    ensures DaysBeforeMonth(y, 12) + 31 == DaysInYear(y)
  {
    var feb := DaysInMonth(y, 2);
    assert DaysBeforeMonth(y, 1) == 0;
    assert DaysBeforeMonth(y, 2) == 31;
    assert DaysBeforeMonth(y, 3) == 31 + feb;
    assert DaysBeforeMonth(y, 4) == 31 + feb + 31;
    assert DaysBeforeMonth(y, 5) == 31 + feb + 31 + 30;
    assert DaysBeforeMonth(y, 6) == 31 + feb + 31 + 30 + 31;
    assert DaysBeforeMonth(y, 7) == 31 + feb + 31 + 30 + 31 + 30;
    assert DaysBeforeMonth(y, 8) == 31 + feb + 31 + 30 + 31 + 30 + 31;
    assert DaysBeforeMonth(y, 9) == 31 + feb + 31 + 30 + 31 + 30 + 31 + 31;
    assert DaysBeforeMonth(y, 10) == 31 + feb + 31 + 30 + 31 + 30 + 31 + 31 + 30;
    assert DaysBeforeMonth(y, 11) == 31 + feb + 31 + 30 + 31 + 30 + 31 + 31 + 30 + 31;
    assert DaysBeforeMonth(y, 12) == 31 + feb + 31 + 30 + 31 + 30 + 31 + 31 + 30 + 31 + 30;
  }

  /** The day after a date is the next ordinal. */
  lemma NextDayOrdinal(d: Date)
    requires ValidDate(d)
    ensures Ordinal(NextDay(d)) == Ordinal(d) + 1
  {
    if d.day == DaysInMonth(d.year, d.month) && d.month == 12 {
      YearLength(d.year);
      MonthsOfYear(d.year);
    }
  }

  /** Adding `n` days adds `n` to the ordinal. */
  lemma {:induction false} AddDaysOrdinal(d: Date, n: nat)
    requires ValidDate(d)
    ensures Ordinal(AddDays(d, n)) == Ordinal(d) + n
    decreases n
  {
    if n > 0 {
      NextDayOrdinal(d);
      AddDaysOrdinal(NextDay(d), n - 1);
    }
  }

  /** Seven days on, the weekday is the same; each day on, it advances by one. */
  lemma WeekdayAfter(d: Date, n: nat)
    requires ValidDate(d)
    ensures Weekday(AddDays(d, n)) == (Weekday(d) + n) % 7
  {
    AddDaysOrdinal(d, n);
    ModShift(Ordinal(d) + 6, n);
  }

  lemma ModShift(a: nat, n: nat)
    ensures (a + n) % 7 == (a % 7 + n) % 7
  {
    var m := a % 7 + n;
    assert a == a / 7 * 7 + a % 7;
    assert m == m / 7 * 7 + m % 7;
    DivExact(a + n, 7, a / 7 + m / 7, m % 7);
  }
}

=== FILE: cleanup.dfy ===
/**
 * src/utils/cleanup_artifacts.py: listing the artifact directories a test run
 * leaves behind, choosing what to delete (by category on the command line, or
 * by number or category at the interactive prompt), and human-readable sizes.
 * The file system is a value: each category directory is absent or present
 * with its size, modification time and, for test results, its entries; the
 * clock and the two lines typed at the prompts are parameters.
 */
module CleanupArtifacts {
  import opened Wrappers
  import opened Text
  import opened Ranking

  // ---- categories ----

  datatype Category = TestResults | Screenshots | Html | DebugInfo {
    /** The category's name, which is also its directory's name under `artifacts/`. */
    function Name(): string {
      match this
        case TestResults => "test_results"
        case Screenshots => "screenshots"
        case Html => "html"
        case DebugInfo => "debug_info"
    }
  }

  /** The categories in the order the listing visits them and "all" expands to. */
  const Categories: seq<Category> := [TestResults, Screenshots, Html, DebugInfo]

  /** The values `--category` and the deletion by category accept. */
  const CategoryChoices: seq<string> := ["test_results", "screenshots", "html", "debug_info", "all"]

  /**
   * `delete_all_by_category`'s check and expansion: `None` for a name it
   * rejects, the four categories in order for "all", else the one category
   * of that name.
   */
  function ParseCategory(s: string): (r: Option<seq<Category>>)
    ensures r.None? <==> s !in CategoryChoices
    ensures s == "all" ==> r == Some(Categories)
    ensures r.Some? && s != "all" ==> |r.value| == 1 && r.value[0].Name() == s
  {
    if s == "all" then Some(Categories)
    else if s == "test_results" then Some([TestResults])
    else if s == "screenshots" then Some([Screenshots])
    else if s == "html" then Some([Html])
    else if s == "debug_info" then Some([DebugInfo])
    else None
  }

  /** "all" takes in every category. */
  lemma EveryCategory(c: Category)
    ensures c in Categories
  {
    var k := if c == TestResults then 0 else if c == Screenshots then 1 else if c == Html then 2 else 3;
    assert Categories[k] == c;
  }

  /** Each category's own name selects exactly that category. */
  lemma ParseCategoryOfName(c: Category)
    ensures ParseCategory(c.Name()) == Some([c])
  {
  }

  // ---- listing ----

  /** An entry of the test-results directory: one test run's directory, or a stray file. */
  datatype Child = Child(name: string, isDir: bool, size: nat, modTime: int)

  /** A category directory: its total size and modification time (seconds), and its entries. */
  datatype ArtifactDir = Absent | Present(size: nat, modTime: int, children: seq<Child>)

  datatype Artifacts = Artifacts(testResults: ArtifactDir, screenshots: ArtifactDir, html: ArtifactDir, debugInfo: ArtifactDir) {
    function Dir(c: Category): ArtifactDir {
      match c
        case TestResults => testResults
        case Screenshots => screenshots
        case Html => html
        case DebugInfo => debugInfo
    }
  }

  /** Something the listing can show: a test run's directory, or a whole category directory. */
  datatype Candidate = Candidate(category: Category, name: string, size: nat, modTime: int)

  /** A listed row: its number at the prompt and what it stands for. */
  datatype Listed = Listed(num: nat, entry: Candidate)

  /** Test results are listed run by run; files beside the run directories are skipped. */
  function RunDirs(children: seq<Child>): (r: seq<Candidate>)
    ensures forall e :: e in r ==> e.category == TestResults
    ensures forall e :: e in r <==> exists k :: 0 <= k < |children| && children[k].isDir && e == RunOf(children[k])
  {
    if children == [] then []
    else (if children[0].isDir then [RunOf(children[0])] else []) + RunDirs(children[1..])
  }

  function RunOf(ch: Child): Candidate {
    Candidate(TestResults, ch.name, ch.size, ch.modTime)
  }

  /** What one category contributes: its run directories, or the whole directory when it is not empty. */
  function CategoryCandidates(c: Category, d: ArtifactDir): (r: seq<Candidate>)
    ensures forall e :: e in r ==> e.category == c
    ensures c != TestResults ==> (r != [] <==> d.Present? && d.size > 0)
  {
    match d
      case Absent => []
      case Present(size, modTime, children) =>
        if c == TestResults then RunDirs(children)
        else if size > 0 then [Candidate(c, c.Name(), size, modTime)]
        else []
  }

  /** `category is None or category == name` */
  predicate Selected(filter: Option<string>, c: Category) {
    filter.None? || filter.value == c.Name()
  }

  /** The candidates of the selected categories among `cs`, category by category. */
  function Gather(filter: Option<string>, a: Artifacts, cs: seq<Category>): (r: seq<Candidate>)
    ensures forall e :: e in r <==> exists k :: 0 <= k < |cs| && Selected(filter, cs[k]) && e in CategoryCandidates(cs[k], a.Dir(cs[k]))
    ensures forall e :: e in r ==> Selected(filter, e.category)
  {
    if cs == [] then []
    else (if Selected(filter, cs[0]) then CategoryCandidates(cs[0], a.Dir(cs[0])) else []) + Gather(filter, a, cs[1..])
  }

  function Candidates(filter: Option<string>, a: Artifacts): seq<Candidate> {
    Gather(filter, a, Categories)
  }

  const SecondsPerDay: int := 86400

  /** `now - timedelta(days=older_than)`, only when `older_than` is given and not zero. */
  function Cutoff(olderThan: Option<int>, now: int): Option<int> {
    if olderThan.Some? && olderThan.value != 0 then Some(now - olderThan.value * SecondsPerDay) else None
  }

  /** Not skipped by the age filter: no cutoff, or modified no later than it. */
  predicate OldEnough(e: Candidate, cutoff: Option<int>) {
    cutoff.None? || e.modTime <= cutoff.value
  }

  function KeepOld(es: seq<Candidate>, cutoff: Option<int>): (r: seq<Candidate>)
    ensures |r| <= |es|
    ensures forall e :: e in r <==> e in es && OldEnough(e, cutoff)
  {
    if es == [] then []
    else (if OldEnough(es[0], cutoff) then [es[0]] else []) + KeepOld(es[1..], cutoff)
  }

  /** Numbers the rows consecutively from `first`. */
  function Number(es: seq<Candidate>, first: nat): (r: seq<Listed>)
    ensures |r| == |es|
    ensures forall i :: 0 <= i < |r| ==> r[i] == Listed(first + i, es[i])
  {
    if es == [] then [] else [Listed(first, es[0])] + Number(es[1..], first + 1)
  }

  /** `list_artifact_directories(category, older_than)`: the rows it prints and returns. */
  function ListArtifactDirectories(filter: Option<string>, olderThan: Option<int>, now: int, a: Artifacts): (r: seq<Listed>)
    ensures forall i :: 0 <= i < |r| ==> r[i].num == i + 1
    ensures forall i :: 0 <= i < |r| ==> Selected(filter, r[i].entry.category) && OldEnough(r[i].entry, Cutoff(olderThan, now))
  {
    var kept := KeepOld(Candidates(filter, a), Cutoff(olderThan, now));
    NumberedRows(kept, filter, Cutoff(olderThan, now));
    Number(kept, 1)
  }

  lemma NumberedRows(kept: seq<Candidate>, filter: Option<string>, cutoff: Option<int>)
    requires forall e :: e in kept ==> Selected(filter, e.category) && OldEnough(e, cutoff)
    ensures forall i :: 0 <= i < |Number(kept, 1)| ==> Number(kept, 1)[i].num == i + 1
    ensures forall i :: 0 <= i < |Number(kept, 1)| ==> Selected(filter, Number(kept, 1)[i].entry.category) && OldEnough(Number(kept, 1)[i].entry, cutoff)
  {
    var r := Number(kept, 1);
    forall i | 0 <= i < |r|
      ensures Selected(filter, r[i].entry.category) && OldEnough(r[i].entry, cutoff)
    {
      assert r[i].entry == kept[i] && kept[i] in kept;
    }
  }

  /** Every candidate of a selected category that passes the age filter is listed. */
  lemma ListingShowsEveryOldCandidate(filter: Option<string>, olderThan: Option<int>, now: int, a: Artifacts, c: Category, e: Candidate)
    requires Selected(filter, c) && e in CategoryCandidates(c, a.Dir(c))
    requires OldEnough(e, Cutoff(olderThan, now))
    ensures exists i :: 0 <= i < |ListArtifactDirectories(filter, olderThan, now, a)| && ListArtifactDirectories(filter, olderThan, now, a)[i].entry == e
  {
    InCandidates(filter, a, c, e);
    var kept := KeepOld(Candidates(filter, a), Cutoff(olderThan, now));
    assert e in kept;
    var i :| 0 <= i < |kept| && kept[i] == e;
    assert ListArtifactDirectories(filter, olderThan, now, a) == Number(kept, 1);
  }

  lemma InCandidates(filter: Option<string>, a: Artifacts, c: Category, e: Candidate)
    requires Selected(filter, c) && e in CategoryCandidates(c, a.Dir(c))
    ensures e in Candidates(filter, a)
  {
    EveryCategory(c);
  }

  /** `--list --category all` shows nothing: no category is named "all". */
  lemma ListAllAsWrittenIsEmpty(olderThan: Option<int>, now: int, a: Artifacts, c: Category, e: Candidate)
    requires e in CategoryCandidates(c, a.Dir(c))
    ensures ParseCategory("all").Some? && c in ParseCategory("all").value
    ensures ListArtifactDirectories(Some("all"), olderThan, now, a) == []
  {
    assert Categories[0] == TestResults && Categories[1] == Screenshots && Categories[2] == Html && Categories[3] == DebugInfo;
    forall d: Category
      ensures !Selected(Some("all"), d)
    {
      NoCategoryIsAll(d);
    }
    GatherNothing(Some("all"), a, Categories);
  }

  lemma NoCategoryIsAll(c: Category)
    ensures c.Name() != "all"
  {
    assert c.Name()[0] != 'a';
  }

  lemma {:induction false} GatherNothing(filter: Option<string>, a: Artifacts, cs: seq<Category>)
    requires forall c :: !Selected(filter, c)
    ensures Gather(filter, a, cs) == []
  {
    if cs != [] {
      GatherNothing(filter, a, cs[1..]);
    }
  }

  /** The categories a `--category` value stands for; no value stands for all of them. */
  predicate Wanted(category: Option<string>, c: Category) {
    category.None? || (ParseCategory(category.value).Some? && c in ParseCategory(category.value).value)
  }

  /** The listing `--list` prints, with "all" meaning every category as it does for deletion. */
  function ListCommand(category: Option<string>, olderThan: Option<int>, now: int, a: Artifacts): (r: seq<Listed>)
    requires category.Some? ==> category.value in CategoryChoices
    ensures forall i :: 0 <= i < |r| ==> r[i].num == i + 1
    ensures forall i :: 0 <= i < |r| ==> Wanted(category, r[i].entry.category) && OldEnough(r[i].entry, Cutoff(olderThan, now))
  {
    WantedWhenSelected(category);
    ListArtifactDirectories(ListFilter(category), olderThan, now, a)
  }

  /** "all" lists with no filter; any other value filters by its own name. */
  function ListFilter(category: Option<string>): Option<string> {
    if category == Some("all") then None else category
  }

  lemma WantedWhenSelected(category: Option<string>)
    requires category.Some? ==> category.value in CategoryChoices
    ensures forall c :: Selected(ListFilter(category), c) ==> Wanted(category, c)
  {
    forall c | Selected(ListFilter(category), c)
      ensures Wanted(category, c)
    {
      if category.Some? && category.value != "all" {
        ParseCategoryOfName(c);
        assert category.value == c.Name();
        assert c in [c];
      } else if category.Some? {
        EveryCategory(c);
      }
    }
  }

  /** The corrected listing shows every old enough candidate of every wanted category. */
  lemma ListCommandShowsWanted(category: Option<string>, olderThan: Option<int>, now: int, a: Artifacts, c: Category, e: Candidate)
    requires category.Some? ==> category.value in CategoryChoices
    requires Wanted(category, c) && e in CategoryCandidates(c, a.Dir(c))
    requires OldEnough(e, Cutoff(olderThan, now))
    ensures exists i :: 0 <= i < |ListCommand(category, olderThan, now, a)| && ListCommand(category, olderThan, now, a)[i].entry == e
  {
    if category.Some? && category.value != "all" {
      WantedByName(category.value, c);
    }
    var filter := ListFilter(category);
    assert Selected(filter, c);
    ListingShowsEveryOldCandidate(filter, olderThan, now, a, c, e);
    var listing := ListArtifactDirectories(filter, olderThan, now, a);
    assert ListCommand(category, olderThan, now, a) == listing;
    var i :| 0 <= i < |listing| && listing[i].entry == e;
  }

  /** A single category's name wants that category alone. */
  lemma WantedByName(s: string, c: Category)
    requires s in CategoryChoices && s != "all" && Wanted(Some(s), c)
    ensures s == c.Name()
  {
    var cs := ParseCategory(s).value;
    assert |cs| == 1 && c in cs;
  }

  /** Different categories have different names. */
  lemma NameDetermines(c: Category, d: Category)
    requires c.Name() == d.Name()
    ensures c == d
  {
  }

  // ---- sizes ----

  /** The rows' sizes added up, as `sum(d['size'] for d in ...)`. */
  function TotalSize(rows: seq<Listed>): nat {
    if rows == [] then 0 else rows[0].entry.size + TotalSize(rows[1..])
  }

  /** `num / den` rounded to the nearest whole number, ties to even, as `round` and `.0f` do. */
  function RoundHalfEven(num: nat, den: nat): (h: nat)
    requires den > 0
    ensures 2 * AbsDiff(h * den, num) <= den
    ensures 2 * AbsDiff(h * den, num) == den ==> h % 2 == 0
  {
    var q := num / den;
    var rem := num % den;
    var h := if 2 * rem > den || (2 * rem == den && q % 2 == 1) then q + 1 else q;
    DivisionParts(num, den);
    RoundingIsNearest(num, den, q, rem, h);
    h
  }

  lemma DivisionParts(num: nat, den: nat)
    requires den > 0
    ensures num == num / den * den + num % den && num % den < den
  {
  }

  lemma RoundingIsNearest(num: nat, den: nat, q: nat, rem: nat, h: nat)
    requires den > 0 && rem < den && num == q * den + rem
    requires h == if 2 * rem > den || (2 * rem == den && q % 2 == 1) then q + 1 else q
    ensures 2 * AbsDiff(h * den, num) <= den
    ensures 2 * AbsDiff(h * den, num) == den ==> h % 2 == 0
  {
    if h == q + 1 {
      assert h * den == q * den + den;
      assert AbsDiff(h * den, num) == den - rem;
    } else {
      assert AbsDiff(h * den, num) == rem;
    }
  }

  const KiB: nat := 1024

  /** The units `format_size` steps through and the divisor of each. */
  datatype Unit = Bytes | KB | MB | GB {
    function Divisor(): nat {
      match this
        case Bytes => 1
        case KB => KiB
        case MB => KiB * KiB
        case GB => KiB * KiB * KiB
    }
    function Suffix(): string {
      match this
        case Bytes => " bytes"
        case KB => " KB"
        case MB => " MB"
        case GB => " GB"
    }
  }

  /** The unit `format_size` picks: the largest, up to GB, that the size reaches. */
  function UnitOf(n: nat): (u: Unit)
    ensures u.Divisor() <= n || u == Bytes
    ensures u != GB ==> n < u.Divisor() * KiB
  {
    if n < KiB then Bytes
    else if n < KiB * KiB then KB
    else if n < KiB * KiB * KiB then MB
    else GB
  }

  /** Hundredths of a unit, nearest first, as `.2f` prints the exact quotient. */
  function Hundredths(n: nat, u: Unit): (h: nat)
    ensures 2 * AbsDiff(h * u.Divisor(), n * 100) <= u.Divisor()
  {
    RoundHalfEven(n * 100, u.Divisor())
  }

  /** `format_size`: whole bytes below 1024, else two decimals of KB, MB or GB. */
  function FormatSize(n: nat): (r: string)
    ensures var suffix := UnitOf(n).Suffix();
            |suffix| < |r| && r[|r| - |suffix|..] == suffix
  {
    var u := UnitOf(n);
    if u == Bytes then NatToString(n) + u.Suffix()
    else
      var h := Hundredths(n, u);
      NatToString(h / 100) + "." + Pad2(h % 100) + u.Suffix()
  }

  /** Below a kibibyte the size is printed exactly, and reads back. */
  lemma FormatSizeOfBytes(n: nat, digits: string)
    requires n < KiB && digits == NatToString(n)
    ensures FormatSize(n) == digits + " bytes"
    ensures DecimalValue(digits) == n
  {
    NatToStringRoundTrip(n);
  }

  /**
   * From a kibibyte on, the size is printed as whole units, a point, two
   * decimals and the unit, and that figure is the size in its unit to within
   * half a hundredth.
   */
  lemma FormatSizeIsNearest(n: nat)
    requires n >= KiB
    ensures var u := UnitOf(n); u != Bytes && u.Divisor() <= n
    ensures var u := UnitOf(n);
            exists whole: string, frac: string ::
              IsDigitString(whole) && |frac| == 2 && AllDigits(frac)
              && FormatSize(n) == whole + "." + frac + u.Suffix()
              && PrintedNear(n, u, whole, frac)
  {
    var u := UnitOf(n);
    var h := Hundredths(n, u);
    var whole, frac := NatToString(h / 100), Pad2(h % 100);
    PrintedHundredths(h, whole, frac);
    FormatSizeShape(n);
    assert PrintedNear(n, u, whole, frac) by {
      assert DecimalValue(whole) * 100 + DecimalValue(frac) == h;
    }
  }

  /** `whole.frac` hundredths of unit `u` lie within half a hundredth of `n` bytes. */
  predicate PrintedNear(n: nat, u: Unit, whole: string, frac: string)
    requires AllDigits(whole) && AllDigits(frac)
  {
    2 * AbsDiff((DecimalValue(whole) * 100 + DecimalValue(frac)) * u.Divisor(), n * 100) <= u.Divisor()
  }

  lemma FormatSizeShape(n: nat)
    requires n >= KiB
    ensures FormatSize(n) == NatToString(Hundredths(n, UnitOf(n)) / 100) + "." + Pad2(Hundredths(n, UnitOf(n)) % 100) + UnitOf(n).Suffix()
  {
  }

  /** The whole and decimal digits printed for `h` hundredths read back as `h`. */
  lemma PrintedHundredths(h: nat, whole: string, frac: string)
    requires whole == NatToString(h / 100) && frac == Pad2(h % 100)
    ensures DecimalValue(whole) * 100 + DecimalValue(frac) == h
  {
    NatToStringRoundTrip(h / 100);
  }

  // ---- deleting ----

  /**
   * `delete_artifacts`: each row whose path still exists is removed and its
   * listed size counted; `vanished` are the rows whose path is gone by then.
   */
  function DeleteArtifacts(rows: seq<Listed>, vanished: set<Candidate>): (freed: nat)
    ensures freed <= TotalSize(rows)
    ensures (forall i :: 0 <= i < |rows| ==> rows[i].entry !in vanished) ==> freed == TotalSize(rows)
  {
    if rows == [] then 0
    else (if rows[0].entry in vanished then 0 else rows[0].entry.size) + DeleteArtifacts(rows[1..], vanished)
  }

  /** `input("Are you sure? (y/n): ").lower() == 'y'` */
  predicate Confirmed(answer: string) {
    Lower(answer) == "y"
  }

  /** Only a lone `y` or `Y` confirms; surrounding spaces do not count as a yes. */
  lemma ConfirmedIff(answer: string)
    ensures Confirmed(answer) <==> answer == "y" || answer == "Y"
  {
    if Confirmed(answer) {
      assert |answer| == 1;
      assert LowerChar(answer[0]) == 'y';
      assert answer == [answer[0]];
    } else {
      assert Lower("y") == "y";
      assert Lower("Y") == [LowerChar('Y')];
    }
  }

  /** How a cleanup ends: what was deleted, or why nothing was. */
  datatype Outcome =
    | InvalidCategory
    | NothingFound
    | Cancelled
    | NoValidSelection
    | Deleted(rows: seq<Listed>)

  /** The rows of each category in turn, each listed on its own as the deletion does. */
  function ListEach(cs: seq<Category>, olderThan: Option<int>, now: int, a: Artifacts): (r: seq<Listed>)
    ensures forall x :: x in r ==> x.entry.category in cs
  {
    if cs == [] then []
    else
      var first := ListArtifactDirectories(Some(cs[0].Name()), olderThan, now, a);
      assert forall x :: x in first ==> x.entry.category == cs[0] by {
        forall x | x in first ensures x.entry.category == cs[0] {
          var i :| 0 <= i < |first| && first[i] == x;
          NameDetermines(x.entry.category, cs[0]);
        }
      }
      first + ListEach(cs[1..], olderThan, now, a)
  }

  /** `delete_all_by_category(category, older_than)` followed by the answer to its prompt. */
  function DeleteAllByCategory(category: string, olderThan: Option<int>, now: int, a: Artifacts, answer: string): (r: Outcome)
    ensures r == InvalidCategory <==> category !in CategoryChoices
    ensures category in CategoryChoices ==>
              var rows := ListEach(ParseCategory(category).value, olderThan, now, a);
              && (r == NothingFound <==> rows == [])
              && (r.Deleted? <==> rows != [] && Confirmed(answer))
              && (r.Deleted? ==> r.rows == rows)
    ensures r.Deleted? ==> Confirmed(answer) && r.rows != []
    ensures r.Deleted? ==> forall i :: 0 <= i < |r.rows| ==> Wanted(Some(category), r.rows[i].entry.category)
  {
    match ParseCategory(category)
      case None => InvalidCategory
      case Some(cs) =>
        var rows := ListEach(cs, olderThan, now, a);
        if rows == [] then NothingFound
        else if Confirmed(answer) then Deleted(rows)
        else Cancelled
  }

  /** Each category's listing is part of the rows listed for a run of categories. */
  lemma {:induction false} ListEachHolds(cs: seq<Category>, olderThan: Option<int>, now: int, a: Artifacts, k: nat, x: Listed)
    requires k < |cs| && x in ListArtifactDirectories(Some(cs[k].Name()), olderThan, now, a)
    ensures x in ListEach(cs, olderThan, now, a)
  {
    ListEachUnfolds(cs, olderThan, now, a);
    if k > 0 {
      assert cs[1..][k - 1] == cs[k];
      ListEachHolds(cs[1..], olderThan, now, a, k - 1, x);
    }
  }

  lemma ListEachUnfolds(cs: seq<Category>, olderThan: Option<int>, now: int, a: Artifacts)
    requires cs != []
    ensures ListEach(cs, olderThan, now, a) == ListArtifactDirectories(Some(cs[0].Name()), olderThan, now, a) + ListEach(cs[1..], olderThan, now, a)
  {
  }

  /**
   * Deleting by category misses nothing: every old-enough candidate of a
   * category the name stands for is among the rows, so the deletion never
   * reports that nothing was found, and a confirmed deletion takes it.
   */
  lemma DeletionTakesEveryOldCandidate(category: string, olderThan: Option<int>, now: int, a: Artifacts, answer: string, c: Category, e: Candidate)
    requires category in CategoryChoices && Wanted(Some(category), c)
    requires e in CategoryCandidates(c, a.Dir(c)) && OldEnough(e, Cutoff(olderThan, now))
    ensures DeleteAllByCategory(category, olderThan, now, a, answer) != NothingFound
    ensures var r := DeleteAllByCategory(category, olderThan, now, a, answer);
            r.Deleted? ==> exists i :: 0 <= i < |r.rows| && r.rows[i].entry == e
  {
    var cs := ParseCategory(category).value;
    var k :| 0 <= k < |cs| && cs[k] == c;
    ListingShowsEveryOldCandidate(Some(c.Name()), olderThan, now, a, c, e);
    var listing := ListArtifactDirectories(Some(c.Name()), olderThan, now, a);
    var j :| 0 <= j < |listing| && listing[j].entry == e;
    ListEachHolds(cs, olderThan, now, a, k, listing[j]);
    var rows := ListEach(cs, olderThan, now, a);
    var i :| 0 <= i < |rows| && rows[i] == listing[j];
  }

  // ---- the interactive prompt ----

  /** The numbers typed: each comma-separated piece that is digits once stripped, in the order typed. */
  function ValidNumbers(pieces: seq<string>): (r: seq<nat>)
    ensures |r| <= |pieces|
  {
    if pieces == [] then []
    else
      var t := Strip(pieces[0]);
      (if IsDigitString(t) then [DecimalValue(t)] else []) + ValidNumbers(pieces[1..])
  }

  /** Some piece is, once stripped, the digits of `x`. */
  predicate ReadFromPiece(x: nat, pieces: seq<string>) {
    exists j :: 0 <= j < |pieces| && IsDigitString(Strip(pieces[j])) && x == DecimalValue(Strip(pieces[j]))
  }

  /** Every number kept was typed as a piece of its own. */
  lemma {:induction false} ValidNumbersFromPieces(pieces: seq<string>)
    ensures forall k :: 0 <= k < |ValidNumbers(pieces)| ==> ReadFromPiece(ValidNumbers(pieces)[k], pieces)
  {
    if pieces != [] {
      var t := Strip(pieces[0]);
      var head := if IsDigitString(t) then [DecimalValue(t)] else [];
      var rest := ValidNumbers(pieces[1..]);
      var r := ValidNumbers(pieces);
      assert r == head + rest;
      ValidNumbersFromPieces(pieces[1..]);
      forall k | 0 <= k < |r| ensures ReadFromPiece(r[k], pieces) {
        if k < |head| {
          assert r[k] == DecimalValue(Strip(pieces[0]));
        } else {
          assert r[k] == rest[k - |head|];
          ReadFromTail(rest[k - |head|], pieces);
        }
      }
    }
  }

  lemma ReadFromTail(x: nat, pieces: seq<string>)
    requires pieces != [] && ReadFromPiece(x, pieces[1..])
    ensures ReadFromPiece(x, pieces)
  {
    var j :| 0 <= j < |pieces[1..]| && IsDigitString(Strip(pieces[1..][j])) && x == DecimalValue(Strip(pieces[1..][j]));
    assert pieces[j + 1] == pieces[1..][j];
  }

  /** `[int(x.strip()) for x in choice.split(',') if x.strip().isdigit()]` */
  function SelectedNumbers(choice: string): (r: seq<nat>)
    ensures forall k :: 0 <= k < |r| ==> ReadFromPiece(r[k], Split(choice, ','))
  {
    ValidNumbersFromPieces(Split(choice, ','));
    ValidNumbers(Split(choice, ','))
  }

  /** `[d for d in all_dirs if d['num'] in selected_nums]` */
  function Chosen(rows: seq<Listed>, nums: seq<nat>): (r: seq<Listed>)
    ensures forall x :: x in r <==> x in rows && x.num in nums
  {
    if rows == [] then []
    else (if rows[0].num in nums then [rows[0]] else []) + Chosen(rows[1..], nums)
  }

  /** `interactive_cleanup()` given the line typed at the prompt and the answer to the confirmation. */
  function InteractiveCleanup(a: Artifacts, now: int, input: string, answer: string): (r: Outcome)
    ensures r.Deleted? ==> Confirmed(answer) && r.rows != []
  {
    var rows := ListArtifactDirectories(None, None, now, a);
    var choice := Lower(Strip(input));
    if rows == [] then NothingFound
    else if choice == "" || choice == "none" then Cancelled
    else if choice in CategoryChoices then DeleteAllByCategory(choice, None, now, a, answer)
    else DeleteByNumbers(rows, choice, answer)
  }

  /** The numbered selection: the listed rows whose numbers were typed, once confirmed. */
  function DeleteByNumbers(rows: seq<Listed>, choice: string, answer: string): (r: Outcome)
    ensures r.Deleted? ==> Confirmed(answer) && r.rows != []
    ensures r.Deleted? ==> forall x :: x in r.rows <==> x in rows && x.num in SelectedNumbers(choice)
    ensures r == NoValidSelection <==> forall x :: x in rows ==> x.num !in SelectedNumbers(choice)
  {
    var nums := SelectedNumbers(choice);
    if nums == [] then NoValidSelection
    else
      var chosen := Chosen(rows, nums);
      if chosen == [] then NoValidSelection
      else
        assert chosen[0] in chosen;
        if Confirmed(answer) then Deleted(chosen)
      else Cancelled
  }

  /** The decimal numerals of `ns`, as the user would type them. */
  function Numerals(ns: seq<nat>): (r: seq<string>)
    ensures |r| == |ns|
    ensures forall k :: 0 <= k < |r| ==> r[k] == NatToString(ns[k])
  {
    if ns == [] then [] else [NatToString(ns[0])] + Numerals(ns[1..])
  }

  lemma NoSepInDigits(s: string, sep: char)
    requires AllDigits(s) && !IsDigit(sep)
    ensures sep !in s
  {
  }

  /** Splitting after a piece without the separator peels that piece off. */
  lemma {:induction false} SplitAfterPiece(p: string, rest: string, sep: char)
    requires sep !in p
    ensures Split(p + [sep] + rest, sep) == [p] + Split(rest, sep)
    decreases |p|
  {
    if p == [] {
      assert p + [sep] + rest == [sep] + rest;
      assert ([sep] + rest)[1..] == rest;
    } else {
      SplitAfterPiece(p[1..], rest, sep);
      assert (p + [sep] + rest)[1..] == p[1..] + [sep] + rest;
      assert [p[0]] + p[1..] == p;
    }
  }

  lemma {:induction false} SplitOfPiece(p: string, sep: char)
    requires sep !in p
    ensures Split(p, sep) == [p]
    decreases |p|
  {
    if p != [] {
      SplitOfPiece(p[1..], sep);
      assert [p[0]] + p[1..] == p;
    }
  }

  /** Splitting a join of separator-free pieces gives the pieces back. */
  lemma {:induction false} SplitOfJoin(parts: seq<string>, sep: char)
    requires |parts| >= 1
    requires forall k :: 0 <= k < |parts| ==> sep !in parts[k]
    ensures Split(Join(parts, sep), sep) == parts
  {
    if |parts| == 1 {
      SplitOfPiece(parts[0], sep);
    } else {
      SplitOfJoin(parts[1..], sep);
      SplitAfterPiece(parts[0], Join(parts[1..], sep), sep);
      assert [parts[0]] + parts[1..] == parts;
    }
  }

  lemma {:induction false} ValidNumbersOfNumerals(ns: seq<nat>)
    ensures ValidNumbers(Numerals(ns)) == ns
  {
    if ns != [] {
      var t := NatToString(ns[0]);
      StripNoSpace(t);
      NatToStringRoundTrip(ns[0]);
      assert Numerals(ns)[1..] == Numerals(ns[1..]);
      ValidNumbersOfNumerals(ns[1..]);
    }
  }

  /** Typing numbers separated by commas selects exactly those numbers, in that order. */
  lemma SelectedNumbersRoundTrip(ns: seq<nat>)
    ensures SelectedNumbers(Join(Numerals(ns), ',')) == ns
  {
    if ns == [] {
      assert Split("", ',') == [""];
      assert !IsDigitString(Strip(""));
    } else {
      forall k | 0 <= k < |Numerals(ns)|
        ensures ',' !in Numerals(ns)[k]
      {
        NoSepInDigits(NatToString(ns[k]), ',');
      }
      SplitOfJoin(Numerals(ns), ',');
      ValidNumbersOfNumerals(ns);
    }
  }

  predicate DigitsAndCommas(s: string) {
    forall i :: 0 <= i < |s| ==> IsDigit(s[i]) || s[i] == ','
  }

  lemma {:induction false} JoinedNumeralsShape(ns: seq<nat>)
    requires ns != []
    ensures var j := Join(Numerals(ns), ',');
      |j| > 0 && IsDigit(j[0]) && IsDigit(j[|j| - 1]) && DigitsAndCommas(j)
  {
    if |ns| > 1 {
      JoinedNumeralsShape(ns[1..]);
      assert Numerals(ns)[1..] == Numerals(ns[1..]);
    }
  }

  /** A line of digits and commas is its own stripped, lower-cased form. */
  lemma TypedNumbersAreTheChoice(j: string)
    requires |j| > 0 && IsDigit(j[0]) && IsDigit(j[|j| - 1]) && DigitsAndCommas(j)
    ensures Lower(Strip(j)) == j
  {
    StripNoSpace(j);
    assert Lower(j) == j;
  }

  /** Typing listed numbers at the prompt and confirming deletes exactly the rows with those numbers. */
  lemma ChoosingNumbersDeletesThem(a: Artifacts, now: int, rows: seq<Listed>, ns: seq<nat>, typed: string, answer: string)
    requires rows == ListArtifactDirectories(None, None, now, a)
    requires typed == Join(Numerals(ns), ',')
    requires ns != [] && Confirmed(answer)
    requires forall n :: n in ns ==> 1 <= n <= |rows|
    ensures var r := InteractiveCleanup(a, now, typed, answer);
      r.Deleted? && forall x :: x in r.rows <==> x in rows && x.num in ns
  {
    TypedNumbers(ns, typed);
    NumbersSelectRows(a, now, rows, ns, typed, answer);
  }

  lemma NumbersSelectRows(a: Artifacts, now: int, rows: seq<Listed>, ns: seq<nat>, typed: string, answer: string)
    requires rows == ListArtifactDirectories(None, None, now, a)
    requires Lower(Strip(typed)) == typed && typed !in CategoryChoices && typed != "none" && typed != ""
    requires SelectedNumbers(typed) == ns
    requires ns != [] && Confirmed(answer)
    requires forall n :: n in ns ==> 1 <= n <= |rows|
    ensures var r := InteractiveCleanup(a, now, typed, answer);
      r.Deleted? && forall x :: x in r.rows <==> x in rows && x.num in ns
  {
    assert ns[0] in ns;
    ChoiceByNumbers(a, now, typed, typed, answer);
    NumberedRowsAreChosen(rows, ns, typed, answer);
  }

  /** The typed line is taken as it stands, is no category, and selects `ns`. */
  lemma TypedNumbers(ns: seq<nat>, typed: string)
    requires typed == Join(Numerals(ns), ',') && ns != []
    ensures Lower(Strip(typed)) == typed
    ensures typed !in CategoryChoices && typed != "none" && typed != ""
    ensures SelectedNumbers(typed) == ns
  {
    JoinedNumeralsShape(ns);
    TypedNumbersAreTheChoice(typed);
    SelectedNumbersRoundTrip(ns);
    NumbersAreNoCategory(typed);
  }

  lemma NumberedRowsAreChosen(rows: seq<Listed>, ns: seq<nat>, typed: string, answer: string)
    requires SelectedNumbers(typed) == ns && ns != [] && Confirmed(answer)
    requires forall i :: 0 <= i < |rows| ==> rows[i].num == i + 1
    requires forall n :: n in ns ==> 1 <= n <= |rows|
    ensures var r := DeleteByNumbers(rows, typed, answer);
      r.Deleted? && forall x :: x in r.rows <==> x in rows && x.num in ns
  {
    assert ns[0] in ns;
    assert rows[ns[0] - 1].num == ns[0];
  }

  lemma NumbersAreNoCategory(j: string)
    requires |j| > 0 && IsDigit(j[0])
    ensures j !in CategoryChoices && j != "none" && j != ""
  {
  }

  lemma ChoiceByNumbers(a: Artifacts, now: int, input: string, choice: string, answer: string)
    requires choice == Lower(Strip(input))
    requires ListArtifactDirectories(None, None, now, a) != []
    requires choice != "" && choice != "none" && choice !in CategoryChoices
    ensures InteractiveCleanup(a, now, input, answer) == DeleteByNumbers(ListArtifactDirectories(None, None, now, a), choice, answer)
  {
  }

  /** The command line: `--category`, `--older-than` and `--list`. */
  datatype Args = Args(category: Option<string>, olderThan: Option<int>, listOnly: bool)

  datatype Command = UsageError | Listing(rows: seq<Listed>) | Cleanup(outcome: Outcome)

  /**
   * `main()` with its `--list` branch corrected: a category outside the
   * choices is refused before anything runs; `--list` only lists, through
   * `ListCommand`, so that "all" lists every category (as written, `main()`
   * lists nothing for "all"; see `ListAllAsWrittenIsEmpty`); a category
   * deletes by category; otherwise the interactive prompt runs.
   */
  function Dispatch(args: Args, now: int, a: Artifacts, input: string, answer: string): (r: Command)
    ensures r == UsageError <==> args.category.Some? && args.category.value !in CategoryChoices
    ensures r.Cleanup? && r.outcome.Deleted? ==> !args.listOnly && Confirmed(answer)
  {
    if args.category.Some? && args.category.value !in CategoryChoices then UsageError
    else if args.listOnly then Listing(ListCommand(args.category, args.olderThan, now, a))
    else if args.category.Some? then Cleanup(DeleteAllByCategory(args.category.value, args.olderThan, now, a, answer))
    else Cleanup(InteractiveCleanup(a, now, input, answer))
  }

  /** The correction touches only `--list --category all`: every other listing is what `main()` as written prints. */
  lemma DispatchListsAsWrittenExceptAll(args: Args, now: int, a: Artifacts, input: string, answer: string)
    requires args.listOnly && args.category != Some("all")
    requires args.category.Some? ==> args.category.value in CategoryChoices
    ensures Dispatch(args, now, a, input, answer) == Listing(ListArtifactDirectories(args.category, args.olderThan, now, a))
  {
  }
}

=== FILE: config.dfy ===
/**
 * The `Config` singleton of src/utils/config_loader.py: loading
 * `config/config.json` once (defaults when the file is missing), the
 * section getters and `get_value`. The file system is replaced by what the
 * file read gave.
 */
module ConfigLoader {
  import opened Wrappers
  import opened Json

  /** What reading `config/config.json` gave: no file, a parsed document, or an error (unreadable file, bad JSON). */
  datatype ConfigFile = Missing | Parsed(doc: Json) | ReadError

  /** The class-level state: the flag `_initialized` and the instance's `config`. */
  datatype Config = Config(initialized: bool, config: Json)

  /** The state before the first construction. */
  const Fresh: Config := Config(false, JObject(map[]))

  /** The configuration used when the file does not exist. */
  const DefaultConfig: Json := JObject(map[
    "booking" := JObject(map["target_day" := JString("Sunday"), "target_time" := JString("14:00"), "player_count" := JInt(4)]),
    "runtime" := JObject(map["dry_run" := JBool(true), "max_retries" := JInt(2)]),
    "debug" := JObject(map["interactive" := JBool(false), "timeout" := JInt(30), "wait_after_completion" := JBool(true), "wait_time" := JInt(30)]),
    "system" := JObject(map["booking_window_days" := JInt(7)])])

  /** A construction either leaves the singleton ready or re-raises the load error, leaving it uninitialised. */
  datatype Construction = Ready(state: Config) | Raised(state: Config)

  /**
   * `Config()`: nothing happens once initialised; otherwise the config is
   * reset to `{}`, loaded (the defaults when the file is missing), and the
   * flag set; a read error propagates and leaves the flag unset.
   */
  function Construct(s: Config, file: ConfigFile): (r: Construction)
    ensures s.initialized ==> r == Ready(s)
    ensures !s.initialized && file.Missing? ==> r == Ready(Config(true, DefaultConfig))
    ensures !s.initialized && file.Parsed? ==> r == Ready(Config(true, file.doc))
    ensures r.Raised? <==> !s.initialized && file.ReadError?
    ensures r.Raised? ==> !r.state.initialized
  {
    if s.initialized then Ready(s)
    else
      match file
        case Missing => Ready(Config(true, DefaultConfig))
        case Parsed(doc) => Ready(Config(true, doc))
        case ReadError => Raised(Config(false, JObject(map[])))
  }

  /** Once loaded, later constructions return the same configuration and never read the file again. */
  lemma ConstructOnce(s: Config, first: ConfigFile, later: ConfigFile)
    requires Construct(s, first).Ready?
    ensures Construct(Construct(s, first).state, later) == Construct(s, first)
  {
  }

  /** A failed first load leaves the next construction free to load the file again. */
  lemma RaisedLoadRetries(s: Config, first: ConfigFile, later: ConfigFile)
    requires Construct(s, first).Raised?
    ensures Construct(Construct(s, first).state, later).Ready? <==> !later.ReadError?
  {
  }

  /** `d.get(key, default)` on a JSON object; `None` when `d` is not a dict (the call raises). */
  function Get(d: Json, key: string, default: Json): (r: Option<Json>)
    ensures r.None? <==> !d.JObject?
    ensures d.JObject? && key in d.fields ==> r == Some(d.fields[key])
    ensures d.JObject? && key !in d.fields ==> r == Some(default)
  {
    if !d.JObject? then None
    else if key in d.fields then Some(d.fields[key])
    else Some(default)
  }

  /** `get_booking_config` and the other section getters: `self.config.get(section, {})`. */
  function Section(c: Config, section: string): (r: Option<Json>)
    ensures c.config.JObject? && section !in c.config.fields ==> r == Some(JObject(map[]))
  {
    Get(c.config, section, JObject(map[]))
  }

  /** `get_value`: `self.config.get(section, {}).get(key, default)`; `None` where a `.get` meets a non-dict. */
  function GetValue(c: Config, section: string, key: string, default: Json): (r: Option<Json>)
    ensures c.config.JObject? && section !in c.config.fields ==> r == Some(default)
    ensures c.config.JObject? && section in c.config.fields && c.config.fields[section].JObject? ==>
              r == Some(if key in c.config.fields[section].fields then c.config.fields[section].fields[key] else default)
    ensures r.None? <==> !c.config.JObject? || (section in c.config.fields && !c.config.fields[section].JObject?)
  {
    match Get(c.config, section, JObject(map[]))
      case None => None
      case Some(d) => Get(d, key, default)
  }

  /** A stored value wins over any default; a missing one gives back exactly the default. */
  lemma GetValueIgnoresDefault(c: Config, section: string, key: string, d1: Json, d2: Json)
    requires c.config.JObject? && section in c.config.fields && c.config.fields[section].JObject?
    ensures key in c.config.fields[section].fields ==> GetValue(c, section, key, d1) == GetValue(c, section, key, d2)
    ensures key !in c.config.fields[section].fields ==> GetValue(c, section, key, d1) == Some(d1)
  {
  }

  /** With no file, the lookups give Sunday at 14:00 for four players, a dry run with two retries and a seven-day window. */
  lemma DefaultsWithoutFile(s: Config, any: Json)
    requires !s.initialized
    ensures var c := Construct(s, Missing).state;
            && GetValue(c, "booking", "target_day", any) == Some(JString("Sunday"))
            && GetValue(c, "booking", "target_time", any) == Some(JString("14:00"))
            && GetValue(c, "booking", "player_count", any) == Some(JInt(4))
            && GetValue(c, "runtime", "dry_run", any) == Some(JBool(true))
            && GetValue(c, "runtime", "max_retries", any) == Some(JInt(2))
            && GetValue(c, "system", "booking_window_days", any) == Some(JInt(7))
  {
  }
}

=== FILE: date_utils.dfy ===
/**
 * src/utils/date_utils.py: the Saturday the booking targets, and a run of
 * consecutive dates, both printed as `%Y-%m-%d`. The current date is a
 * parameter.
 */
module DateUtils {
  import opened Wrappers
  import opened Strptime
  import opened Calendar

  const Saturday: nat := 5

  /**
   * Days from a day of weekday `w` to the target Saturday: the days to the next
   * Saturday (a week when `w` is Saturday), plus a week when that is under
   * eight. The next Saturday is always one to seven days away, so the week is
   * always added.
   */
  function OffsetFrom(w: nat): (n: nat)
    requires w < 7
    ensures 8 <= n <= 14
    ensures (w + n) % 7 == Saturday
  {
    var days := (Saturday - w) % 7;
    var next := if days == 0 then 7 else days;
    next + 7
  }

  /** No Saturday falls between eight days ahead and the offset. */
  lemma OffsetIsFirst(w: nat, k: nat)
    requires w < 7 && 8 <= k < OffsetFrom(w)
    ensures (w + k) % 7 != Saturday
  {
  }

  function SaturdayOffset(today: Date): (n: nat)
    requires ValidDate(today)
  {
    OffsetFrom(Weekday(today))
  }

  /**
   * `calculate_target_saturday`: the printed date of a Saturday eight to
   * fourteen days after today, which reads back as that date for four-digit
   * years.
   */
  function CalculateTargetSaturday(today: Date): (r: string)
    requires ValidDate(today)
    ensures var target := AddDays(today, SaturdayOffset(today));
            && Weekday(target) == Saturday
            && 8 <= Ordinal(target) - Ordinal(today) <= 14
            && (1000 <= target.year <= 9999 ==> ParseIsoDate(r) == Some(target))
  {
    var target := AddDays(today, SaturdayOffset(today));
    TargetIsSaturdayAfterAWeek(today);
    AddDaysOrdinal(today, SaturdayOffset(today));
    if 1000 <= target.year <= 9999 then
      IsoDateRoundTrip(target);
      IsoText(target)
    else IsoText(target)
  }

  /** The target lies eight to fourteen days ahead and is a Saturday. */
  lemma TargetIsSaturdayAfterAWeek(today: Date)
    requires ValidDate(today)
    ensures 8 <= SaturdayOffset(today) <= 14
    ensures Weekday(AddDays(today, SaturdayOffset(today))) == Saturday
  {
    var n := SaturdayOffset(today);
    assert (Weekday(today) + n) % 7 == Saturday;
    LandsOn(today, n, Saturday);
  }

  lemma LandsOn(today: Date, n: nat, day: nat)
    requires ValidDate(today)
    requires (Weekday(today) + n) % 7 == day
    ensures Weekday(AddDays(today, n)) == day
  {
    WeekdayAfter(today, n);
  }

  /** The target is the first Saturday at least eight days ahead. */
  lemma TargetIsFirstSaturdayAfterAWeek(today: Date, k: nat)
    requires ValidDate(today)
    requires 8 <= k < SaturdayOffset(today)
    ensures Weekday(AddDays(today, k)) != Saturday
  {
    OffsetIsFirst(Weekday(today), k);
    LandsOn(today, k, (Weekday(today) + k) % 7);
  }

  /** For four-digit years the printed target reads back as the date it names, `offset` days on. */
  lemma TargetSaturdayReadsBack(today: Date, target: Date)
    requires ValidDate(today)
    requires target == AddDays(today, SaturdayOffset(today))
    requires 1000 <= target.year <= 9999
    ensures ParseIsoDate(CalculateTargetSaturday(today)) == Some(target)
    ensures Ordinal(target) == Ordinal(today) + SaturdayOffset(today)
  {
    IsoDateRoundTrip(target);
    AddDaysOrdinal(today, SaturdayOffset(today));
  }

  lemma {:induction false} AddDaysStep(d: Date, n: nat)
    requires ValidDate(d)
    ensures NextDay(AddDays(d, n)) == AddDays(d, n + 1)
    decreases n
  {
    if n > 0 {
      AddDaysStep(NextDay(d), n - 1);
    }
  }

  lemma {:induction false} AddDaysSum(d: Date, a: nat, b: nat)
    requires ValidDate(d)
    ensures AddDays(AddDays(d, a), b) == AddDays(d, a + b)
    decreases a
  {
    if a > 0 {
      AddDaysSum(NextDay(d), a - 1, b);
    }
  }

  /** `calculate_dates_range`: `num_days` consecutive dates starting `days_ahead` days after today. */
  method CalculateDatesRange(today: Date, daysAhead: nat, numDays: int) returns (dates: seq<string>)
    requires ValidDate(today)
    ensures |dates| == if numDays < 0 then 0 else numDays
    ensures forall i :: 0 <= i < |dates| ==> dates[i] == IsoText(AddDays(today, daysAhead + i))
  {
    var start := AddDays(today, daysAhead);
    dates := [];
    var day := start;
    var i := 0;
    while i < numDays
      invariant 0 <= i && (numDays >= 0 ==> i <= numDays) && (numDays < 0 ==> i == 0)
      invariant |dates| == i
      invariant ValidDate(day) && day == AddDays(today, daysAhead + i)
      invariant forall k :: 0 <= k < i ==> dates[k] == IsoText(AddDays(today, daysAhead + k))
    {
      dates := dates + [IsoText(day)];
      AddDaysStep(today, daysAhead + i);
      day := NextDay(day);
      i := i + 1;
    }
  }

  /** Consecutive entries of the range are consecutive days: their ordinals differ by one. */
  lemma DatesRangeIsConsecutive(today: Date, daysAhead: nat, i: nat)
    requires ValidDate(today)
    ensures Ordinal(AddDays(today, daysAhead + i + 1)) == Ordinal(AddDays(today, daysAhead + i)) + 1
    ensures Ordinal(AddDays(today, daysAhead + i)) == Ordinal(today) + daysAhead + i
  {
    AddDaysOrdinal(today, daysAhead + i);
    AddDaysOrdinal(today, daysAhead + i + 1);
  }

  /** The range starts at `start_date = today + days_ahead`, stepping from there. */
  lemma DatesRangeStartsAtStart(today: Date, daysAhead: nat, i: nat)
    requires ValidDate(today)
    ensures AddDays(AddDays(today, daysAhead), i) == AddDays(today, daysAhead + i)
  {
    AddDaysSum(today, daysAhead, i);
  }
}

=== FILE: flow_test.dfy ===
/**
 * The decisions of src/tests/functional/test_booking_flow.py, which repeats
 * the booking flow with its own helpers: `_parse_time`, the target-minute
 * reading, the availability test and ranking of `_find_best_slot`, and the
 * dry-run `_attempt_booking` with its player-count option picker and its
 * booking-button fallback. The page is plain data.
 */
module BookingFlowTest {
  import opened Wrappers
  import opened Text
  import opened Strptime
  import opened TimeParse
  import opened Ranking
  import opened Scanner

  // ---- time reading ----

  /** `_parse_time`: strip, then `%I:%M %p`, `%I:%M%p`, `%H:%M` in order; no respacing fallback. */
  function FlowParseTime(s: string): (r: Option<Clock>)
    ensures r.Some? ==> r.value.hour < 24 && r.value.minute < 60
  {
    FirstClock(Strip(s), ClockFormats, 0)
  }

  /** The test's parser reads exactly the times `parse_time` of the booking module reads, to the same minute. */
  lemma FlowParseTimeAgreesWithParseTime(s: string)
    ensures FlowParseTime(s).None? ==> ParseTime(s).None?
    ensures FlowParseTime(s).Some? ==> ParseTime(s) == Some(FlowParseTime(s).value.Minutes())
  {
    var t := Strip(s);
    if FlowParseTime(s).None? && FallbackShape(t) {
      FallbackIsSubsumed(t);
      assert ParseClock(t, ClockFormats[1]).None?;
    }
  }

  /**
   * The target of `_find_best_slot` (and of `_find_available_slots` in the
   * navigation test): `%H:%M` on the unstripped text when it holds a colon,
   * otherwise `int(text) * 60`; `None` where Python raises.
   */
  function TestTargetMinutes(t: string): (r: Option<int>)
    ensures ':' in t ==> (r.Some? <==> ParseClock(t, Clock24).Some?)
    ensures ':' in t && r.Some? ==> 0 <= r.value < 1440
    ensures ':' !in t ==> (r.Some? <==> PyInt(t).Some?)
    ensures ':' !in t && r.Some? ==> r.value % 60 == 0
  {
    if ':' in t then ClockTarget(t) else HourTarget(t)
  }

  /** `%H:%M` as a minute of the day. */
  function ClockTarget(t: string): (r: Option<int>)
    ensures r.Some? <==> ParseClock(t, Clock24).Some?
    ensures r.Some? ==> 0 <= r.value < 1440
  {
    match ParseClock(t, Clock24)
      case None => None
      case Some(c) => Some(c.Minutes())
  }

  /** `int(t) * 60`: a whole number of hours. */
  function HourTarget(t: string): (r: Option<int>)
    ensures r.Some? <==> PyInt(t).Some?
    ensures r.Some? ==> r.value % 60 == 0
  {
    match PyInt(t)
      case None => None
      case Some(h) => Some(h * 60)
  }

  /** A configured `HH:MM` target reads back as its minute of the day. */
  lemma TestTargetOfClock(m: nat)
    requires m < 1440
    ensures TestTargetMinutes(Display24(m)) == Some(m)
  {
    Display24RoundTrip(m);
    assert Display24(m)[2] == ':';
  }

  /** A configured whole hour `h` reads as `h * 60`, negative hours included. */
  lemma TestTargetOfHour(h: int)
    ensures TestTargetMinutes(IntToString(h)) == Some(h * 60)
  {
    PyIntOfIntToString(h);
    NoColonInIntToString(h);
  }

  lemma NoColonInIntToString(n: int)
    ensures ':' !in IntToString(n)
  {
    var d := NatToString(if n < 0 then -n else n);
    assert forall i :: 0 <= i < |d| ==> d[i] != ':';
    if n < 0 {
      assert IntToString(n) == "-" + d;
      assert forall i :: 0 <= i < |IntToString(n)| ==> IntToString(n)[i] != ':' by {
        forall i | 0 <= i < |IntToString(n)| ensures IntToString(n)[i] != ':' {
          if i > 0 { assert IntToString(n)[i] == d[i - 1]; }
        }
      }
    }
  }

  // ---- availability and ranking in `_find_best_slot` ----

  /** The availability test on an element's text, as written. */
  predicate LikelyAvailable(text: string) {
    var l := Lower(text);
    || Contains(l, "book") || Contains(l, "reserve") || Contains(l, "available")
    || !(Contains(l, "booked") || Contains(l, "taken") || Contains(l, "unavailable") || Contains(l, "reserved"))
  }

  /**
   * Each negative word but "taken" contains a positive word, so the test
   * fails exactly for text that says "taken" and none of "book", "reserve",
   * "available".
   */
  lemma LikelyAvailableIff(text: string)
    ensures LikelyAvailable(text) <==>
              !(Contains(Lower(text), "taken") && !Contains(Lower(text), "book")
                && !Contains(Lower(text), "reserve") && !Contains(Lower(text), "available"))
  {
    var l := Lower(text);
    if Contains(l, "booked") {
      assert OccursAt("booked", "book", 0);
      ContainsTransitive(l, "booked", "book");
    }
    if Contains(l, "reserved") {
      assert OccursAt("reserved", "reserve", 0);
      ContainsTransitive(l, "reserved", "reserve");
    }
    if Contains(l, "unavailable") {
      assert OccursAt("unavailable", "available", 2);
      ContainsTransitive(l, "unavailable", "available");
    }
  }

  /**
   * One clickable element of `_find_best_slot`: its text (`None` when it has
   * none or reading it raised) becomes a slot when non-empty, holding the
   * time pattern, parsable by `_parse_time`, and likely available. The
   * distance is the plain `abs(minutes - target)`.
   */
  function FlowPick(text: Option<string>, i: nat, target: int): Option<Slot> {
    if text.None? || text.value == "" then None
    else
      match TimeMatch(text.value)
        case None => None
        case Some(t) =>
          match FlowParseTime(t)
            case None => None
            case Some(c) =>
              if LikelyAvailable(text.value) then Some(Slot(ClickableAt(i), t, Some(c.Minutes()), AbsDiff(c.Minutes(), target), None))
              else None
  }

  function FlowSlots(texts: seq<Option<string>>, target: int): seq<Slot> {
    Collect(texts, (t, i) => FlowPick(t, i, target), 0)
  }

  /** What `_find_best_slot` ends with, and the status it records for its step. */
  datatype BestSlot =
    | SlotSearchFailed  // the target did not parse or a page call raised: step "failed", error recorded
    | NoSlotFound       // step "warning"
    | BestFound(slot: Slot)  // step "success"

  /**
   * `_find_best_slot`: the head of the distance-sorted candidates. `raised`
   * says whether a page call of the guarded block raises: the page-content
   * query, or the highlight of the best slot.
   */
  function FindBestSlot(texts: seq<Option<string>>, targetTime: string, raised: bool): (r: BestSlot)
    ensures r.SlotSearchFailed? <==> TestTargetMinutes(targetTime).None? || raised
    ensures r.NoSlotFound? <==> !raised && TestTargetMinutes(targetTime).Some? && FlowSlots(texts, TestTargetMinutes(targetTime).value) == []
    ensures r.BestFound? ==> r.slot in FlowSlots(texts, TestTargetMinutes(targetTime).value)
    ensures r.BestFound? ==> forall y :: y in FlowSlots(texts, TestTargetMinutes(targetTime).value) ==> r.slot.distance <= y.distance
  {
    if raised then SlotSearchFailed
    else match TestTargetMinutes(targetTime)
      case None => SlotSearchFailed
      case Some(target) =>
        var all := FlowSlots(texts, target);
        var sorted := SortByDistance(all);
        if sorted == [] then NoSlotFound
        else
          SortByDistanceIsSorted(all);
          HeadIsNearest(all);
          BestFound(sorted[0])
  }

  /** The head of a sorted non-empty list is one of its slots and none is nearer. */
  lemma HeadIsNearest(s: seq<Slot>)
    requires s != []
    ensures SortByDistance(s)[0] in s
    ensures forall y :: y in s ==> SortByDistance(s)[0].distance <= y.distance
  {
    var r := SortByDistance(s);
    SortByDistanceIsSorted(s);
    assert r[0] in multiset(r);
    forall y | y in s ensures r[0].distance <= y.distance {
      assert y in multiset(s);
      var k :| 0 <= k < |r| && r[k] == y;
    }
  }

  /** Of the nearest slots, the first found wins: the sort is stable. */
  lemma FlowBestIsFirstNearest(texts: seq<Option<string>>, targetTime: string, raised: bool)
    requires TestTargetMinutes(targetTime).Some?
    requires FlowSlots(texts, TestTargetMinutes(targetTime).value) != []
    ensures var s := FlowSlots(texts, TestTargetMinutes(targetTime).value);
            FindBestSlot(texts, targetTime, raised) == if raised then SlotSearchFailed else BestFound(s[FirstNearest(s)])
  {
    SortedHeadIsFirstNearest(FlowSlots(texts, TestTargetMinutes(targetTime).value));
  }

  /**
   * Every candidate comes from an element with non-empty, likely-available
   * text holding a readable time, and it carries that time's true distance:
   * unlike the booking module, a midnight slot is ranked like any other.
   */
  lemma FlowSlotsAreReadableTimes(texts: seq<Option<string>>, target: int, x: Slot)
    requires x in FlowSlots(texts, target)
    ensures exists j :: 0 <= j < |texts| && x.handle == ClickableAt(j) && texts[j].Some? && texts[j].value != ""
                        && LikelyAvailable(texts[j].value) && TimeMatch(texts[j].value) == Some(x.time)
    ensures x.minutes.Some? && FlowParseTime(x.time).Some? && x.minutes.value == FlowParseTime(x.time).value.Minutes()
    ensures x.distance == AbsDiff(x.minutes.value, target)
  {
    var j :| 0 <= j < |texts| && FlowPick(texts[j], j, target) == Some(x);
  }

  // ---- the dry-run booking attempt ----

  /** One `<option>`: its `value` attribute and text, either of which may be missing. */
  datatype SelectOption = SelectOption(value: Option<string>, text: Option<string>)

  /** `int(opt["value"])`, `None` where it raises `ValueError` or `TypeError`. */
  function OptionNumber(o: SelectOption): Option<int> {
    if o.value.None? then None else PyInt(o.value.value)
  }

  /** The integer read from each option, in order. */
  function OptionNumbers(options: seq<SelectOption>): (r: seq<Option<int>>)
    ensures |r| == |options|
    ensures forall j :: 0 <= j < |options| ==> r[j] == OptionNumber(options[j])
  {
    seq(|options|, j requires 0 <= j < |options| => OptionNumber(options[j]))
  }

  /**
   * The option picker: the first integer option whose value is closest to the
   * player count. Ties keep the earlier option because the test is strict.
   */
  method BestOption(options: seq<SelectOption>, playerCount: int) returns (best: Option<nat>)
    ensures best.None? <==> forall j :: 0 <= j < |options| ==> OptionNumber(options[j]).None?
    ensures best.Some? ==> best.value < |options| && OptionNumber(options[best.value]).Some?
    ensures best.Some? ==> forall j :: 0 <= j < |options| && OptionNumber(options[j]).Some? ==>
              AbsDiff(OptionNumber(options[best.value]).value, playerCount) <= AbsDiff(OptionNumber(options[j]).value, playerCount)
    ensures best.Some? ==> forall j :: 0 <= j < best.value && OptionNumber(options[j]).Some? ==>
              AbsDiff(OptionNumber(options[best.value]).value, playerCount) < AbsDiff(OptionNumber(options[j]).value, playerCount)
  {
    best := Closest(OptionNumbers(options), playerCount);
  }

  /** The loop of the picker over the numbers read from the options. */
  method Closest(nums: seq<Option<int>>, playerCount: int) returns (best: Option<nat>)
    ensures best.None? <==> forall j :: 0 <= j < |nums| ==> nums[j].None?
    ensures best.Some? ==> best.value < |nums| && nums[best.value].Some?
    ensures best.Some? ==> forall j :: 0 <= j < |nums| && nums[j].Some? ==>
              AbsDiff(nums[best.value].value, playerCount) <= AbsDiff(nums[j].value, playerCount)
    ensures best.Some? ==> forall j :: 0 <= j < best.value && nums[j].Some? ==>
              AbsDiff(nums[best.value].value, playerCount) < AbsDiff(nums[j].value, playerCount)
  {
    best := None;
    var i := 0;
    while i < |nums|
      invariant 0 <= i <= |nums|
      invariant best.None? <==> forall j :: 0 <= j < i ==> nums[j].None?
      invariant best.Some? ==> best.value < i && nums[best.value].Some?
      invariant best.Some? ==> forall j :: 0 <= j < i && nums[j].Some? ==>
                  AbsDiff(nums[best.value].value, playerCount) <= AbsDiff(nums[j].value, playerCount)
      invariant best.Some? ==> forall j :: 0 <= j < best.value && nums[j].Some? ==>
                  AbsDiff(nums[best.value].value, playerCount) < AbsDiff(nums[j].value, playerCount)
    {
      if nums[i].Some? {
        if best.None? || AbsDiff(nums[i].value, playerCount) < AbsDiff(nums[best.value].value, playerCount) {
          best := Some(i);
        }
      }
      i := i + 1;
    }
  }

  /** The player-count field found in the booking form. */
  datatype PlayerField = SelectField(options: seq<SelectOption>) | InputField

  /** Which button the attempt settles on: the first selector that matched, or the form's last button. */
  datatype ButtonPick = BySelector(selector: nat) | LastButton(index: nat)

  /** The booking-button selectors, tried in this order. */
  const ButtonSelectors: seq<string> := [
    "button:text('Book')", "button:text('Reserve')", "button:text('Continue')", "button:text('Submit')",
    "button[type='submit']", "[class*='book'] button", "[class*='submit'] button", "input[type='submit']"]

  datatype FlowAction =
    | ClickSlot
    | SelectValue(value: string)
    | FillValue(value: string)
    | HighlightButton(button: ButtonPick)
    | ClickButton(button: ButtonPick)

  /** The attempt's verdict, its page actions, and the button it settled on. */
  datatype FlowAttempt = FlowAttempt(ok: bool, actions: seq<FlowAction>, button: Option<ButtonPick>)

  /** The first selector, from `i` on, that found a button in the form. */
  function FirstHit(hits: seq<bool>, i: nat): (r: Option<nat>)
    requires i <= |hits|
    ensures r.Some? ==> i <= r.value < |hits| && hits[r.value] && forall k :: i <= k < r.value ==> !hits[k]
    ensures r.None? ==> forall k :: i <= k < |hits| ==> !hits[k]
    decreases |hits| - i
  {
    if i == |hits| then None else if hits[i] then Some(i) else FirstHit(hits, i + 1)
  }

  /**
   * `_attempt_booking` in the test's forced dry run. After clicking the slot,
   * a missing form fails the attempt. The player count goes into the field
   * found (the closest integer option of a select, else `str(player_count)`;
   * an input is filled); then the booking button is looked up by selector,
   * falling back to the form's last button, and only highlighted.
   * `hits[k]` says whether selector `k` found a button; `formButtons` counts
   * the form's buttons. `raisedAfter` is `Some(k)` when a page call the
   * attempt does not catch itself raises once `k` of its actions are made: the
   * handler around the whole attempt records the error and the attempt fails.
   */
  method DryRunAttempt(formFound: bool, field: Option<PlayerField>, hits: seq<bool>, formButtons: nat, playerCount: int,
                       raisedAfter: Option<nat>)
    returns (r: FlowAttempt)
    requires |hits| == |ButtonSelectors|
    ensures r.ok <==> raisedAfter.None? && formFound && (FirstHit(hits, 0).Some? || formButtons > 0)
    ensures forall a :: a in r.actions ==> !a.ClickButton?
    ensures raisedAfter.None? || raisedAfter.value > 0 ==> |r.actions| >= 1 && r.actions[0] == ClickSlot
    ensures raisedAfter.Some? ==> |r.actions| <= raisedAfter.value && r.button.None?
    ensures r.ok ==> r.button.Some? && r.actions[|r.actions| - 1] == HighlightButton(r.button.value)
    ensures r.ok && FirstHit(hits, 0).Some? ==> r.button == Some(BySelector(FirstHit(hits, 0).value))
    ensures r.ok && FirstHit(hits, 0).None? ==> r.button == Some(LastButton(formButtons - 1))
    ensures formFound && field == Some(InputField) && (raisedAfter.None? || raisedAfter.value > 1) ==>
              FillValue(IntToString(playerCount)) in r.actions
  {
    var actions := [ClickSlot];
    var button := None;
    if formFound {
      var entry := EnterPlayers(field, playerCount);
      button := BookingButton(hits, formButtons);
      var highlight := if button.Some? then [HighlightButton(button.value)] else [];
      actions := [ClickSlot] + entry + highlight;
      assert forall a :: a in actions ==> a == ClickSlot || a in entry || a in highlight;
      if field == Some(InputField) {
        assert actions[1] == FillValue(IntToString(playerCount));
      }
    }
    match raisedAfter {
      case None =>
        r := FlowAttempt(button.Some?, actions, button);
      case Some(k) =>
        var made := if k < |actions| then actions[..k] else actions;
        assert forall a :: a in made ==> a in actions;
        r := FlowAttempt(false, made, None);
    }
  }

  /** The booking button: the first selector that matched, else the form's last button, else none. */
  function BookingButton(hits: seq<bool>, formButtons: nat): (b: Option<ButtonPick>)
    ensures b.None? <==> FirstHit(hits, 0).None? && formButtons == 0
    ensures FirstHit(hits, 0).Some? ==> b == Some(BySelector(FirstHit(hits, 0).value))
    ensures FirstHit(hits, 0).None? && formButtons > 0 ==> b == Some(LastButton(formButtons - 1))
  {
    var hit := FirstHit(hits, 0);
    if hit.Some? then Some(BySelector(hit.value))
    else if formButtons > 0 then Some(LastButton(formButtons - 1))
    else None
  }

  /** Option `j` is an integer option closest to the player count, and every earlier integer option is farther. */
  predicate ClosestOption(options: seq<SelectOption>, playerCount: int, j: int) {
    && 0 <= j < |options| && OptionNumber(options[j]).Some? && options[j].value.Some?
    && (forall k :: 0 <= k < |options| && OptionNumber(options[k]).Some? ==>
          AbsDiff(OptionNumber(options[j]).value, playerCount) <= AbsDiff(OptionNumber(options[k]).value, playerCount))
    && (forall k :: 0 <= k < j && OptionNumber(options[k]).Some? ==>
          AbsDiff(OptionNumber(options[j]).value, playerCount) < AbsDiff(OptionNumber(options[k]).value, playerCount))
  }

  /**
   * Entering the player count: a select gets the closest integer option's
   * value, or `str(player_count)` when no option is an integer; an input is
   * filled with `str(player_count)`; no field, no action.
   */
  method EnterPlayers(field: Option<PlayerField>, playerCount: int) returns (acts: seq<FlowAction>)
    ensures field.None? <==> acts == []
    ensures forall a :: a in acts ==> a.SelectValue? || a.FillValue?
    ensures field == Some(InputField) ==> acts == [FillValue(IntToString(playerCount))]
    ensures field.Some? && field.value.SelectField? ==> |acts| == 1 && acts[0].SelectValue?
    ensures field.Some? && field.value.SelectField? ==>
              ((forall j :: 0 <= j < |field.value.options| ==> OptionNumber(field.value.options[j]).None?)
               ==> acts == [SelectValue(IntToString(playerCount))])
    ensures field.Some? && field.value.SelectField? ==>
              (acts != [SelectValue(IntToString(playerCount))]
               ==> exists j :: 0 <= j < |field.value.options| && OptionNumber(field.value.options[j]).Some?
                               && Some(acts[0].value) == field.value.options[j].value)
    ensures field.Some? && field.value.SelectField?
            && (exists k :: 0 <= k < |field.value.options| && OptionNumber(field.value.options[k]).Some?) ==>
              exists j :: ClosestOption(field.value.options, playerCount, j) && acts == [SelectValue(field.value.options[j].value.value)]
  {
    match field {
      case None =>
        acts := [];
      case Some(InputField) =>
        acts := [FillValue(IntToString(playerCount))];
      case Some(SelectField(options)) =>
        var best := BestOption(options, playerCount);
        if best.Some? {
          var o := options[best.value];
          assert o.value.Some?;
          acts := [SelectValue(o.value.value)];
          assert ClosestOption(options, playerCount, best.value);
        } else {
          acts := [SelectValue(IntToString(playerCount))];
        }
    }
  }
}

=== FILE: json.dfy ===
/** The JSON values that configuration files, step data and results records hold. */
module Json {
  datatype Json =
    | JNull
    | JBool(b: bool)
    | JInt(i: int)
    | JString(s: string)
    | JArray(items: seq<Json>)
    | JObject(fields: map<string, Json>)
  {
    /** Python truthiness of the value. */
    predicate Truthy() {
      match this
        case JNull => false
        case JBool(b) => b
        case JInt(i) => i != 0
        case JString(s) => s != ""
        case JArray(items) => items != []
        case JObject(fields) => fields != map[]
    }
  }
}

=== FILE: navigation_test.dfy ===
/**
 * The decisions of src/tests/functional/test_navigation.py: its own time
 * reader `parse_time_to_minutes`, the ranking of `_find_available_slots`,
 * and the date of the direct booking URL. The page is plain data and the
 * current date a parameter.
 */
module NavigationTest {
  import opened Wrappers
  import opened Text
  import opened Strptime
  import opened TimeParse
  import opened Ranking
  import opened Scanner
  import opened Calendar
  import opened BookingFlowTest

  /**
   * `parse_time_to_minutes`: `None` without a colon; text mentioning am/pm
   * is read with `%I:%M %p` only, anything else with `%H:%M`, both after
   * stripping; `None` where `strptime` raises.
   */
  function ParseTimeToMinutes(s: string): (r: Option<nat>)
    ensures ':' !in s ==> r.None?
    ensures r.Some? ==> r.value < 1440
    ensures r.Some? ==> ParseClock(Strip(s), Spaced12).Some? || ParseClock(Strip(s), Clock24).Some?
  {
    if ':' !in s then None
    else
      var fmt := if Contains(Lower(s), "am") || Contains(Lower(s), "pm") then Spaced12 else Clock24;
      match ParseClock(Strip(s), fmt)
        case None => None
        case Some(c) => Some(c.Minutes())
  }

  /** Whatever this reader reads, `parse_time` of the booking module reads the same. */
  lemma NavParseAgreesWithParseTime(s: string)
    requires ParseTimeToMinutes(s).Some?
    ensures ParseTime(s) == ParseTimeToMinutes(s)
  {
    ParseTimeIsFirstFormat(s);
    FirstClockPicks(Strip(s));
  }

  /** The first format to read `t` is `%I:%M %p` whenever that one reads it, and `%H:%M` whenever that one does. */
  lemma FirstClockPicks(t: string)
    ensures ParseClock(t, Spaced12).Some? ==> FirstClock(t, ClockFormats, 0) == ParseClock(t, Spaced12)
    ensures ParseClock(t, Clock24).Some? ==> FirstClock(t, ClockFormats, 0) == ParseClock(t, Clock24)
  {
    if ParseClock(t, Clock24).Some? {
      assert ParseClock(t, ClockFormats[0]).None?;
      assert ParseClock(t, ClockFormats[1]).None?;
    }
  }

  /**
   * A time written without a space before am/pm ("7:30PM") is lost: `%I:%M %p`
   * needs the space, `%H:%M` refuses the suffix. The booking module reads it.
   */
  lemma NavRejectsCompactTimes(s: string)
    requires ParseClock(Strip(s), Compact12).Some?
    ensures ParseTimeToMinutes(s).None?
    ensures ParseTime(s).Some?
  {
    var t := Strip(s);
    CompactOnly(t);
    ParseTimeIsFirstFormat(s);
    assert ParseClock(t, ClockFormats[1]).Some?;
  }

  /** A compact am/pm time is read by neither of the other two formats. */
  lemma CompactOnly(t: string)
    requires ParseClock(t, Compact12).Some?
    ensures ParseClock(t, Spaced12).None? && ParseClock(t, Clock24).None?
  {
    var rest := SplitClock(t).value.rest;
    assert Meridiem(rest).Some?;
    assert SpacedMeridiem(rest).None?;
  }

  /** Every 24-hour display time reads back as its minute of the day. */
  lemma NavReadsClock24(m: nat)
    requires m < 1440
    ensures ParseTimeToMinutes(Display24(m)) == Some(m)
  {
    var s := Display24(m);
    Display24RoundTrip(m);
    ClockOfMinutes(m);
    Display24Shape(m);
    NoLetters(Lower(s), "am");
    NoLetters(Lower(s), "pm");
    StripNoSpace(s);
  }

  /** A 24-hour display time is digits around one colon, and reads the same lowered. */
  lemma Display24Shape(m: nat)
    requires m < 1440
    ensures ':' in Display24(m)
    ensures forall i :: 0 <= i < |Display24(m)| ==> Display24(m)[i] == ':' || IsDigit(Display24(m)[i])
    ensures forall i :: 0 <= i < |Lower(Display24(m))| ==> Lower(Display24(m))[i] == ':' || IsDigit(Lower(Display24(m))[i])
  {
    var s := Display24(m);
    var hs, ms := Pad2(m / 60), Pad2(m % 60);
    assert s == hs + ":" + ms;
    assert s[2] == ':';
    forall i | 0 <= i < |s| ensures s[i] == ':' || IsDigit(s[i]) {
      if i < 2 { assert s[i] == hs[i]; } else if i > 2 { assert s[i] == ms[i - 3]; }
    }
  }

  /** A string of digits and colons does not contain a word starting with a letter. */
  lemma NoLetters(s: string, w: string)
    requires |w| > 0 && 'a' <= w[0] <= 'z'
    requires forall i :: 0 <= i < |s| ==> s[i] == ':' || IsDigit(s[i])
    ensures !Contains(s, w)
  {
    forall i | 0 <= i <= |s| - |w|
      ensures !OccursAt(s, w, i)
    {
      assert s[i..i + |w|][0] == s[i] != w[0];
    }
  }

  /** An element the page script reported: its trimmed text, and whether the text lookup found an element. */
  datatype TimeElement = TimeElement(text: string, located: bool)

  /** An entry becomes a slot when its time reads and an element holds that time; the distance is `abs(minutes - target)`. */
  function NavPick(e: TimeElement, i: nat, target: int): Option<Slot> {
    match TimeMatch(e.text)
      case None => None
      case Some(t) =>
        match ParseTimeToMinutes(t)
          case None => None
          case Some(m) => if e.located then Some(Slot(TextAt(i), t, Some(m), AbsDiff(m, target), None)) else None
  }

  function NavSlots(elems: seq<TimeElement>, target: int): seq<Slot> {
    Collect(elems, (e, i) => NavPick(e, i, target), 0)
  }

  /**
   * `_find_available_slots`: the slots sorted by distance; `[]` when the target
   * does not parse or when a page call inside the guarded block raises
   * (`raised`).
   */
  function FindAvailableSlots(elems: seq<TimeElement>, targetTime: string, raised: bool): (r: seq<Slot>)
    ensures TestTargetMinutes(targetTime).None? || raised ==> r == []
    ensures TestTargetMinutes(targetTime).Some? && !raised ==>
              multiset(r) == multiset(NavSlots(elems, TestTargetMinutes(targetTime).value))
    ensures Sorted(r)
  {
    if raised then []
    else match TestTargetMinutes(targetTime)
      case None => []
      case Some(target) =>
        SortByDistanceIsSorted(NavSlots(elems, target));
        SortByDistance(NavSlots(elems, target))
  }

  /** Each slot comes from a located element whose time reads, and carries that time's distance. */
  lemma NavSlotsAreLocatedTimes(elems: seq<TimeElement>, targetTime: string, raised: bool, x: Slot)
    requires x in FindAvailableSlots(elems, targetTime, raised)
    ensures TestTargetMinutes(targetTime).Some? && !raised
    ensures exists j :: 0 <= j < |elems| && x.handle == TextAt(j) && elems[j].located && TimeMatch(elems[j].text) == Some(x.time)
    ensures x.minutes.Some? && ParseTimeToMinutes(x.time) == x.minutes
    ensures x.distance == AbsDiff(x.minutes.value, TestTargetMinutes(targetTime).value)
  {
    var target := TestTargetMinutes(targetTime).value;
    assert x in multiset(NavSlots(elems, target));
    NavSlotIsLocatedTime(elems, target, x);
  }

  lemma NavSlotIsLocatedTime(elems: seq<TimeElement>, target: int, x: Slot)
    requires x in NavSlots(elems, target)
    ensures exists j :: 0 <= j < |elems| && x.handle == TextAt(j) && elems[j].located && TimeMatch(elems[j].text) == Some(x.time)
    ensures x.minutes.Some? && ParseTimeToMinutes(x.time) == x.minutes
    ensures x.distance == AbsDiff(x.minutes.value, target)
  {
    var j :| 0 <= j < |elems| && NavPick(elems[j], j, target) == Some(x);
  }

  /** Slots at equal distance stay in page order. */
  lemma NavSlotsAreStable(elems: seq<TimeElement>, targetTime: string, raised: bool, d: nat)
    requires TestTargetMinutes(targetTime).Some?
    ensures WithDistance(FindAvailableSlots(elems, targetTime, raised), d)
            == if raised then [] else WithDistance(NavSlots(elems, TestTargetMinutes(targetTime).value), d)
  {
    SortByDistanceIsStable(NavSlots(elems, TestTargetMinutes(targetTime).value), d);
  }

  // ---- the direct booking URL ----

  /** The direct URL targets the day a week ahead. */
  const DaysAhead: nat := 7

  /** `(today + timedelta(days=7)).strftime("%Y-%m-%d").replace('-', '')` */
  function DirectUrlDate(today: Date): (r: string)
    requires ValidDate(today)
    ensures '-' !in r
  {
    CompactDate(AddDays(today, DaysAhead))
  }

  /** `%Y-%m-%d` with the dashes removed. */
  function CompactDate(d: Date): string
    requires ValidDate(d)
  {
    Remove(IsoText(d), '-')
  }

  function DirectNavigationUrl(today: Date): string
    requires ValidDate(today)
  {
    "https://customer-cc36.clubcaddie.com/booking?date=" + DirectUrlDate(today)
  }

  /** For a four-digit year the URL date is `YYYYMMDD` of the day a week ahead (eight digits, by CompactIso). */
  lemma DirectUrlDateDigits(today: Date, d: Date)
    requires ValidDate(today)
    requires d == AddDays(today, DaysAhead) && 1000 <= d.year <= 9999
    ensures DirectUrlDate(today) == YearText(d.year) + Pad2(d.month) + Pad2(d.day)
  {
    CompactIso(d);
  }

  /** A whole number of weeks on, as the direct URL's `DaysAhead`, the ordinal grows by that much and the weekday is kept. */
  lemma WeeksAhead(today: Date, n: nat, d: Date)
    requires ValidDate(today) && d == AddDays(today, n) && n % 7 == 0
    ensures Ordinal(d) == Ordinal(today) + n
    ensures Weekday(d) == Weekday(today)
  {
    AddDaysOrdinal(today, n);
    WeekdayAfter(today, n);
    WholeWeeks(Weekday(today), n);
  }

  lemma WholeWeeks(w: nat, n: nat)
    requires w < 7 && n % 7 == 0
    ensures (w + n) % 7 == w
  {
    var q := n / 7;
    assert n == 7 * q;
    assert w + n == w + 7 * q;
  }

  /** Without its dashes, a four-digit-year ISO date is the eight digits `YYYYMMDD`. */
  lemma CompactIso(d: Date)
    requires ValidDate(d) && 1000 <= d.year <= 9999
    ensures CompactDate(d) == YearText(d.year) + Pad2(d.month) + Pad2(d.day)
    ensures |YearText(d.year) + Pad2(d.month) + Pad2(d.day)| == 8
    ensures AllDigits(YearText(d.year) + Pad2(d.month) + Pad2(d.day))
  {
    FourDigitYear(d.year);
    RemoveDash(YearText(d.year), Pad2(d.month), Pad2(d.day));
  }

  /** Removing the two dashes of `y-m-d` when none of the parts holds a dash. */
  lemma RemoveDash(y: string, m: string, d: string)
    requires AllDigits(y) && AllDigits(m) && AllDigits(d)
    ensures Remove(y + "-" + m + "-" + d, '-') == y + m + d
  {
    assert Remove("-", '-') == "";
    var a := y + "-";
    RemoveAppend(y, "-");
    RemoveDigits(y);
    assert Remove(a, '-') == y;
    var b := a + m;
    RemoveAppend(a, m);
    RemoveDigits(m);
    assert Remove(b, '-') == y + m;
    var c := b + "-";
    RemoveAppend(b, "-");
    assert Remove(c, '-') == y + m;
    RemoveAppend(c, d);
    RemoveDigits(d);
  }

  lemma {:induction false} RemoveAppend(a: string, b: string)
    ensures Remove(a + b, '-') == Remove(a, '-') + Remove(b, '-')
  {
    if |a| > 0 {
      assert (a + b)[1..] == a[1..] + b;
      RemoveAppend(a[1..], b);
    } else {
      assert a + b == b;
    }
  }

  lemma {:induction false} RemoveDigits(s: string)
    requires AllDigits(s)
    ensures Remove(s, '-') == s
  {
    if |s| > 0 {
      RemoveDigits(s[1..]);
      assert s == [s[0]] + s[1..];
    }
  }
}

=== FILE: ranking.dfy ===
/**
 * Ranking of candidate tee-time slots by distance from the target time
 * (src/functions/booking.py and the two functional tests): the distance of a
 * slot, and Python's stable `list.sort(key=...)` on that distance.
 */
module Ranking {
  import opened Wrappers

  /** The distance given to a slot whose time is unknown. */
  const Unranked: nat := 9999

  /**
   * `abs(minutes - target) if minutes else 9999`. `minutes` is falsy both
   * when the time did not parse and when it parsed to midnight (0), so a
   * midnight slot is unranked as well.
   */
  function Distance(minutes: Option<nat>, target: nat): (d: nat)
    ensures minutes.Some? && minutes.value > 0 ==> d + target == minutes.value || d + minutes.value == target
    ensures minutes.None? || minutes.value == 0 ==> d == Unranked
  {
    match minutes
      case None => Unranked
      case Some(m) => if m == 0 then Unranked else if m >= target then m - target else target - m
  }

  /** A slot after midnight is at distance 0 exactly when it is at the target time. */
  lemma DistanceZeroIffOnTarget(m: nat, target: nat)
    requires m > 0
    ensures Distance(Some(m), target) == 0 <==> m == target
  {
  }

  /** A midnight slot is unranked even when the target is midnight. */
  lemma MidnightIsUnranked(target: nat)
    ensures Distance(Some(0), target) == Unranked
  {
  }

  /** `abs(a - b)` */
  function AbsDiff(a: int, b: int): nat {
    if a >= b then a - b else b - a
  }

  /** Where a slot would be clicked: the element a scan took it from. */
  datatype Handle =
    | FormAt(index: nat)
    | CardControl(index: nat)
    | ControlAt(index: nat)
    | ClickableAt(index: nat)
    | RowAt(index: nat)
    | RowControl(index: nat)
    | SimulatedForm
    | TextAt(index: nat)  // the first element whose own text holds the time of entry `index`

  /** The slot record the scans build: element, matched time text, minutes, distance, and form id for forms. */
  datatype Slot = Slot(handle: Handle, time: string, minutes: Option<nat>, distance: nat, formId: Option<string>)

  predicate Sorted(s: seq<Slot>) {
    forall i, j :: 0 <= i < j < |s| ==> s[i].distance <= s[j].distance
  }

  /** The subsequence of slots at distance `d`, in order. */
  function WithDistance(s: seq<Slot>, d: nat): (r: seq<Slot>)
    ensures |r| <= |s|
  {
    if s == [] then []
    else (if s[0].distance == d then [s[0]] else []) + WithDistance(s[1..], d)
  }

  lemma {:induction false} WithDistanceAppend(a: seq<Slot>, b: seq<Slot>, d: nat)
    ensures WithDistance(a + b, d) == WithDistance(a, d) + WithDistance(b, d)
  {
    if a == [] {
      assert a + b == b;
    } else {
      var ab := a + b;
      assert ab[0] == a[0];
      assert ab[1..] == a[1..] + b;
      WithDistanceAppend(a[1..], b, d);
      var head := if a[0].distance == d then [a[0]] else [];
      assert WithDistance(ab, d) == head + WithDistance(a[1..] + b, d);
      assert WithDistance(a, d) == head + WithDistance(a[1..], d);
    }
  }

  /** Places `x` after every slot whose distance is at most its own. */
  function Insert(x: Slot, s: seq<Slot>): (r: seq<Slot>)
    ensures multiset(r) == multiset(s) + multiset{x}
    ensures |r| == |s| + 1
  {
    if s == [] then [x]
    else if x.distance < s[0].distance then [x] + s
    else
      assert s == [s[0]] + s[1..];
      [s[0]] + Insert(x, s[1..])
  }

  /** Python's `sort(key=lambda x: x['distance'])`: stable, ascending. */
  function SortByDistance(s: seq<Slot>): (r: seq<Slot>)
    ensures |r| == |s|
    ensures multiset(r) == multiset(s)
  {
    if s == [] then []
    else
      assert s == s[..|s| - 1] + [s[|s| - 1]];
      Insert(s[|s| - 1], SortByDistance(s[..|s| - 1]))
  }

  lemma {:induction false} InsertSorted(x: Slot, s: seq<Slot>)
    requires Sorted(s)
    ensures Sorted(Insert(x, s))
  {
    if s != [] && x.distance >= s[0].distance {
      InsertSorted(x, s[1..]);
      var t := Insert(x, s[1..]);
      HeadIsLeast(s);
      forall k | 0 <= k < |t| ensures s[0].distance <= t[k].distance {
        assert t[k] in multiset(t);
        assert t[k] == x || t[k] in multiset(s[1..]);
      }
      SortedCons(s[0], t);
    }
  }

  /** No slot after the head of a sorted list is nearer than the head. */
  lemma HeadIsLeast(s: seq<Slot>)
    requires Sorted(s) && s != []
    ensures forall e :: e in multiset(s[1..]) ==> s[0].distance <= e.distance
  {
    forall e | e in multiset(s[1..]) ensures s[0].distance <= e.distance {
      assert e in s[1..];
      var k :| 0 <= k < |s[1..]| && s[1..][k] == e;
      assert s[k + 1] == e;
    }
  }

  /** A slot no farther than any of a sorted list, put in front, keeps it sorted. */
  lemma SortedCons(h: Slot, t: seq<Slot>)
    requires Sorted(t)
    requires forall k :: 0 <= k < |t| ==> h.distance <= t[k].distance
    ensures Sorted([h] + t)
  {
    var r := [h] + t;
    forall i, j | 0 <= i < j < |r| ensures r[i].distance <= r[j].distance {
      if i == 0 {
        assert r[j] == t[j - 1];
      } else {
        assert r[i] == t[i - 1] && r[j] == t[j - 1];
      }
    }
  }

  /** In a sorted list, no slot is nearer than the first. */
  lemma {:induction false} NoneNearerThanHead(s: seq<Slot>, d: nat)
    requires Sorted(s) && s != [] && d < s[0].distance
    ensures WithDistance(s, d) == []
  {
    if |s| > 1 {
      NoneNearerThanHead(s[1..], d);
    }
  }

  lemma {:induction false} InsertKeepsOthers(x: Slot, s: seq<Slot>, d: nat)
    requires Sorted(s)
    ensures WithDistance(Insert(x, s), d) == WithDistance(s, d) + WithDistance([x], d)
  {
    if s == [] {
      assert Insert(x, s) == [x];
    } else if x.distance < s[0].distance {
      InsertFront(x, s, d);
    } else {
      InsertKeepsOthers(x, s[1..], d);
      InsertBehind(x, s, d);
    }
  }

  lemma InsertBehind(x: Slot, s: seq<Slot>, d: nat)
    requires s != [] && x.distance >= s[0].distance
    requires WithDistance(Insert(x, s[1..]), d) == WithDistance(s[1..], d) + WithDistance([x], d)
    ensures WithDistance(Insert(x, s), d) == WithDistance(s, d) + WithDistance([x], d)
  {
    var t := s[1..];
    InsertBehindHead(x, s);
    assert [s[0]] + t == s;
    AppendKeepsSplit([s[0]], t, Insert(x, t), [x], d);
  }

  lemma InsertBehindHead(x: Slot, s: seq<Slot>)
    requires s != [] && x.distance >= s[0].distance
    ensures Insert(x, s) == [s[0]] + Insert(x, s[1..])
  {
  }

  lemma AppendKeepsSplit(head: seq<Slot>, t: seq<Slot>, it: seq<Slot>, xs: seq<Slot>, d: nat)
    requires WithDistance(it, d) == WithDistance(t, d) + WithDistance(xs, d)
    ensures WithDistance(head + it, d) == WithDistance(head + t, d) + WithDistance(xs, d)
  {
    WithDistanceAppend(head, it, d);
    WithDistanceAppend(head, t, d);
  }

  lemma InsertFront(x: Slot, s: seq<Slot>, d: nat)
    requires Sorted(s) && s != [] && x.distance < s[0].distance
    ensures WithDistance(Insert(x, s), d) == WithDistance(s, d) + WithDistance([x], d)
  {
    if x.distance == d {
      NoneNearerThanHead(s, d);
    }
    assert Insert(x, s) == [x] + s;
    WithDistanceAppend([x], s, d);
  }

  /** The sort is ascending. */
  lemma {:induction false} SortByDistanceIsSorted(s: seq<Slot>)
    ensures Sorted(SortByDistance(s))
  {
    if s != [] {
      SortByDistanceIsSorted(s[..|s| - 1]);
      InsertSorted(s[|s| - 1], SortByDistance(s[..|s| - 1]));
    }
  }

  /** The sort keeps the slots of each distance in their scan order. */
  lemma {:induction false} SortByDistanceIsStable(s: seq<Slot>, d: nat)
    ensures WithDistance(SortByDistance(s), d) == WithDistance(s, d)
  {
    if s != [] {
      var init := s[..|s| - 1];
      var last := s[|s| - 1];
      var sorted := SortByDistance(init);
      SortByDistanceIsStable(init, d);
      SortByDistanceIsSorted(init);
      InsertKeepsOthers(last, sorted, d);
      SortByDistanceOfLast(s);
      StableStep(s, init, last, sorted, Insert(last, sorted), d);
    }
  }

  lemma SortByDistanceOfLast(s: seq<Slot>)
    requires s != []
    ensures SortByDistance(s) == Insert(s[|s| - 1], SortByDistance(s[..|s| - 1]))
  {
  }

  lemma StableStep(s: seq<Slot>, init: seq<Slot>, last: Slot, sorted: seq<Slot>, inserted: seq<Slot>, d: nat)
    requires s != [] && init == s[..|s| - 1] && last == s[|s| - 1]
    requires WithDistance(sorted, d) == WithDistance(init, d)
    requires WithDistance(inserted, d) == WithDistance(sorted, d) + WithDistance([last], d)
    ensures WithDistance(inserted, d) == WithDistance(s, d)
  {
    assert s == init + [last];
    WithDistanceAppend(init, [last], d);
  }

  /** Index of the first slot of least distance. */
  function FirstNearest(s: seq<Slot>): (i: nat)
    requires s != []
    ensures i < |s|
    ensures forall j :: 0 <= j < |s| ==> s[i].distance <= s[j].distance
    ensures forall j :: 0 <= j < i ==> s[j].distance > s[i].distance
  {
    if |s| == 1 then 0
    else
      var k := FirstNearest(s[1..]);
      if s[0].distance <= s[k + 1].distance then 0 else k + 1
  }

  lemma {:induction false} WithDistanceFirst(s: seq<Slot>, i: nat)
    requires i < |s|
    requires forall j :: 0 <= j < i ==> s[j].distance != s[i].distance
    ensures WithDistance(s, s[i].distance) != [] && WithDistance(s, s[i].distance)[0] == s[i]
  {
    if i > 0 {
      WithDistanceFirst(s[1..], i - 1);
    }
  }

  /** The head of the sorted list is the first slot, in scan order, at the least distance. */
  lemma SortedHeadIsFirstNearest(s: seq<Slot>)
    requires s != []
    ensures SortByDistance(s)[0] == s[FirstNearest(s)]
  {
    var r := SortByDistance(s);
    var i := FirstNearest(s);
    var d := s[i].distance;
    SortByDistanceIsSorted(s);
    SortByDistanceIsStable(s, d);
    WithDistanceFirst(s, i);
    assert s[i] in multiset(r);
    assert r[0].distance <= d;
    assert r[0] in multiset(s);
    assert r[0].distance == d;
    WithDistanceFirst(r, 0);
  }
}

=== FILE: report.dfy ===
/**
 * The decisions inside the HTML report of src/tests/utils/report_generator.py:
 * the tally of step statuses, the colour class of a step, when a duration is
 * shown, the verdict badge and the errors block. The rest of the HTML text
 * and the file handling are not modelled.
 */
module ReportGenerator {
  import opened Wrappers
  import opened Text

  /** The statuses the tally starts with, each at zero. */
  const TalliedStatuses: set<string> := {"success", "failed", "warning", "running"}

  /** Number of steps with status `k`. */
  function Count(statuses: seq<string>, k: string): nat {
    if statuses == [] then 0
    else Count(statuses[..|statuses| - 1], k) + (if statuses[|statuses| - 1] == k then 1 else 0)
  }

  /** `step.get("status", "")`: a step without a status counts under "". */
  function StatusOf(status: Option<string>): string {
    if status.Some? then status.value else ""
  }

  /**
   * The tally loop: `{"success": 0, "failed": 0, "warning": 0, "running": 0}`,
   * then one more for each step's status, unknown statuses getting their own key.
   */
  method TallyStatuses(steps: seq<Option<string>>) returns (tally: map<string, nat>)
    ensures forall k :: k in tally <==> k in TalliedStatuses || k in Statuses(steps)
    ensures forall k :: k in tally ==> tally[k] == Count(Statuses(steps), k)
  {
    var s := Statuses(steps);
    tally := map["success" := 0, "failed" := 0, "warning" := 0, "running" := 0];
    StartingTally(tally);
    var i := 0;
    while i < |s|
      invariant 0 <= i <= |s|
      invariant Tallies(tally, s[..i])
    {
      var status := s[i];
      var before := if status in tally then tally[status] else 0;
      TallyStep(s[..i], status, tally);
      assert s[..i + 1] == s[..i] + [status];
      tally := tally[status := before + 1];
      i := i + 1;
    }
    assert s[..i] == s;
  }

  /** `tally` holds the four tallied statuses and those of `prefix`, each with its count in `prefix`. */
  ghost predicate Tallies(tally: map<string, nat>, prefix: seq<string>) {
    (forall k :: k in tally <==> k in TalliedStatuses || k in prefix)
    && (forall k :: k in tally ==> tally[k] == Count(prefix, k))
  }

  lemma StartingTally(tally: map<string, nat>)
    requires tally == map["success" := 0, "failed" := 0, "warning" := 0, "running" := 0]
    ensures Tallies(tally, [])
  {
  }

  /** Counting one more status keeps the tally right. */
  lemma TallyStep(prefix: seq<string>, status: string, tally: map<string, nat>)
    requires Tallies(tally, prefix)
    ensures Tallies(tally[status := (if status in tally then tally[status] else 0) + 1], prefix + [status])
  {
    var s := prefix + [status];
    assert s[..|s| - 1] == prefix;
    if status !in tally {
      CountAbsent(prefix, status);
    }
  }

  /** The status of every step, in order. */
  function Statuses(steps: seq<Option<string>>): (r: seq<string>)
    ensures |r| == |steps| && forall j :: 0 <= j < |steps| ==> r[j] == StatusOf(steps[j])
  {
    seq(|steps|, j requires 0 <= j < |steps| => StatusOf(steps[j]))
  }

  /** A status no step has is counted zero times. */
  lemma {:induction false} CountAbsent(statuses: seq<string>, k: string)
    requires forall j :: 0 <= j < |statuses| ==> statuses[j] != k
    ensures Count(statuses, k) == 0
  {
    if statuses != [] {
      CountAbsent(statuses[..|statuses| - 1], k);
    }
  }

  /** The sum of the counts of `keys`. */
  function CountSum(statuses: seq<string>, keys: seq<string>): nat {
    if keys == [] then 0 else Count(statuses, keys[0]) + CountSum(statuses, keys[1..])
  }

  /** Every step is counted once: over distinct keys covering all statuses, the counts add up to the number of steps. */
  lemma {:induction false} CountsAddUp(statuses: seq<string>, keys: seq<string>)
    requires forall a, b :: 0 <= a < b < |keys| ==> keys[a] != keys[b]
    requires forall j :: 0 <= j < |statuses| ==> statuses[j] in keys
    ensures CountSum(statuses, keys) == |statuses|
  {
    if statuses != [] {
      var init := statuses[..|statuses| - 1];
      assert init + [statuses[|statuses| - 1]] == statuses;
      CountsAddUp(init, keys);
      CountSumStep(init, statuses[|statuses| - 1], keys);
    } else {
      CountSumOfNoSteps(keys);
    }
  }

  lemma {:induction false} CountSumOfNoSteps(keys: seq<string>)
    ensures CountSum([], keys) == 0
  {
    if keys != [] {
      CountSumOfNoSteps(keys[1..]);
    }
  }

  /** One more step raises the sum by one when its status is one of the distinct keys. */
  lemma {:induction false} CountSumStep(init: seq<string>, x: string, keys: seq<string>)
    requires forall a, b :: 0 <= a < b < |keys| ==> keys[a] != keys[b]
    ensures CountSum(init + [x], keys) == CountSum(init, keys) + (if x in keys then 1 else 0)
  {
    if keys != [] {
      CountSumStep(init, x, keys[1..]);
      assert (init + [x])[..|init + [x]| - 1] == init;
      if x == keys[0] {
        assert x !in keys[1..];
      }
    }
  }

  /** `{...}.get(status, "")`: the row class of a step. */
  function StatusClass(status: string): (c: string)
    ensures c != "" <==> status in TalliedStatuses
  {
    if status == "success" then "success"
    else if status == "failed" then "danger"
    else if status == "warning" then "warning"
    else if status == "running" then "info"
    else ""
  }

  /** Each tallied status has its own class, so the colours tell the statuses apart. */
  lemma StatusClassesDiffer(a: string, b: string)
    requires a in TalliedStatuses && b in TalliedStatuses && a != b
    ensures StatusClass(a) != StatusClass(b)
  {
  }

  /**
   * The duration text of the test and of each step: empty unless both times
   * are set and non-empty; the printed difference when both parse (`elapsed`),
   * else "Unknown".
   */
  function Duration(start: Option<string>, end: Option<string>, elapsed: Option<string>): (r: string)
    ensures start.None? || start == Some("") || end.None? || end == Some("") ==> r == ""
    ensures start.Some? && start != Some("") && end.Some? && end != Some("") ==>
              r == (if elapsed.Some? then elapsed.value else "Unknown")
  {
    if start.Some? && start.value != "" && end.Some? && end.value != "" then
      if elapsed.Some? then elapsed.value else "Unknown"
    else ""
  }

  /** A test that never finished (no end time) shows no duration, whatever its start. */
  lemma UnfinishedHasNoDuration(start: Option<string>, elapsed: Option<string>)
    ensures Duration(start, None, elapsed) == ""
  {
  }

  /** The verdict badge: its text and its Bootstrap class. */
  datatype Badge = Badge(text: string, cls: string)

  function VerdictBadge(success: bool): (b: Badge)
    ensures b.text == "SUCCESS" <==> success
    ensures b.cls == "bg-success" <==> success
  {
    if success then Badge("SUCCESS", "bg-success") else Badge("FAILED", "bg-danger")
  }

  /** The badge wears the colour of a succeeded or a failed step. */
  lemma BadgeMatchesStepColours(success: bool)
    ensures VerdictBadge(success).cls == "bg-" + StatusClass(if success then "success" else "failed")
  {
  }

  /** One entry of the results' errors, its time already formatted for the report. */
  datatype ErrorEntry = ErrorEntry(stepId: string, time: string, message: string)

  /** The alert one error becomes (the layout whitespace of the template left out). */
  function ErrorAlert(e: ErrorEntry): string {
    "<div class=\"alert alert-danger\"><strong>Error in step " + e.stepId + " at " + e.time + ":</strong> "
    + e.message + "</div>"
  }

  /** `errors_html`: the alerts of the errors, in order. */
  function ErrorsHtml(errors: seq<ErrorEntry>): string {
    Concat(seq(|errors|, i requires 0 <= i < |errors| => ErrorAlert(errors[i])))
  }

  /** The pieces written one after another. */
  function Concat(parts: seq<string>): string {
    if parts == [] then "" else Concat(parts[..|parts| - 1]) + parts[|parts| - 1]
  }

  /**
   * The errors block of the report: written only when there are errors, and
   * then listing the alert of every one of them.
   */
  function ErrorsBlock(errors: seq<ErrorEntry>): (block: string)
    ensures block == "" <==> errors == []
    ensures forall i :: 0 <= i < |errors| ==> Contains(block, ErrorAlert(errors[i]))
  {
    if errors == [] then ""
    else
      var html := ErrorsHtml(errors);
      var block := "<div class=\"errors\">" + html + "</div>";
      assert forall i :: 0 <= i < |errors| ==> Contains(block, ErrorAlert(errors[i])) by {
        forall i | 0 <= i < |errors|
          ensures Contains(block, ErrorAlert(errors[i]))
        {
          var alerts := seq(|errors|, i requires 0 <= i < |errors| => ErrorAlert(errors[i]));
          ConcatHoldsEach(alerts, i);
          ContainsMiddle("<div class=\"errors\">", html, "</div>");
          ContainsTransitive(block, html, alerts[i]);
        }
      }
      block
  }

  /** The pieces written one after another contain every piece. */
  lemma {:induction false} ConcatHoldsEach(parts: seq<string>, i: nat)
    requires i < |parts|
    ensures Contains(Concat(parts), parts[i])
    decreases |parts|
  {
    var init := parts[..|parts| - 1];
    var last := parts[|parts| - 1];
    if i == |parts| - 1 {
      ContainsMiddle(Concat(init), last, "");
      assert Concat(init) + last + "" == Concat(parts);
    } else {
      ConcatHoldsEach(init, i);
      assert init[i] == parts[i];
      ContainsMiddle("", Concat(init), last);
      assert "" + Concat(init) + last == Concat(parts);
      ContainsTransitive(Concat(parts), Concat(init), parts[i]);
    }
  }

  /** The summary's numbers: succeeded, failed and warned steps never exceed the step count. */
  lemma SummaryCountsBounded(steps: seq<Option<string>>)
    ensures Count(Statuses(steps), "success") + Count(Statuses(steps), "failed") + Count(Statuses(steps), "warning") <= |steps|
  {
    var s := Statuses(steps);
    var keys := ["success", "failed", "warning"];
    PartialSum(s, keys);
    assert CountSum(s, keys) == Count(s, "success") + CountSum(s, keys[1..]);
    assert CountSum(s, keys[1..]) == Count(s, "failed") + CountSum(s, keys[2..]);
    assert CountSum(s, keys[2..]) == Count(s, "warning") + CountSum(s, keys[3..]);
  }

  /** The counts of distinct keys never add up to more than the steps. */
  lemma {:induction false} PartialSum(statuses: seq<string>, keys: seq<string>)
    requires forall a, b :: 0 <= a < b < |keys| ==> keys[a] != keys[b]
    ensures CountSum(statuses, keys) <= |statuses|
  {
    if statuses != [] {
      var init := statuses[..|statuses| - 1];
      assert init + [statuses[|statuses| - 1]] == statuses;
      PartialSum(init, keys);
      CountSumStep(init, statuses[|statuses| - 1], keys);
    } else {
      CountSumOfNoSteps(keys);
    }
  }
}

=== FILE: scanner.dfy ===
/**
 * The slot scans of src/functions/booking.py: `find_tee_time_slots_on_tee_sheet`
 * (tee-sheet, booking and unknown views) and `search_for_available_slots`
 * (table rows, then any clickable element). A page is a snapshot of what the
 * scans read from the browser.
 */
module Scanner {
  import opened Wrappers
  import opened Text
  import opened Strptime
  import opened TimeParse
  import opened Ranking

  // ---- page snapshot ----

  /** A `.slot-box` of a tee-sheet row: its CSS classes and its text. */
  datatype SlotBox = SlotBox(classes: set<string>, text: string)

  /**
   * A `form[id*='TeeSheetForm']`: its id, the text of its `.slotTime b` if
   * present, whether it holds a `[type="submit"]` control, the texts of its
   * buttons, and its slot boxes.
   */
  datatype TeeSheetForm = TeeSheetForm(id: string, slotTime: Option<string>, hasSubmit: bool, buttons: seq<string>, boxes: seq<SlotBox>)

  /** A time card or panel: its text, and the text of its first `button, a` if any. */
  datatype Card = Card(text: string, firstControl: Option<string>)

  /** A `button, a` element: its text and the texts of its ancestors, nearest first. */
  datatype Control = Control(text: string, ancestors: seq<string>)

  /** A table row: its text and how many `button, a` it holds. */
  datatype Row = Row(text: string, controls: nat)

  /**
   * What the scans see of the page: its URL, tee-sheet forms, time cards,
   * `button, a` controls, the texts of the wider clickable selection
   * (`a, button, [onclick], ...`), and table rows. `queryRaises` says whether
   * a page call inside a scan's guarded block raises; the scan catches it and
   * reports nothing.
   */
  datatype Page = Page(url: string, forms: seq<TeeSheetForm>, cards: seq<Card>, controls: seq<Control>, clickables: seq<string>,
                       rows: seq<Row>, queryRaises: bool)

  // ---- shared pieces ----

  /** `datetime.strptime(target_time, "%H:%M")` as minutes since midnight; `None` where Python raises. */
  function TargetMinutes(target: string): (r: Option<nat>)
    ensures r.Some? ==> r.value < 1440
    ensures r.Some? <==> ParseClock(target, Clock24).Some?
  {
    match ParseClock(target, Clock24)
      case None => None
      case Some(c) => Some(c.hour * 60 + c.minute)
  }

  /** Lower-cased text mentions booking or reserving. */
  predicate MentionsBooking(text: string) {
    Contains(Lower(text), "book") || Contains(Lower(text), "reserve")
  }

  /** The wider test of the last booking-view strategy: book, reserve, select or available. */
  predicate LooksBookable(text: string) {
    MentionsBooking(text) || Contains(Lower(text), "select") || Contains(Lower(text), "available")
  }

  /** A slot box that is not green, grey or an event, and is empty. */
  predicate FreeBox(b: SlotBox) {
    "Green" !in b.classes && "Grey" !in b.classes && "Event" !in b.classes && Strip(b.text) == ""
  }

  /** The in-page test of a tee-sheet form: a submit or booking button, or a free slot box. */
  predicate Bookable(f: TeeSheetForm) {
    f.hasSubmit
    || (exists i :: 0 <= i < |f.buttons| && MentionsBooking(f.buttons[i]))
    || (exists i :: 0 <= i < |f.boxes| && FreeBox(f.boxes[i]))
  }

  /** How many ancestors the in-page search walks up. */
  const MaxDepth: nat := 5

  /** The time in the nearest of the first five ancestors whose text holds one. */
  function NearestTime(ancestors: seq<string>): (r: Option<string>)
    ensures r.Some? ==> exists k :: 0 <= k < MaxDepth && k < |ancestors| && TimeMatch(ancestors[k]) == r
                                    && forall j :: 0 <= j < k ==> TimeMatch(ancestors[j]).None?
    ensures r.None? ==> forall k :: 0 <= k < MaxDepth && k < |ancestors| ==> TimeMatch(ancestors[k]).None?
  {
    var n := if |ancestors| < MaxDepth then |ancestors| else MaxDepth;
    var found := TimeMatches(ancestors[..n]);
    assert forall j :: 0 <= j < n ==> found[j] == TimeMatch(ancestors[j]);
    var k := FirstSome(found, 0);
    if k == n then None else found[k]
  }

  /** The time each text holds, if any. */
  function TimeMatches(texts: seq<string>): (r: seq<Option<string>>)
    ensures |r| == |texts|
    ensures forall k :: 0 <= k < |texts| ==> r[k] == TimeMatch(texts[k])
  {
    seq(|texts|, k requires 0 <= k < |texts| => TimeMatch(texts[k]))
  }

  /** The slot record for a time text found at `handle`, ranked against `target`. */
  function SlotAt(handle: Handle, time: string, target: nat, formId: Option<string>): Slot {
    var m := ParseTime(time);
    Slot(handle, time, m, Distance(m, target), formId)
  }

  /** A slot whose minutes come from its time text and whose distance from its minutes. */
  predicate Ranked(x: Slot, target: nat) {
    x.minutes == ParseTime(x.time) && x.distance == Distance(x.minutes, target)
  }

  /** The slots `pick` finds among `items[i..]`, in page order. */
  function Collect<T>(items: seq<T>, pick: (T, nat) -> Option<Slot>, i: nat): (r: seq<Slot>)
    requires i <= |items|
    ensures |r| <= |items| - i
    ensures forall x :: x in r <==> exists j :: i <= j < |items| && pick(items[j], j) == Some(x)
    decreases |items| - i
  {
    if i == |items| then []
    else
      var rest := Collect(items, pick, i + 1);
      match pick(items[i], i)
        case None => rest
        case Some(x) => [x] + rest
  }

  // ---- the strategies ----

  /** Tee-sheet view: a form with a slot time that passes the bookable test. */
  function FormPick(f: TeeSheetForm, i: nat, target: nat): Option<Slot> {
    if f.slotTime.Some? && Bookable(f) then Some(SlotAt(FormAt(i), Strip(f.slotTime.value), target, Some(f.id)))
    else None
  }

  /** Booking view, first strategy: a card with a time whose first control mentions booking. */
  function CardPick(c: Card, i: nat, target: nat): Option<Slot> {
    match TimeMatch(c.text)
      case None => None
      case Some(t) =>
        if c.firstControl.Some? && MentionsBooking(c.firstControl.value) then Some(SlotAt(CardControl(i), t, target, None))
        else None
  }

  /** Booking view, second strategy: a control mentioning booking, timed by its ancestors. */
  function ControlPick(c: Control, i: nat, target: nat): Option<Slot> {
    if MentionsBooking(c.text) then
      match NearestTime(c.ancestors)
        case None => None
        case Some(t) => Some(SlotAt(ControlAt(i), t, target, None))
    else None
  }

  /** Booking view, third strategy: a clickable whose own text has a time and looks bookable. */
  function ClickablePick(text: string, i: nat, target: nat): Option<Slot> {
    match TimeMatch(text)
      case None => None
      case Some(t) => if LooksBookable(text) then Some(SlotAt(ClickableAt(i), t, target, None)) else None
  }

  /** Unknown view: a control whose text contains "book", timed by its ancestors. */
  function GenericPick(c: Control, i: nat, target: nat): Option<Slot> {
    if Contains(Lower(c.text), "book") then
      match NearestTime(c.ancestors)
        case None => None
        case Some(t) => Some(SlotAt(ControlAt(i), t, target, None))
    else None
  }

  datatype View = TeeSheetView | BookingView | UnknownView

  /** The view the URL names; a tee-sheet URL wins over a booking one. */
  function ViewOf(url: string): (v: View)
    ensures v == TeeSheetView <==> Contains(url, "TeeSheet/view")
    ensures v == UnknownView <==> !Contains(url, "TeeSheet/view") && !Contains(url, "TeeTimes/view") && !Contains(url, "TeeTimes/booking")
  {
    if Contains(url, "TeeSheet/view") then TeeSheetView
    else if Contains(url, "TeeTimes/view") || Contains(url, "TeeTimes/booking") then BookingView
    else UnknownView
  }

  function FormSlots(p: Page, target: nat): seq<Slot> {
    Collect(p.forms, (f, i) => FormPick(f, i, target), 0)
  }

  function CardSlots(p: Page, target: nat): seq<Slot> {
    Collect(p.cards, (c, i) => CardPick(c, i, target), 0)
  }

  function ControlSlots(p: Page, target: nat): seq<Slot> {
    Collect(p.controls, (c, i) => ControlPick(c, i, target), 0)
  }

  function ClickableSlots(p: Page, target: nat): seq<Slot> {
    Collect(p.clickables, (t, i) => ClickablePick(t, i, target), 0)
  }

  function GenericSlots(p: Page, target: nat): seq<Slot> {
    Collect(p.controls, (c, i) => GenericPick(c, i, target), 0)
  }

  /** The slots of the page's view before sorting; each booking-view strategy runs only when the ones before it found nothing. */
  function ScanSlots(p: Page, target: nat): seq<Slot> {
    match ViewOf(p.url)
      case TeeSheetView => FormSlots(p, target)
      case BookingView =>
        if CardSlots(p, target) != [] then CardSlots(p, target)
        else if ControlSlots(p, target) != [] then ControlSlots(p, target)
        else ClickableSlots(p, target)
      case UnknownView => GenericSlots(p, target)
  }

  datatype ScanOutcome = TargetRaised | Slots(slots: seq<Slot>)

  /**
   * `find_tee_time_slots_on_tee_sheet`: the target is parsed before the guarded
   * block, so a malformed target raises; a page call raising inside the block
   * gives no slots; otherwise the page's slots sorted by distance, nearest first.
   */
  function FindTeeTimeSlots(p: Page, targetTime: string): (r: ScanOutcome)
    ensures r.TargetRaised? <==> TargetMinutes(targetTime).None?
    ensures r.Slots? && p.queryRaises ==> r.slots == []
    ensures r.Slots? && !p.queryRaises ==>
              Sorted(r.slots) && multiset(r.slots) == multiset(ScanSlots(p, TargetMinutes(targetTime).value))
  {
    match TargetMinutes(targetTime)
      case None => TargetRaised
      case Some(target) =>
        if p.queryRaises then Slots([])
        else
          SortByDistanceIsSorted(ScanSlots(p, target));
          Slots(SortByDistance(ScanSlots(p, target)))
  }

  // ---- properties of the scan ----

  /** Every slot any strategy finds carries the minutes of its time text and the distance of those minutes. */
  lemma ScanSlotsAreRanked(p: Page, target: nat, x: Slot)
    requires x in ScanSlots(p, target)
    ensures Ranked(x, target)
  {
    match ViewOf(p.url)
      case TeeSheetView =>
        FormSlotsAreRanked(p, target, x);
      case BookingView =>
        if x in CardSlots(p, target) {
          CardSlotsAreRanked(p, target, x);
        } else if x in ControlSlots(p, target) {
          ControlSlotsAreRanked(p, target, x);
        } else {
          ClickableSlotsAreRanked(p, target, x);
        }
      case UnknownView =>
        GenericSlotsAreRanked(p, target, x);
  }

  lemma FormSlotsAreRanked(p: Page, target: nat, x: Slot)
    requires x in FormSlots(p, target)
    ensures Ranked(x, target)
  {
    var j :| 0 <= j < |p.forms| && FormPick(p.forms[j], j, target) == Some(x);
  }

  lemma CardSlotsAreRanked(p: Page, target: nat, x: Slot)
    requires x in CardSlots(p, target)
    ensures Ranked(x, target)
  {
    var j :| 0 <= j < |p.cards| && CardPick(p.cards[j], j, target) == Some(x);
  }

  lemma ControlSlotsAreRanked(p: Page, target: nat, x: Slot)
    requires x in ControlSlots(p, target)
    ensures Ranked(x, target)
  {
    var j :| 0 <= j < |p.controls| && ControlPick(p.controls[j], j, target) == Some(x);
  }

  lemma GenericSlotsAreRanked(p: Page, target: nat, x: Slot)
    requires x in GenericSlots(p, target)
    ensures Ranked(x, target)
  {
    var j :| 0 <= j < |p.controls| && GenericPick(p.controls[j], j, target) == Some(x);
  }

  lemma ClickableSlotsAreRanked(p: Page, target: nat, x: Slot)
    requires x in ClickableSlots(p, target)
    ensures Ranked(x, target)
  {
    var j :| 0 <= j < |p.clickables| && ClickablePick(p.clickables[j], j, target) == Some(x);
  }

  /** A form yields a slot exactly when it shows a time and passes the bookable test. */
  lemma FormSlotsAreBookableForms(p: Page, target: nat, x: Slot)
    ensures x in FormSlots(p, target) <==>
              exists i :: 0 <= i < |p.forms| && p.forms[i].slotTime.Some? && Bookable(p.forms[i])
                          && x == SlotAt(FormAt(i), Strip(p.forms[i].slotTime.value), target, Some(p.forms[i].id))
  {
    if x in FormSlots(p, target) {
      var j :| 0 <= j < |p.forms| && FormPick(p.forms[j], j, target) == Some(x);
      FormPickShows(p.forms[j], j, target, x);
    }
    if exists i :: 0 <= i < |p.forms| && p.forms[i].slotTime.Some? && Bookable(p.forms[i])
                   && x == SlotAt(FormAt(i), Strip(p.forms[i].slotTime.value), target, Some(p.forms[i].id)) {
      var i :| 0 <= i < |p.forms| && p.forms[i].slotTime.Some? && Bookable(p.forms[i])
               && x == SlotAt(FormAt(i), Strip(p.forms[i].slotTime.value), target, Some(p.forms[i].id));
      FormPickShows(p.forms[i], i, target, x);
    }
  }

  /** A form is picked exactly when it shows a time and is bookable. */
  lemma FormPickShows(f: TeeSheetForm, i: nat, target: nat, x: Slot)
    ensures FormPick(f, i, target) == Some(x) <==>
              f.slotTime.Some? && Bookable(f) && x == SlotAt(FormAt(i), Strip(f.slotTime.value), target, Some(f.id))
  {
  }

  /** On the tee sheet, the sorted result holds exactly the slots of the bookable forms. */
  lemma TeeSheetSlotsAreBookableForms(p: Page, targetTime: string, x: Slot)
    requires ViewOf(p.url) == TeeSheetView && FindTeeTimeSlots(p, targetTime).Slots?
    ensures x in FindTeeTimeSlots(p, targetTime).slots <==> !p.queryRaises && x in FormSlots(p, TargetMinutes(targetTime).value)
  {
    var target := TargetMinutes(targetTime).value;
    var r := FindTeeTimeSlots(p, targetTime).slots;
    assert x in r <==> x in multiset(r);
    assert x in FormSlots(p, target) <==> x in multiset(FormSlots(p, target));
  }

  lemma CardSlotsAreCardControls(p: Page, target: nat, x: Slot)
    requires x in CardSlots(p, target)
    ensures x.handle.CardControl?
  {
    var j :| 0 <= j < |p.cards| && CardPick(p.cards[j], j, target) == Some(x);
  }

  lemma ControlSlotsAreControls(p: Page, target: nat, x: Slot)
    requires x in ControlSlots(p, target)
    ensures x.handle.ControlAt?
  {
    var j :| 0 <= j < |p.controls| && ControlPick(p.controls[j], j, target) == Some(x);
  }

  /** On the booking view, a later strategy is consulted only when every earlier one found nothing. */
  lemma BookingViewFallsBackInOrder(p: Page, target: nat)
    requires ViewOf(p.url) == BookingView
    ensures CardSlots(p, target) != [] ==> ScanSlots(p, target) == CardSlots(p, target)
    ensures forall x :: x in ScanSlots(p, target) && x.handle.ClickableAt? ==>
              CardSlots(p, target) == [] && ControlSlots(p, target) == []
  {
    forall x | x in ScanSlots(p, target) && x.handle.ClickableAt?
      ensures CardSlots(p, target) == [] && ControlSlots(p, target) == []
    {
      if CardSlots(p, target) != [] {
        CardSlotsAreCardControls(p, target, x);
      } else if ControlSlots(p, target) != [] {
        ControlSlotsAreControls(p, target, x);
      }
    }
  }

  /** The slot booked first is the first one found at the least distance; a scan that found one did not raise. */
  lemma BestSlotIsFirstNearest(p: Page, targetTime: string)
    requires FindTeeTimeSlots(p, targetTime).Slots? && FindTeeTimeSlots(p, targetTime).slots != []
    ensures var found := ScanSlots(p, TargetMinutes(targetTime).value);
            !p.queryRaises && found != [] && FindTeeTimeSlots(p, targetTime).slots[0] == found[FirstNearest(found)]
  {
    var found := ScanSlots(p, TargetMinutes(targetTime).value);
    assert |SortByDistance(found)| == |found|;
    SortedHeadIsFirstNearest(found);
  }

  // ---- search_for_available_slots ----

  /**
   * One table row of `search_for_available_slots`: rows with a time that hold a
   * control or say "Available" or "Book" are candidates, ranked by the plain
   * `abs(minutes - target)`, which raises when the time did not parse.
   */
  function RowSlot(r: Row, i: nat, target: nat): Option<Result>
  {
    match TimeMatch(r.text)
      case None => None
      case Some(t) =>
        if r.controls > 0 || Contains(r.text, "Available") || Contains(r.text, "Book") then
          match ParseTime(t)
            case None => Some(Abort)
            case Some(m) =>
              var gap := if m >= target then m - target else target - m;
              Some(Found(Slot(if r.controls > 0 then RowControl(i) else RowAt(i), t, Some(m), gap, None)))
        else None
  }

  /** One row's contribution: a slot, or the `TypeError` that ends the search. */
  datatype Result = Found(slot: Slot) | Abort

  /** The row slots of `rows[i..]`; `None` when an available row's time does not parse. */
  function RowSlotsFrom(rows: seq<Row>, target: nat, i: nat): (r: Option<seq<Slot>>)
    requires i <= |rows|
    ensures r.None? <==> exists j :: i <= j < |rows| && RowSlot(rows[j], j, target) == Some(Abort)
    ensures r.Some? ==> forall x :: x in r.value <==> exists j :: i <= j < |rows| && RowSlot(rows[j], j, target) == Some(Found(x))
  {
    var rs := RowResults(rows, target);
    var r := Gathered(rs, i);
    assert forall j :: i <= j < |rows| ==> rs[j] == RowSlot(rows[j], j, target);
    r
  }

  function RowResults(rows: seq<Row>, target: nat): (rs: seq<Option<Result>>)
    ensures |rs| == |rows|
    ensures forall j :: 0 <= j < |rows| ==> rs[j] == RowSlot(rows[j], j, target)
  {
    seq(|rows|, j requires 0 <= j < |rows| => RowSlot(rows[j], j, target))
  }

  /** The slots found among `results[i..]`, in row order; `None` once any row aborts. */
  function Gathered(results: seq<Option<Result>>, i: nat): (r: Option<seq<Slot>>)
    requires i <= |results|
    ensures r.None? <==> exists j :: i <= j < |results| && results[j] == Some(Abort)
    ensures r.Some? ==> forall x :: x in r.value <==> exists j :: i <= j < |results| && results[j] == Some(Found(x))
    decreases |results| - i
  {
    if i == |results| then Some([])
    else
      match Gathered(results, i + 1)
        case None => None
        case Some(rest) =>
          match results[i]
            case None => Some(rest)
            case Some(Abort) => None
            case Some(Found(x)) => Some([x] + rest)
  }

  /** The fallback of the search: any clickable with a time, ranked with the unranked-midnight rule. */
  function AnyTimePick(text: string, i: nat, target: nat): Option<Slot> {
    match TimeMatch(text)
      case None => None
      case Some(t) => Some(SlotAt(ClickableAt(i), t, target, None))
  }

  datatype SearchOutcome = SearchRaised | Chosen(slot: Option<Slot>)

  /** The candidates of `search_for_available_slots`; `None` when the search aborts. */
  function SearchCandidates(p: Page, target: nat): Option<seq<Slot>> {
    match RowSlotsFrom(p.rows, target, 0)
      case None => None
      case Some(rows) =>
        if rows != [] then Some(rows)
        else Some(Collect(p.clickables, (t, i) => AnyTimePick(t, i, target), 0))
  }

  /**
   * `search_for_available_slots`: the first candidate at the least distance
   * (the head of the stable sort), or nothing when there is none, when the
   * search aborts, or when a page call inside it raises.
   */
  function SearchForAvailableSlots(p: Page, targetTime: string): (r: SearchOutcome)
    ensures r.SearchRaised? <==> TargetMinutes(targetTime).None?
    ensures r.Chosen? ==>
              var c := SearchCandidates(p, TargetMinutes(targetTime).value);
              (r.slot.None? <==> p.queryRaises || c.None? || c.value == [])
              && (r.slot.Some? ==> c.Some? && c.value != [] && r.slot.value == c.value[FirstNearest(c.value)])
    ensures r.Chosen? && r.slot.Some? ==>
              var c := SearchCandidates(p, TargetMinutes(targetTime).value);
              c.Some? && r.slot.value in c.value && forall y :: y in c.value ==> r.slot.value.distance <= y.distance
  {
    match TargetMinutes(targetTime)
      case None => SearchRaised
      case Some(target) =>
        if p.queryRaises then Chosen(None)
        else match SearchCandidates(p, target)
          case None => Chosen(None)
          case Some(c) =>
            if c == [] then Chosen(None)
            else
              SortedHeadIsFirstNearest(c);
              Chosen(Some(SortByDistance(c)[0]))
  }

  /** An available row whose time does not parse makes the whole search come back empty. */
  lemma UnparsedRowAbortsSearch(p: Page, targetTime: string, j: nat)
    requires TargetMinutes(targetTime).Some? && j < |p.rows|
    requires RowSlot(p.rows[j], j, TargetMinutes(targetTime).value) == Some(Abort)
    ensures SearchForAvailableSlots(p, targetTime) == Chosen(None)
  {
  }

  lemma RowSlotsAreRows(rows: seq<Row>, target: nat, x: Slot)
    requires RowSlotsFrom(rows, target, 0).Some? && x in RowSlotsFrom(rows, target, 0).value
    ensures x.handle.RowAt? || x.handle.RowControl?
  {
    var j :| 0 <= j < |rows| && RowSlot(rows[j], j, target) == Some(Found(x));
  }

  /** Rows win: when some row yields a slot, none aborts and no page call raises, the choice is a row slot. */
  lemma RowsComeBeforeClickables(p: Page, targetTime: string, j: nat)
    requires TargetMinutes(targetTime).Some? && j < |p.rows|
    requires RowSlot(p.rows[j], j, TargetMinutes(targetTime).value).Some?
    requires RowSlotsFrom(p.rows, TargetMinutes(targetTime).value, 0).Some?
    ensures SearchForAvailableSlots(p, targetTime).Chosen?
    ensures SearchForAvailableSlots(p, targetTime).slot.Some? <==> !p.queryRaises
    ensures !p.queryRaises ==>
              SearchForAvailableSlots(p, targetTime).slot.value.handle.RowAt?
              || SearchForAvailableSlots(p, targetTime).slot.value.handle.RowControl?
  {
    var target := TargetMinutes(targetTime).value;
    var rows := RowSlotsFrom(p.rows, target, 0).value;
    var found := RowSlot(p.rows[j], j, target).value;
    assert found != Abort;
    assert found.slot in rows;
    assert SearchCandidates(p, target) == Some(rows);
    if !p.queryRaises {
      var s := SearchForAvailableSlots(p, targetTime).slot.value;
      RowSlotsAreRows(p.rows, target, s);
    }
  }

  /**
   * Whenever the search has candidates and no page call raises, it chooses
   * one: the first candidate, in row or element order, at the least distance
   * from the target.
   */
  lemma SearchChoosesFirstNearest(p: Page, targetTime: string)
    requires TargetMinutes(targetTime).Some?
    requires SearchCandidates(p, TargetMinutes(targetTime).value).Some?
    requires SearchCandidates(p, TargetMinutes(targetTime).value).value != []
    ensures var c := SearchCandidates(p, TargetMinutes(targetTime).value).value;
            SearchForAvailableSlots(p, targetTime) == if p.queryRaises then Chosen(None) else Chosen(Some(c[FirstNearest(c)]))
  {
  }
}

=== FILE: strptime.dfy ===
/**
 * The fragment of Python's `datetime.strptime` that the booking code relies on:
 * the clock formats `%I:%M %p`, `%I:%M%p`, `%H:%M` and the date format `%Y-%m-%d`.
 *
 * Python compiles a format into a regular expression, matches it at the start of
 * the string and raises `ValueError` unless the match consumes the whole string:
 *   %I -> 1[0-2]|0[1-9]|[1-9]        %H -> 2[0-3]|[0-1]\d|\d      %M -> [0-5]\d|\d
 *   %p -> am|pm (case-insensitive)   a space -> \s+              %Y -> \d\d\d\d
 *   %m -> 1[0-2]|0[1-9]|[1-9]        %d -> 3[01]|[12]\d|0[1-9]|[1-9]| [1-9]
 * Because every numeric field is followed by a separator, a non-digit or the end,
 * a field matches exactly the maximal digit run after it, and the alternations
 * amount to "one or two digits whose value lies in range".
 * `None` stands for the `ValueError`.
 */
module Strptime {
  import opened Wrappers
  import opened Text

  /** Number of ASCII digits at the start of `s`. */
  function DigitRun(s: string): (n: nat)
    ensures n <= |s|
    ensures AllDigits(s[..n])
    ensures n < |s| ==> !IsDigit(s[n])
  {
    if |s| > 0 && IsDigit(s[0]) then
      var k := DigitRun(s[1..]);
      assert s[..1 + k] == [s[0]] + s[1..][..k];
      1 + k
    else 0
  }

  /** A digit run stops exactly where the digits do. */
  lemma {:induction false} DigitRunConcat(a: string, b: string)
    requires AllDigits(a)
    requires |b| > 0 ==> !IsDigit(b[0])
    ensures DigitRun(a + b) == |a|
  {
    if |a| > 0 {
      assert (a + b)[1..] == a[1..] + b;
      DigitRunConcat(a[1..], b);
    } else {
      assert a + b == b;
    }
  }

  /** The clock read from a string: hours 0..23 and minutes 0..59. */
  datatype Clock = Clock(hour: nat, minute: nat) {
    function Minutes(): nat {
      hour * 60 + minute
    }
  }

  /** `<hour digits> ':' <minute digits>` at the start of a string, and what follows. */
  datatype ClockFields = ClockFields(hour: nat, minute: nat, rest: string)

  /**
   * Splits `s` as one or two digits, a colon, one or two digits, and the rest;
   * `None` when the string does not start that way.
   */
  function SplitClock(s: string): (r: Option<ClockFields>)
    ensures r.Some? ==> |r.value.rest| > 0 ==> !IsDigit(r.value.rest[0])
  {
    var a := DigitRun(s);
    if a < 1 || a > 2 || a == |s| || s[a] != ':' then None
    else
      var t := s[a + 1..];
      var b := DigitRun(t);
      if b < 1 || b > 2 then None
      else Some(ClockFields(DecimalValue(s[..a]), DecimalValue(t[..b]), t[b..]))
  }

  /** Python's `%p`: "am" or "pm" in any letter case; `Some(true)` for pm. */
  function Meridiem(s: string): Option<bool> {
    if |s| == 2 && LowerChar(s[1]) == 'm' then
      if LowerChar(s[0]) == 'a' then Some(false)
      else if LowerChar(s[0]) == 'p' then Some(true)
      else None
    else None
  }

  /** A format space: one or more whitespace characters, then `%p`. */
  function SpacedMeridiem(s: string): Option<bool> {
    if |s| >= 3 && forall i :: 0 <= i < |s| - 2 ==> IsSpace(s[i]) then Meridiem(s[|s| - 2..])
    else None
  }

  /** The hour of the day for a 12-hour reading, as `_strptime` converts `%I` with `%p`. */
  function To24(hour12: nat, pm: bool): (h: nat)
    requires 1 <= hour12 <= 12
    ensures h < 24
    ensures pm <==> h >= 12
    ensures h % 12 == hour12 % 12
  {
    if pm then (if hour12 == 12 then 12 else hour12 + 12)
    else (if hour12 == 12 then 0 else hour12)
  }

  datatype ClockFormat =
    | Spaced12   // "%I:%M %p"
    | Compact12  // "%I:%M%p"
    | Clock24    // "%H:%M"

  /** `datetime.strptime(s, fmt)` for a clock format; `None` where Python raises `ValueError`. */
  function ParseClock(s: string, fmt: ClockFormat): (r: Option<Clock>)
    ensures r.Some? ==> r.value.hour < 24 && r.value.minute < 60
    ensures r.Some? ==> SplitClock(s).Some?
    ensures r.Some? && fmt == Clock24 ==> SplitClock(s).value.rest == ""
    ensures r.Some? && fmt != Clock24 ==> |SplitClock(s).value.rest| >= 2
  {
    match SplitClock(s)
    case None => None
    case Some(f) =>
      match fmt
      case Clock24 =>
        if f.hour < 24 && f.minute < 60 && f.rest == "" then Some(Clock(f.hour, f.minute)) else None
      case Compact12 =>
        if 1 <= f.hour <= 12 && f.minute < 60 && Meridiem(f.rest).Some? then
          Some(Clock(To24(f.hour, Meridiem(f.rest).value), f.minute))
        else None
      case Spaced12 =>
        if 1 <= f.hour <= 12 && f.minute < 60 && SpacedMeridiem(f.rest).Some? then
          Some(Clock(To24(f.hour, SpacedMeridiem(f.rest).value), f.minute))
        else None
  }

  /** "H:MM AM" / "H:MM PM", the site's display form of a time of day. */
  function Display12(m: nat): string
    requires m < 1440
  {
    var h := m / 60;
    var h12 := if h % 12 == 0 then 12 else h % 12;
    NatToString(h12) + ":" + Pad2(m % 60) + " " + (if h < 12 then "AM" else "PM")
  }

  /** "HH:MM", the 24-hour form used for the configured target time. */
  function Display24(m: nat): string
    requires m < 1440
  {
    Pad2(m / 60) + ":" + Pad2(m % 60)
  }

  /** Reading a clock from `digits ':' two-digits rest` gives the two values. */
  lemma SplitClockOf(hs: string, ms: string, rest: string)
    requires IsDigitString(hs) && |hs| <= 2
    requires |ms| == 2 && AllDigits(ms)
    requires |rest| > 0 ==> !IsDigit(rest[0])
    ensures SplitClock(hs + ":" + ms + rest) == Some(ClockFields(DecimalValue(hs), DecimalValue(ms), rest))
  {
    var s := hs + ":" + ms + rest;
    HourPart(hs, ms, rest);
    MinutePart(ms, rest);
    SplitClockAt(s, |hs|, 2);
  }

  lemma HourPart(hs: string, ms: string, rest: string)
    requires IsDigitString(hs)
    ensures var s := hs + ":" + ms + rest;
      |hs| < |s| && DigitRun(s) == |hs| && s[|hs|] == ':' && s[..|hs|] == hs && s[|hs| + 1..] == ms + rest
  {
    var tail := ":" + (ms + rest);
    var s := hs + tail;
    assert hs + ":" + ms + rest == s;
    DigitRunConcat(hs, tail);
    assert s[..|hs|] == hs;
    assert s[|hs| + 1..] == tail[1..];
  }

  lemma MinutePart(ms: string, rest: string)
    requires |ms| == 2 && AllDigits(ms)
    requires |rest| > 0 ==> !IsDigit(rest[0])
    ensures DigitRun(ms + rest) == 2 && (ms + rest)[..2] == ms && (ms + rest)[2..] == rest
  {
    DigitRunConcat(ms, rest);
  }

  /** What SplitClock returns once the two digit runs are known. */
  lemma SplitClockAt(s: string, a: nat, b: nat)
    requires 1 <= a <= 2 && a < |s| && DigitRun(s) == a && s[a] == ':'
    requires 1 <= b <= 2 && DigitRun(s[a + 1..]) == b
    ensures SplitClock(s) == Some(ClockFields(DecimalValue(s[..a]), DecimalValue(s[a + 1..][..b]), s[a + 1..][b..]))
  {
  }

  /** The 12-hour reading of hour `h` converts back to `h`. */
  lemma To24OfHour12(h: nat)
    requires h < 24
    ensures 1 <= (if h % 12 == 0 then 12 else h % 12) <= 12
    ensures To24(if h % 12 == 0 then 12 else h % 12, h >= 12) == h
  {
  }

  /** An hour of the 12-hour clock prints as one or two digits. */
  lemma Hour12Text(h12: nat)
    requires 1 <= h12 <= 12
    ensures IsDigitString(NatToString(h12)) && |NatToString(h12)| <= 2
    ensures DecimalValue(NatToString(h12)) == h12
  {
    NatToStringRoundTrip(h12);
    if h12 >= 10 {
      assert NatToString(h12) == NatToString(h12 / 10) + [DigitChar(h12 % 10)];
    }
  }

  /** Space followed by "AM"/"PM" is a spaced `%p`. */
  lemma SpacedMeridiemOf(pm: bool)
    ensures SpacedMeridiem(" " + (if pm then "PM" else "AM")) == Some(pm)
  {
    var rest := " " + (if pm then "PM" else "AM");
    assert rest[|rest| - 2..] == (if pm then "PM" else "AM");
  }

  /** `%I:%M %p` reads a printed 12-hour time back as its 24-hour clock. */
  lemma ParseSpaced12Of(h12: nat, mi: nat, pm: bool)
    requires 1 <= h12 <= 12 && mi < 60
    ensures ParseClock(NatToString(h12) + ":" + Pad2(mi) + " " + (if pm then "PM" else "AM"), Spaced12)
            == Some(Clock(To24(h12, pm), mi))
  {
    var mer := if pm then "PM" else "AM";
    Hour12Text(h12);
    SpacedMeridiemOf(pm);
    SplitClockOf(NatToString(h12), Pad2(mi), " " + mer);
    assert NatToString(h12) + ":" + Pad2(mi) + " " + mer == NatToString(h12) + ":" + Pad2(mi) + (" " + mer);
  }

  /** Display12 is read back exactly by `%I:%M %p`. */
  lemma Display12RoundTrip(m: nat)
    requires m < 1440
    ensures ParseClock(Display12(m), Spaced12) == Some(Clock(m / 60, m % 60))
  {
    var h := m / 60;
    To24OfHour12(h);
    ParseSpaced12Of(if h % 12 == 0 then 12 else h % 12, m % 60, h >= 12);
  }

  /** Splitting a minute count into hours and minutes loses nothing. */
  lemma ClockOfMinutes(m: nat)
    ensures Clock(m / 60, m % 60).Minutes() == m
  {
  }

  /** Display24 is read back exactly by `%H:%M`. */
  lemma Display24RoundTrip(m: nat)
    requires m < 1440
    ensures ParseClock(Display24(m), Clock24) == Some(Clock(m / 60, m % 60))
  {
    var hs := Pad2(m / 60);
    var ms := Pad2(m % 60);
    SplitClockOf(hs, ms, "");
    assert Display24(m) == hs + ":" + ms + "";
  }

  /** A calendar date as read by `%Y-%m-%d`. */
  datatype Date = Date(year: nat, month: nat, day: nat)

  predicate IsLeapYear(y: int) {
    y % 4 == 0 && (y % 100 != 0 || y % 400 == 0)
  }

  function DaysInMonth(y: int, m: int): nat
    requires 1 <= m <= 12
  {
    if m == 2 then (if IsLeapYear(y) then 29 else 28)
    else if m == 4 || m == 6 || m == 9 || m == 11 then 30
    else 31
  }

  /** Python's `%d` field: "01".."31", "1".."9", or a space and "1".."9". */
  function DayField(s: string): Option<nat> {
    if |s| == 2 && AllDigits(s) && 1 <= DecimalValue(s) <= 31 then Some(DecimalValue(s))
    else if |s| == 1 && IsDigit(s[0]) && s[0] != '0' then Some(DigitValue(s[0]))
    else if |s| == 2 && s[0] == ' ' && IsDigit(s[1]) && s[1] != '0' then Some(DigitValue(s[1]))
    else None
  }

  /**
   * `datetime.strptime(s, "%Y-%m-%d")`; `None` where Python raises: a malformed
   * string, year 0, or a day past the end of its month.
   */
  function ParseIsoDate(s: string): (r: Option<Date>)
    ensures r.Some? ==> 1 <= r.value.year <= 9999 && 1 <= r.value.month <= 12
    ensures r.Some? ==> 1 <= r.value.day <= DaysInMonth(r.value.year, r.value.month)
  {
    if |s| < 5 || !AllDigits(s[..4]) || s[4] != '-' then None
    else
      var year := DecimalValue(s[..4]);
      var t := s[5..];
      var a := DigitRun(t);
      if a < 1 || a > 2 || a == |t| || t[a] != '-' then None
      else
        var month := DecimalValue(t[..a]);
        var day := DayField(t[a + 1..]);
        if year < 1 || month < 1 || month > 12 || day.None? then None
        else if day.value > DaysInMonth(year, month) then None
        else
          assert year <= 9999 by { FourDigitsBound(s[..4]); }
          Some(Date(year, month, day.value))
  }

  lemma FourDigitsBound(s: string)
    requires |s| == 4 && AllDigits(s)
    ensures DecimalValue(s) <= 9999
  {
    var s3 := s[..3];
    var s2 := s3[..2];
    var s1 := s2[..1];
    assert DecimalValue(s1) <= 9 by { assert s1[..0] == []; }
    assert DecimalValue(s2) <= 99 by { assert s2[..1] == s1; }
    assert DecimalValue(s3) <= 999 by { assert s3[..2] == s2; }
    assert s[..3] == s3;
  }

  /** `strftime("%Y")` with the C library's rendering: the year's digits, unpadded. */
  function YearText(y: nat): string {
    NatToString(y)
  }

  predicate ValidDate(d: Date) {
    1 <= d.year && 1 <= d.month <= 12 && 1 <= d.day <= DaysInMonth(d.year, d.month)
  }

  /** `strftime("%Y-%m-%d")`. */
  function IsoText(d: Date): string
    requires ValidDate(d)
  {
    YearText(d.year) + "-" + Pad2(d.month) + "-" + Pad2(d.day)
  }

  lemma FourDigitYear(y: nat)
    requires 1000 <= y <= 9999
    ensures |YearText(y)| == 4
  {
    var a := y / 10;
    assert 100 <= a < 1000;
    var b := a / 10;
    assert 10 <= b < 100;
    var c := b / 10;
    assert 1 <= c < 10;
    assert |NatToString(b)| == |NatToString(c)| + 1 == 2;
    assert |NatToString(a)| == |NatToString(b)| + 1 == 3;
    assert |NatToString(y)| == |NatToString(a)| + 1;
  }

  /** Days rendered by `IsoText` always fit the `%d` field. */
  lemma DayFieldOfPad2(d: nat)
    requires 1 <= d <= 31
    ensures DayField(Pad2(d)) == Some(d)
  {
  }

  /** A four-digit-year date printed as `%Y-%m-%d` parses back to itself. */
  lemma IsoDateRoundTrip(d: Date)
    requires ValidDate(d) && 1000 <= d.year <= 9999
    ensures ParseIsoDate(IsoText(d)) == Some(d)
  {
    var s := IsoText(d);
    var y := YearText(d.year);
    FourDigitYear(d.year);
    NatToStringRoundTrip(d.year);
    var t := Pad2(d.month) + "-" + Pad2(d.day);
    assert s == y + "-" + t;
    assert s[..4] == y;
    assert s[4] == '-';
    assert s[5..] == t;
    assert t == Pad2(d.month) + ("-" + Pad2(d.day));
    DigitRunConcat(Pad2(d.month), "-" + Pad2(d.day));
    assert t[..2] == Pad2(d.month);
    assert t[3..] == Pad2(d.day);
    DayFieldOfPad2(d.day);
  }
}

=== FILE: test_base.dfy ===
/**
 * The results record of src/tests/functional/test_base.py and the methods
 * that change it: `_add_step`, `_update_step_status`, `_add_error`,
 * `set_test_result`, the configuration the record keeps, and the outcome of
 * `run_test`. Timestamps (`datetime.now().isoformat()`) are parameters; the
 * environment is a map.
 */
module TestBase {
  import opened Wrappers
  import opened Text
  import opened Json

  /** One step: `id`, `description`, `start_time`, `end_time`, `status`, `data`. */
  datatype Step = Step(id: string, description: string, startTime: string, endTime: Option<string>, status: string, data: map<string, Json>)

  /** One error: `step_id`, `message`, `time`. */
  datatype Error = Error(stepId: string, message: string, time: string)

  /** `self.results` */
  datatype Results = Results(
    testName: string, startTime: string, endTime: Option<string>, success: bool,
    steps: seq<Step>, errors: seq<Error>, screenshots: seq<string>, config: map<string, Json>)

  // ---- configuration ----

  /** The two keys the results record never keeps. */
  const SecretKeys: set<string> := {"club_caddie_username", "club_caddie_password"}

  /** `os.getenv(key, default)` */
  function Getenv(env: map<string, string>, key: string, default: string): string {
    if key in env then env[key] else default
  }

  /** `os.getenv(key)`, `None` as JSON null. */
  function GetenvOrNull(env: map<string, string>, key: string): Json {
    if key in env then JString(env[key]) else JNull
  }

  /** `int(os.getenv(key, default))` */
  function EnvInt(env: map<string, string>, key: string, default: string): Option<int> {
    PyInt(Getenv(env, key, default))
  }

  /** `os.getenv(key, default).lower() == "true"` */
  predicate EnvFlag(env: map<string, string>, key: string, default: string) {
    Lower(Getenv(env, key, default)) == "true"
  }

  /** `_load_config`: the test configuration read from the environment; `None` where an `int()` raises. */
  function LoadConfig(env: map<string, string>): (r: Option<map<string, Json>>)
    ensures r.Some? <==> EnvInt(env, "PLAYER_COUNT", "4").Some? && EnvInt(env, "DEBUG_TIMEOUT", "30").Some?
                         && EnvInt(env, "MAX_RETRIES", "2").Some? && EnvInt(env, "BOOKING_WINDOW_DAYS", "7").Some?
    ensures r.Some? ==> SecretKeys <= r.value.Keys
  {
    var players := EnvInt(env, "PLAYER_COUNT", "4");
    var timeout := EnvInt(env, "DEBUG_TIMEOUT", "30");
    var retries := EnvInt(env, "MAX_RETRIES", "2");
    var window := EnvInt(env, "BOOKING_WINDOW_DAYS", "7");
    if players.None? || timeout.None? || retries.None? || window.None? then None
    else Some(map[
      "dry_run" := JBool(EnvFlag(env, "DRY_RUN", "true")),
      "target_time" := JString(Getenv(env, "TARGET_TIME", "14:00")),
      "player_count" := JInt(players.value),
      "club_caddie_username" := GetenvOrNull(env, "CLUB_CADDIE_USERNAME"),
      "club_caddie_password" := GetenvOrNull(env, "CLUB_CADDIE_PASSWORD"),
      "debug_interactive" := JBool(EnvFlag(env, "DEBUG_INTERACTIVE", "false")),
      "debug_timeout" := JInt(timeout.value),
      "max_retries" := JInt(retries.value),
      "booking_window_days" := JInt(window.value)])
  }

  /** The configuration as recorded in the results: everything but the credentials. */
  function RecordedConfig(config: map<string, Json>): (r: map<string, Json>)
    ensures forall k :: k in SecretKeys ==> k !in r
    ensures forall k :: k in config && k !in SecretKeys ==> k in r && r[k] == config[k]
    ensures forall k :: k in r ==> k in config
  {
    map k | k in config && k !in SecretKeys :: config[k]
  }

  /** The results record of a new test, configuration loaded. */
  function NewResults(testName: string, now: string, config: map<string, Json>): (r: Results)
    ensures r.testName == testName && !r.success && r.endTime.None?
    ensures r.steps == [] && r.errors == [] && r.screenshots == []
    ensures forall k :: k in SecretKeys ==> k !in r.config
  {
    Results(testName, now, None, false, [], [], [], RecordedConfig(config))
  }

  /** The credentials are always loaded and always dropped: the record keeps every other setting. */
  lemma CredentialsNeverRecorded(testName: string, now: string, env: map<string, string>)
    requires LoadConfig(env).Some?
    ensures var r := NewResults(testName, now, LoadConfig(env).value);
            SecretKeys <= LoadConfig(env).value.Keys
            && r.config.Keys == LoadConfig(env).value.Keys - SecretKeys
  {
    var c := LoadConfig(env).value;
    var r := RecordedConfig(c);
    assert r.Keys == c.Keys - SecretKeys;
  }

  // ---- steps and errors ----

  /** `_add_step`: a running step, `data or {}`. */
  function AddStep(r: Results, id: string, description: string, now: string, data: Option<map<string, Json>>): (r': Results)
    ensures |r'.steps| == |r.steps| + 1 && r'.steps[..|r.steps|] == r.steps
    ensures var s := r'.steps[|r.steps|];
            s.id == id && s.status == "running" && s.endTime.None?
            && (data.None? ==> s.data == map[]) && (data.Some? ==> s.data == data.value)
    ensures r'.errors == r.errors && r'.success == r.success && r'.config == r.config
  {
    var step := Step(id, description, now, None, "running", if data.Some? then data.value else map[]);
    r.(steps := r.steps + [step])
  }

  /** Index of the first step with the given id. */
  function FirstStep(steps: seq<Step>, id: string, i: nat): (k: Option<nat>)
    requires i <= |steps|
    ensures k.Some? ==> i <= k.value < |steps| && steps[k.value].id == id
                        && forall j :: i <= j < k.value ==> steps[j].id != id
    ensures k.None? ==> forall j :: i <= j < |steps| ==> steps[j].id != id
    decreases |steps| - i
  {
    if i == |steps| then None else if steps[i].id == id then Some(i) else FirstStep(steps, id, i + 1)
  }

  /** The first step with an id is the one before which no step has it. */
  lemma FirstStepIs(steps: seq<Step>, id: string, k: nat)
    requires k < |steps| && steps[k].id == id
    requires forall j :: 0 <= j < k ==> steps[j].id != id
    ensures FirstStep(steps, id, 0) == Some(k)
  {
  }

  /** `_update_step_status`: the first step with the id gets the status and an end time, and non-empty data merged in. */
  function UpdateStepStatus(r: Results, id: string, status: string, now: string, data: Option<map<string, Json>>): (r': Results)
    ensures r'.errors == r.errors && r'.success == r.success && |r'.steps| == |r.steps|
    ensures FirstStep(r.steps, id, 0).None? ==> r' == r
    ensures FirstStep(r.steps, id, 0).Some? ==>
              var k := FirstStep(r.steps, id, 0).value;
              && (forall j :: 0 <= j < |r.steps| && j != k ==> r'.steps[j] == r.steps[j])
              && r'.steps[k].id == id && r'.steps[k].status == status && r'.steps[k].endTime == Some(now)
              && r'.steps[k].description == r.steps[k].description
              && (forall key :: key in r.steps[k].data ==> key in r'.steps[k].data)
              && (data.Some? ==> forall key :: key in data.value ==> key in r'.steps[k].data && r'.steps[k].data[key] == data.value[key])
              && (forall key :: key in r'.steps[k].data && (data.None? || key !in data.value) ==> key in r.steps[k].data && r'.steps[k].data[key] == r.steps[k].data[key])
  {
    match FirstStep(r.steps, id, 0)
      case None => r
      case Some(k) =>
        var s := r.steps[k];
        var merged := if data.Some? && data.value != map[] then s.data + data.value else s.data;
        r.(steps := r.steps[k := s.(status := status, endTime := Some(now), data := merged)])
  }

  /** `_add_error` */
  function AddError(r: Results, stepId: string, message: string, now: string): (r': Results)
    ensures r'.errors == r.errors + [Error(stepId, message, now)]
    ensures r'.steps == r.steps && r'.success == r.success && r'.config == r.config
  {
    r.(errors := r.errors + [Error(stepId, message, now)])
  }

  /** `set_test_result`: the flag always; a "test_result" error for a failure that carries a message. */
  function SetTestResult(r: Results, success: bool, message: Option<string>, now: string): (r': Results)
    ensures r'.success == success && r'.steps == r.steps
    ensures !success && message.Some? && message.value != "" ==> r'.errors == r.errors + [Error("test_result", message.value, now)]
    ensures success || message.None? || message.value == "" ==> r'.errors == r.errors
  {
    var flagged := r.(success := success);
    if !success && message.Some? && message.value != "" then AddError(flagged, "test_result", message.value, now)
    else flagged
  }

  /** A step just added is the one a later status update of its id reaches, if no earlier step shares the id. */
  lemma UpdateReachesAddedStep(r: Results, id: string, description: string, t0: string, status: string, t1: string)
    requires forall j :: 0 <= j < |r.steps| ==> r.steps[j].id != id
    ensures var r' := UpdateStepStatus(AddStep(r, id, description, t0, None), id, status, t1, None);
            |r'.steps| == |r.steps| + 1 && r'.steps[..|r.steps|] == r.steps
            && r'.steps[|r.steps|] == Step(id, description, t0, Some(t1), status, map[])
  {
    var a := AddStep(r, id, description, t0, None);
    assert forall j :: 0 <= j < |r.steps| ==> a.steps[j] == r.steps[j];
    FirstStepIs(a.steps, id, |r.steps|);
  }

  /** Updating twice with the same status and data leaves the record as one update does, up to the end time. */
  lemma UpdateIsIdempotent(r: Results, id: string, status: string, now: string, data: Option<map<string, Json>>)
    ensures var once := UpdateStepStatus(r, id, status, now, data);
            UpdateStepStatus(once, id, status, now, data) == once
  {
    var once := UpdateStepStatus(r, id, status, now, data);
    match FirstStep(r.steps, id, 0) {
      case None =>
      case Some(k) =>
        assert forall j :: 0 <= j < k ==> once.steps[j] == r.steps[j];
        FirstStepIs(once.steps, id, k);
        var s := once.steps[k];
        if data.Some? && data.value != map[] {
          assert s.data + data.value == s.data;
        }
    }
  }

  // ---- run_test ----

  /** What the test's `run` did: it returned a verdict or raised, having changed the record either way. */
  datatype RunReport = Finished(results: Results, ok: bool) | Raised(results: Results, message: string)

  /**
   * `run_test`: set-up records its step (and an error when it fails, ending
   * the test with False); otherwise the test runs, its verdict is recorded,
   * a raised exception recording a failure with its message, and tear-down
   * records its step and the end time. `teardownRaises` says whether closing
   * the browser raises: the end time is then never recorded and the outer
   * handler returns False. `now` stands for every timestamp.
   */
  function RunTest(r: Results, setupOk: bool, setupError: string, run: Results -> RunReport, teardownRaises: bool, now: string)
    : (out: (bool, Results))
    ensures !setupOk ==> !out.0 && out.1.errors == r.errors + [Error("setup", "Browser setup failed: " + setupError, now)]
    ensures var report := run(AddStep(r, "browser_setup", "Setting up browser for testing", now, None));
            setupOk ==>
              && (report.Finished? && !teardownRaises ==> out.0 == report.ok)
              && (report.Raised? || teardownRaises ==> !out.0)
              && out.1.success == (report.Finished? && report.ok)
    ensures setupOk && !teardownRaises ==> out.1.endTime == Some(now)
    ensures setupOk ==> |out.1.steps| > 0 && out.1.steps[|out.1.steps| - 1].id == "browser_teardown"
  {
    var started := AddStep(r, "browser_setup", "Setting up browser for testing", now, None);
    if !setupOk then (false, AddError(started, "setup", "Browser setup failed: " + setupError, now))
    else
      var (success, ran) := match run(started)
        case Finished(after, ok) => (ok, SetTestResult(after, ok, None, now))
        case Raised(after, message) => (false, SetTestResult(after, false, Some("Test execution error: " + message), now));
      var torn := AddStep(ran, "browser_teardown", "Tearing down browser", now, None);
      if teardownRaises then (false, torn) else (success, torn.(endTime := Some(now)))
  }

  /** A run that raises is recorded as a failure whose last error carries the exception's message. */
  lemma RaisedRunIsRecorded(r: Results, setupError: string, run: Results -> RunReport, teardownRaises: bool, now: string)
    requires run(AddStep(r, "browser_setup", "Setting up browser for testing", now, None)).Raised?
    ensures var out := RunTest(r, true, setupError, run, teardownRaises, now);
            var m := run(AddStep(r, "browser_setup", "Setting up browser for testing", now, None)).message;
            !out.0 && !out.1.success && |out.1.errors| > 0
            && out.1.errors[|out.1.errors| - 1] == Error("test_result", "Test execution error: " + m, now)
  {
  }
}

=== FILE: text.dfy ===
/**
 * String helpers with Python's meaning: `str.isspace`, `str.strip`,
 * ASCII `str.lower`, the `in` operator on strings, `str.split(sep)`,
 * `str.isdigit`, `int(str)` and `str(int)`.
 */
module Text {
  import opened Wrappers

  /** The characters Python's `str.isspace()` and a regex `\s` accept. */
  predicate IsSpace(c: char) {
    || c == ' ' || ('\t' <= c <= '\r') || ('\U{1c}' <= c <= '\U{1f}')
    || c == '\U{85}' || c == '\U{a0}' || c == '\U{1680}'
    || ('\U{2000}' <= c <= '\U{200a}') || c == '\U{2028}' || c == '\U{2029}'
    || c == '\U{202f}' || c == '\U{205f}' || c == '\U{3000}'
  }

  predicate IsDigit(c: char) {
    '0' <= c <= '9'
  }

  predicate AllDigits(s: string) {
    forall i :: 0 <= i < |s| ==> IsDigit(s[i])
  }

  /** Python's `s.isdigit()`, restricted to ASCII digits. */
  predicate IsDigitString(s: string) {
    |s| > 0 && AllDigits(s)
  }

  function LowerChar(c: char): char {
    if 'A' <= c <= 'Z' then (c as int + 32) as char else c
  }

  /** `s.lower()` on ASCII letters; every other character is kept. */
  function Lower(s: string): (r: string)
    ensures |r| == |s|
    ensures forall i :: 0 <= i < |s| ==> r[i] == LowerChar(s[i])
  {
    seq(|s|, i requires 0 <= i < |s| => LowerChar(s[i]))
  }

  /** Drops leading whitespace: the result is a suffix of `s` preceded only by whitespace. */
  function TrimStart(s: string): (r: string)
    ensures |r| <= |s| && r == s[|s| - |r|..]
    ensures |r| > 0 ==> !IsSpace(r[0])
    ensures forall i :: 0 <= i < |s| - |r| ==> IsSpace(s[i])
  {
    if |s| > 0 && IsSpace(s[0]) then TrimStart(s[1..]) else s
  }

  /** Drops trailing whitespace: the result is a prefix of `s` followed only by whitespace. */
  function TrimEnd(s: string): (r: string)
    ensures |r| <= |s| && r == s[..|r|]
    ensures |r| > 0 ==> !IsSpace(r[|r| - 1])
    ensures forall i :: |r| <= i < |s| ==> IsSpace(s[i])
  {
    if |s| > 0 && IsSpace(s[|s| - 1]) then TrimEnd(s[..|s| - 1]) else s
  }

  /** `s.strip()` */
  function Strip(s: string): (r: string)
    ensures |r| <= |s|
    ensures |r| > 0 ==> !IsSpace(r[0]) && !IsSpace(r[|r| - 1])
  {
    TrimEnd(TrimStart(s))
  }

  /** `sub` occurs in `s` starting at index `i`. */
  predicate OccursAt(s: string, sub: string, i: int) {
    0 <= i && i + |sub| <= |s| && s[i..i + |sub|] == sub
  }

  /** Python's `sub in s`. */
  predicate Contains(s: string, sub: string) {
    exists i :: 0 <= i <= |s| - |sub| && OccursAt(s, sub, i)
  }

  /** Containment of strings is transitive. */
  lemma ContainsTransitive(s: string, t: string, u: string)
    requires Contains(s, t) && Contains(t, u)
    ensures Contains(s, u)
  {
    var i :| 0 <= i <= |s| - |t| && OccursAt(s, t, i);
    var j :| 0 <= j <= |t| - |u| && OccursAt(t, u, j);
    assert t == s[i..i + |t|];
    forall k | 0 <= k < |u|
      ensures s[i + j + k] == u[k]
    {
      assert u[k] == t[j + k];
    }
    assert s[i + j..i + j + |u|] == u;
    assert OccursAt(s, u, i + j);
  }

  /** Any string contains each of its own slices. */
  lemma ContainsSlice(s: string, i: int, j: int)
    requires 0 <= i <= j <= |s|
    ensures Contains(s, s[i..j])
  {
    assert OccursAt(s, s[i..j], i);
  }

  /** A string contains whatever sits between its beginning and its end. */
  lemma ContainsMiddle(a: string, b: string, c: string)
    ensures Contains(a + b + c, b)
  {
    var s := a + b + c;
    assert s[|a|..|a| + |b|] == b;
    assert OccursAt(s, b, |a|);
  }

  /** Python's `s.split(sep)` for a one-character separator. */
  function Split(s: string, sep: char): (r: seq<string>)
    ensures |r| >= 1
    ensures forall k :: 0 <= k < |r| ==> sep !in r[k]
  {
    if |s| == 0 then [""]
    else
      var rest := Split(s[1..], sep);
      if s[0] == sep then [""] + rest else [[s[0]] + rest[0]] + rest[1..]
  }

  /** Python's `sep.join(parts)` */
  function Join(parts: seq<string>, sep: char): string {
    if |parts| == 0 then ""
    else if |parts| == 1 then parts[0]
    else parts[0] + [sep] + Join(parts[1..], sep)
  }

  /** Splitting loses nothing: joining the pieces back gives the original string. */
  lemma {:induction false} SplitJoin(s: string, sep: char)
    ensures Join(Split(s, sep), sep) == s
  {
    if |s| > 0 {
      SplitJoin(s[1..], sep);
      var rest := Split(s[1..], sep);
      if s[0] != sep && |rest| > 1 {
        assert Join(rest, sep) == rest[0] + [sep] + Join(rest[1..], sep);
      }
      assert s == [s[0]] + s[1..];
    }
  }

  /** `s` with every occurrence of `c` removed, as `s.replace(c, '')`. */
  function Remove(s: string, c: char): (r: string)
    ensures c !in r
    ensures |r| <= |s|
  {
    if |s| == 0 then ""
    else if s[0] == c then Remove(s[1..], c)
    else [s[0]] + Remove(s[1..], c)
  }

  function DigitValue(c: char): nat
    requires IsDigit(c)
  {
    c as int - '0' as int
  }

  function DigitChar(d: nat): (c: char)
    requires d < 10
    ensures IsDigit(c) && DigitValue(c) == d
  {
    ('0' as int + d) as char
  }

  /** The value of a string of decimal digits (0 for the empty string). */
  function DecimalValue(s: string): nat
    requires AllDigits(s)
  {
    if |s| == 0 then 0 else DecimalValue(s[..|s| - 1]) * 10 + DigitValue(s[|s| - 1])
  }

  /** Decimal digits of `n` without leading zeros: Python's `str(n)` for n >= 0. */
  function NatToString(n: nat): (r: string)
    ensures IsDigitString(r)
    ensures r[0] != '0' || n == 0
  {
    if n < 10 then [DigitChar(n)] else NatToString(n / 10) + [DigitChar(n % 10)]
  }

  /** Python's `str(n)` for any integer. */
  function IntToString(n: int): string {
    if n < 0 then "-" + NatToString(-n) else NatToString(n)
  }

  /** Reading back the digits printed for `n` gives `n`. */
  lemma {:induction false} NatToStringRoundTrip(n: nat)
    ensures DecimalValue(NatToString(n)) == n
  {
    if n >= 10 {
      NatToStringRoundTrip(n / 10);
      var s := NatToString(n);
      assert s[..|s| - 1] == NatToString(n / 10);
    }
  }

  /**
   * Python's `int(s)` on base-10 text: surrounding whitespace is ignored,
   * one optional sign, then at least one digit. `None` where Python raises.
   */
  function PyInt(s: string): Option<int> {
    var t := Strip(s);
    if |t| > 0 && (t[0] == '-' || t[0] == '+') then
      if IsDigitString(t[1..]) then
        var v: int := DecimalValue(t[1..]);
        Some(if t[0] == '-' then -v else v)
      else None
    else if IsDigitString(t) then Some(DecimalValue(t))
    else None
  }

  /** `int(str(n)) == n` */
  lemma PyIntOfIntToString(n: int)
    ensures PyInt(IntToString(n)) == Some(n)
  {
    var s := IntToString(n);
    var d := NatToString(if n < 0 then -n else n);
    NatToStringRoundTrip(if n < 0 then -n else n);
    if n < 0 {
      assert s == "-" + d;
      assert s[1..] == d;
      assert s[|s| - 1] == d[|d| - 1];
    } else {
      assert s == d;
    }
    StripNoSpace(s);
    assert Strip(s) == s;
    if n < 0 {
      assert IsDigitString(s[1..]);
    } else {
      assert !(s[0] == '-' || s[0] == '+');
    }
  }

  /** Strip leaves a string alone when its ends are not whitespace. */
  lemma StripNoSpace(s: string)
    requires |s| > 0 && !IsSpace(s[0]) && !IsSpace(s[|s| - 1])
    ensures Strip(s) == s
  {
    assert TrimStart(s) == s;
  }

  /** Two-digit zero-padded rendering, as `%02d` / strftime's `%m` and `%d`. */
  function Pad2(n: nat): (r: string)
    requires n < 100
    ensures |r| == 2 && AllDigits(r) && DecimalValue(r) == n
  {
    var r := [DigitChar(n / 10), DigitChar(n % 10)];
    assert r[..1] == [r[0]];
    assert DecimalValue(r[..1]) == n / 10 by { assert r[..1][..0] == []; }
    r
  }
}

=== FILE: time_parse.dfy ===
/**
 * `parse_time` of src/functions/booking.py and the time pattern
 * `\d{1,2}:\d{2}\s*[AP]M` (case-insensitive) that the scanners search page text with.
 */
module TimeParse {
  import opened Wrappers
  import opened Text
  import opened Strptime

  /** The clock formats tried, in order. */
  const ClockFormats: seq<ClockFormat> := [Spaced12, Compact12, Clock24]

  /** The first format of `fmts`, from index `i` on, that reads `t`, and the clock it reads. */
  function FirstClock(t: string, fmts: seq<ClockFormat>, i: nat): (r: Option<Clock>)
    requires i <= |fmts|
    ensures r.Some? <==> exists k :: i <= k < |fmts| && ParseClock(t, fmts[k]).Some?
    ensures r.Some? ==> exists k :: i <= k < |fmts| && ParseClock(t, fmts[k]) == r
                                    && forall j :: i <= j < k ==> ParseClock(t, fmts[j]).None?
    decreases |fmts| - i
  {
    if i == |fmts| then None
    else if ParseClock(t, fmts[i]).Some? then ParseClock(t, fmts[i])
    else FirstClock(t, fmts, i + 1)
  }

  /** `^\d{1,2}\:\d{2}(AM|PM|am|pm)$`, the shape the last-resort branch of parse_time looks for. */
  predicate FallbackShape(t: string) {
    var a := DigitRun(t);
    1 <= a <= 2 && |t| == a + 5 && t[a] == ':' && IsDigit(t[a + 1]) && IsDigit(t[a + 2])
    && t[a + 3..] in {"AM", "PM", "am", "pm"}
  }

  /** `f"{t[:-2]} {t[-2:].upper()}"` */
  function Respaced(t: string): string
    requires |t| >= 2
  {
    var p := t[|t| - 2..];
    t[..|t| - 2] + " " + [UpperChar(p[0]), UpperChar(p[1])]
  }

  function UpperChar(c: char): char {
    if 'a' <= c <= 'z' then (c as int - 32) as char else c
  }

  /**
   * parse_time: strip, then `%I:%M %p`, `%I:%M%p`, `%H:%M` in that order, then the
   * respacing fallback; minutes since midnight of the first success, `None` otherwise.
   */
  function ParseTime(s: string): (r: Option<nat>)
    ensures r.Some? ==> r.value < 1440
  {
    var t := Strip(s);
    var c := FirstClock(t, ClockFormats, 0);
    if c.Some? then Some(c.value.Minutes())
    else if FallbackShape(t) && ParseClock(Respaced(t), Spaced12).Some? then
      Some(ParseClock(Respaced(t), Spaced12).value.Minutes())
    else None
  }

  /** The three parts of a string of fallback shape. */
  lemma FallbackParts(t: string) returns (hs: string, ms: string, p: string)
    requires FallbackShape(t)
    ensures IsDigitString(hs) && |hs| <= 2 && |ms| == 2 && AllDigits(ms)
    ensures p in {"AM", "PM", "am", "pm"}
    ensures t == hs + ":" + ms + p
    ensures Respaced(t) == hs + ":" + ms + (" " + [UpperChar(p[0]), UpperChar(p[1])])
  {
    var a := DigitRun(t);
    hs, ms, p := t[..a], t[a + 1..a + 3], t[a + 3..];
    assert t == hs + ":" + ms + p;
    assert t[..|t| - 2] == hs + ":" + ms;
  }

  /** Whenever the respacing fallback reads a time, `%I:%M%p` already read the same time. */
  lemma FallbackIsSubsumed(t: string)
    requires FallbackShape(t)
    ensures ParseClock(t, Compact12) == ParseClock(Respaced(t), Spaced12)
  {
    var hs, ms, p := FallbackParts(t);
    var rest := " " + [UpperChar(p[0]), UpperChar(p[1])];
    SplitClockOf(hs, ms, p);
    SplitClockOf(hs, ms, rest);
    SpacedUpper(p);
  }

  /** The respaced, upper-cased suffix is read as the same half of the day. */
  lemma SpacedUpper(p: string)
    requires p in {"AM", "PM", "am", "pm"}
    ensures Meridiem(p).Some?
    ensures SpacedMeridiem(" " + [UpperChar(p[0]), UpperChar(p[1])]) == Meridiem(p)
  {
    var up := [UpperChar(p[0]), UpperChar(p[1])];
    var rest := " " + up;
    assert rest[|rest| - 2..] == up;
  }

  /** parse_time is exactly "the first of the three formats that reads the stripped text". */
  lemma ParseTimeIsFirstFormat(s: string)
    ensures ParseTime(s) == (var c := FirstClock(Strip(s), ClockFormats, 0);
                             if c.Some? then Some(c.value.Minutes()) else None)
  {
    var t := Strip(s);
    if FirstClock(t, ClockFormats, 0).None? && FallbackShape(t) {
      FallbackNeverNeeded(t);
    }
  }

  /** When no format reads `t`, neither does the respacing fallback. */
  lemma FallbackNeverNeeded(t: string)
    requires FirstClock(t, ClockFormats, 0).None? && FallbackShape(t)
    ensures ParseClock(Respaced(t), Spaced12).None?
  {
    assert ParseClock(t, ClockFormats[1]).None?;
    FallbackIsSubsumed(t);
  }

  /** parse_time reads the site's "H:MM AM/PM" display form back to the same minute. */
  lemma ParseTimeDisplay12(m: nat)
    requires m < 1440
    ensures ParseTime(Display12(m)) == Some(m)
  {
    var d := Display12(m);
    Display12RoundTrip(m);
    ClockOfMinutes(m);
    var h := m / 60;
    var h12 := if h % 12 == 0 then 12 else h % 12;
    assert d[0] == NatToString(h12)[0];
    assert d[|d| - 1] == 'M';
    StripNoSpace(d);
  }

  /** parse_time reads the 24-hour form "HH:MM" back to the same minute. */
  lemma ParseTimeDisplay24(m: nat)
    requires m < 1440
    ensures ParseTime(Display24(m)) == Some(m)
  {
    var d := Display24(m);
    Display24RoundTrip(m);
    ClockOfMinutes(m);
    assert d[0] == Pad2(m / 60)[0];
    assert d[|d| - 1] == Pad2(m % 60)[1];
    StripNoSpace(d);
    assert SplitClock(d).value.rest == "";
  }

  /** Leading and trailing whitespace never changes what parse_time reads. */
  lemma ParseTimeIgnoresPadding(s: string, pre: string, post: string)
    requires forall i :: 0 <= i < |pre| ==> IsSpace(pre[i])
    requires forall i :: 0 <= i < |post| ==> IsSpace(post[i])
    ensures ParseTime(pre + s + post) == ParseTime(s)
  {
    StripPadding(s, pre, post);
  }

  lemma StripPadding(s: string, pre: string, post: string)
    requires forall i :: 0 <= i < |pre| ==> IsSpace(pre[i])
    requires forall i :: 0 <= i < |post| ==> IsSpace(post[i])
    ensures Strip(pre + s + post) == Strip(s)
  {
    assert pre + s + post == pre + (s + post);
    StripDropsPrefix(s + post, pre);
    StripDropsSuffix(s, post);
  }

  lemma StripDropsPrefix(t: string, pre: string)
    requires forall i :: 0 <= i < |pre| ==> IsSpace(pre[i])
    ensures Strip(pre + t) == Strip(t)
  {
    TrimStartPrefix(t, pre);
  }

  lemma StripDropsSuffix(s: string, post: string)
    requires forall i :: 0 <= i < |post| ==> IsSpace(post[i])
    ensures Strip(s + post) == Strip(s)
  {
    if TrimStart(s) == "" {
      TrimStartAllSpace(s + post);
    } else {
      TrimStartSuffix(s, post);
      TrimEndPrefixFree(TrimStart(s), post);
    }
  }

  lemma {:induction false} TrimStartPrefix(s: string, pre: string)
    requires forall i :: 0 <= i < |pre| ==> IsSpace(pre[i])
    ensures TrimStart(pre + s) == TrimStart(s)
  {
    if |pre| > 0 {
      assert (pre + s)[1..] == pre[1..] + s;
      TrimStartPrefix(s, pre[1..]);
    } else {
      assert pre + s == s;
    }
  }

  lemma {:induction false} TrimStartSuffix(s: string, post: string)
    requires TrimStart(s) != ""
    ensures TrimStart(s + post) == TrimStart(s) + post
  {
    assert (s + post)[1..] == s[1..] + post;
    if IsSpace(s[0]) { TrimStartSuffix(s[1..], post); }
  }

  lemma {:induction false} TrimStartAllSpace(s: string)
    requires forall i :: 0 <= i < |s| ==> IsSpace(s[i])
    ensures TrimStart(s) == ""
  {
    if |s| > 0 { TrimStartAllSpace(s[1..]); }
  }

  lemma {:induction false} TrimEndPrefixFree(s: string, post: string)
    requires forall i :: 0 <= i < |post| ==> IsSpace(post[i])
    ensures TrimEnd(s + post) == TrimEnd(s)
  {
    if |post| > 0 {
      var q := post[..|post| - 1];
      assert (s + post)[..|s + post| - 1] == s + q;
      TrimEndPrefixFree(s, q);
    } else {
      assert s + post == s;
    }
  }

  /** The three spellings the booking page uses for 2 PM all parse to minute 840. */
  lemma ParseTimeFormatTolerance(spaced: string, compact: string, clock24: string)
    requires spaced == "2:00 PM" && compact == "2:00PM" && clock24 == "14:00"
    ensures ParseTime(spaced) == Some(840)
    ensures ParseTime(compact) == Some(840)
    ensures ParseTime(clock24) == Some(840)
  {
    TwoPmTexts();
    Display12Example(840, spaced);
    Display24Example(840, clock24);
    CompactTwoPm(compact);
  }

  lemma TwoPmTexts()
    ensures Display12(840) == "2:00 PM"
    ensures Display24(840) == "14:00"
  {
    assert 840 / 60 == 14 && 840 % 60 == 0 && 14 % 12 == 2;
    var two, fourteen, zero := NatToString(2), Pad2(14), Pad2(0);
    assert two == "2" by { assert DigitChar(2) == '2'; }
    assert fourteen == "14" by { assert DigitChar(1) == '1' && DigitChar(4) == '4'; }
    assert zero == "00" by { assert DigitChar(0) == '0'; }
    assert Display12(840) == two + ":" + zero + " " + "PM";
    assert Display24(840) == fourteen + ":" + zero;
  }

  lemma CompactTwoPm(compact: string)
    requires compact == "2:00PM"
    ensures ParseTime(compact) == Some(840)
  {
    StripNoSpace(compact);
    SplitClockOf("2", "00", "PM");
    assert compact == "2" + ":" + "00" + "PM";
    assert ParseClock(compact, Spaced12).None?;
    assert ParseClock(compact, Compact12) == Some(Clock(14, 0));
  }

  /** 12 AM is minute 0 and 12 PM is minute 720. */
  lemma ParseTimeMidnightNoon(midnight: string, noon: string)
    requires midnight == "12:00 AM" && noon == "12:00 PM"
    ensures ParseTime(midnight) == Some(0)
    ensures ParseTime(noon) == Some(720)
  {
    MidnightNoonTexts();
    Display12Example(0, midnight);
    Display12Example(720, noon);
  }

  lemma MidnightNoonTexts()
    ensures Display12(0) == "12:00 AM"
    ensures Display12(720) == "12:00 PM"
  {
    assert 720 / 60 == 12 && 720 % 60 == 0 && 12 % 12 == 0;
    var twelve, zero := NatToString(12), Pad2(0);
    assert twelve == "12" by { assert DigitChar(1) == '1' && DigitChar(2) == '2'; }
    assert zero == "00" by { assert DigitChar(0) == '0'; }
    assert Display12(0) == twelve + ":" + zero + " " + "AM";
    assert Display12(720) == twelve + ":" + zero + " " + "PM";
  }

  /** Text whose stripped form does not start with a digit is never a time. */
  lemma ParseTimeNeedsLeadingDigit(s: string)
    requires |Strip(s)| == 0 || !IsDigit(Strip(s)[0])
    ensures ParseTime(s) == None
  {
    var t := Strip(s);
    assert DigitRun(t) == 0;
    assert SplitClock(t).None?;
  }

  lemma ParseTimeRejectsText(s: string)
    requires s == "not a time"
    ensures ParseTime(s) == None
  {
    StripNoSpace(s);
    ParseTimeNeedsLeadingDigit(s);
  }

  lemma Display12Example(m: nat, text: string)
    requires m < 1440 && text == Display12(m)
    ensures ParseTime(text) == Some(m)
  {
    ParseTimeDisplay12(m);
  }

  lemma Display24Example(m: nat, text: string)
    requires m < 1440 && text == Display24(m)
    ensures ParseTime(text) == Some(m)
  {
    ParseTimeDisplay24(m);
  }

  // ---- the time pattern `\d{1,2}:\d{2}\s*[AP]M`, case-insensitive ----

  /** Number of whitespace characters at the start of `s`. */
  function SpaceRun(s: string): (n: nat)
    ensures n <= |s|
    ensures forall i :: 0 <= i < n ==> IsSpace(s[i])
    ensures n < |s| ==> !IsSpace(s[n])
  {
    if |s| > 0 && IsSpace(s[0]) then 1 + SpaceRun(s[1..]) else 0
  }

  /** End of `:\d{2}\s*[AP]M` starting at `j`, if it matches there. */
  function PatternTailEnd(s: string, j: nat): (r: Option<nat>)
    ensures r.Some? ==> j + 5 <= r.value <= |s|
  {
    if j + 3 <= |s| && s[j] == ':' && IsDigit(s[j + 1]) && IsDigit(s[j + 2]) then
      var k := j + 3 + SpaceRun(s[j + 3..]);
      if k + 2 <= |s| && LowerChar(s[k]) in {'a', 'p'} && LowerChar(s[k + 1]) == 'm' then Some(k + 2)
      else None
    else None
  }

  /** End of the pattern matched at `i`, trying two hour digits before one (the regex's greedy order). */
  function PatternEndAt(s: string, i: nat): (r: Option<nat>)
    ensures r.Some? ==> i + 6 <= r.value <= |s|
  {
    if i + 2 <= |s| && IsDigit(s[i]) && IsDigit(s[i + 1]) && PatternTailEnd(s, i + 2).Some? then
      PatternTailEnd(s, i + 2)
    else if i < |s| && IsDigit(s[i]) then PatternTailEnd(s, i + 1)
    else None
  }

  /** Where the pattern ends when matched at each position of `s`. */
  function PatternEnds(s: string): (ends: seq<Option<nat>>)
    ensures |ends| == |s|
    ensures forall k :: 0 <= k < |s| ==> ends[k] == PatternEndAt(s, k)
  {
    seq(|s|, k requires 0 <= k < |s| => PatternEndAt(s, k))
  }

  /** The first position at or after `i` where the pattern matches, or `|s|` when there is none. */
  function FirstMatchFrom(s: string, i: nat): (j: nat)
    requires i <= |s|
    ensures i <= j <= |s|
    ensures forall k :: i <= k < j ==> PatternEndAt(s, k).None?
    ensures j < |s| ==> PatternEndAt(s, j).Some?
  {
    var ends := PatternEnds(s);
    var j := FirstSome(ends, i);
    assert forall k :: i <= k < j ==> ends[k] == PatternEndAt(s, k);
    j
  }

  function SearchFrom(s: string, i: nat): (r: Option<string>)
    requires i <= |s|
    ensures r.None? <==> forall j :: i <= j < |s| ==> PatternEndAt(s, j).None?
    ensures r.Some? ==> exists j :: i <= j < |s| && PatternEndAt(s, j).Some? && r.value == s[j..PatternEndAt(s, j).value]
                                    && forall k :: i <= k < j ==> PatternEndAt(s, k).None?
    ensures r.Some? ==> Contains(s, r.value) && |r.value| >= 6
  {
    var j := FirstMatchFrom(s, i);
    if j == |s| then None
    else
      var e := PatternEndAt(s, j).value;
      ContainsSlice(s, j, e);
      Some(s[j..e])
  }

  /** `time_pattern.search(text).group(0)`: the leftmost match of the time pattern, if any. */
  function TimeMatch(s: string): (r: Option<string>)
    ensures r.None? <==> forall j :: 0 <= j < |s| ==> PatternEndAt(s, j).None?
    ensures r.Some? ==> Contains(s, r.value) && |r.value| >= 6
  {
    SearchFrom(s, 0)
  }
}

=== FILE: wrappers.dfy ===
/** Optional values, standing in for Python's `None`-or-value returns. */
module Wrappers {

  datatype Option<+T> = None | Some(value: T) {

    /** The carried value, or `default` when there is none. */
    function GetOr(default: T): T {
      match this
      case Some(v) => v
      case None => default
    }
  }

  /** The first index at or after `i` holding a value, or `|xs|` when there is none. */
  function FirstSome<T>(xs: seq<Option<T>>, i: nat): (j: nat)
    requires i <= |xs|
    ensures i <= j <= |xs|
    ensures forall k :: i <= k < j ==> xs[k].None?
    ensures j < |xs| ==> xs[j].Some?
    decreases |xs| - i
  {
    if i == |xs| || xs[i].Some? then i else FirstSome(xs, i + 1)
  }
}
